=== FILE: README.md ===
# Artinafti upscaling core in Dafny

This project models the image-upscaling core of Artinafti, a NestJS host that drives a persistent Python worker process. The model covers:

- **The host.** It queues upscale jobs, either on a BullMQ queue ("queue mode") or in an in-memory map of local records ("local mode"). It reports job status and looks up result files.
- **The worker supervisor** (`PythonExecutorService`). It talks to the worker over a JSON-lines protocol and correlates replies with pending promises by job id. It restarts the worker when it exits. The compiled build (`dist/`) stops after three exits; the TypeScript source (`src/`) restarts forever.
- **The Python worker loop** (`worker.py`). It reads one job per line, dispatches it to the ESRGAN, FLUX or Imagen upscaler, and writes one reply.
- **The three upscalers' control flow and sizing arithmetic.** This includes the print-size calculator and ESRGAN's tiling plan.
- **`save_image_formats`.**
- **The three request DTOs**, with their ranges and defaults.

Everything is immutable data and pure functions:

- Python floats are `real`, and `int()` is truncation toward zero.
- JSON values are the `Values.Value` datatype.
- The JSON codec, the file system, the model files, the clock, the random seed draw, the Imagen HTTP response and the credentials lookup are all parameters (an `Env` record or a function argument).
- The supervisor is a transition system over its events: a parsed line from a given spawn, a process exit, a due restart, and a startup timeout. Each transition returns the promises it settled, as a map from job id to outcome.
- `LocalMode` and `QueueMode` compose the dispatcher, the consumer and the supervisor into whole systems. `Pipeline` composes the host and the worker for one job.

## Model

| member | source | states |
|---|---|---|
| Values.Trunc | python-scripts/utils/dimension_calculator.py:35-36 | Python `int()` of a float truncates toward zero: the result is within one of the argument, on the side of zero |
| Dimensions.MatchedScale | python-scripts/utils/dimension_calculator.py:41-53 | when the aspects match, the output is exactly the print size, the scale maps the input width onto it, and there is no crop |
| Dimensions.TallerScale | python-scripts/utils/dimension_calculator.py:55-67 | a relatively taller input is scaled to the print width; the height is the truncated scaled height, the crop is the excess height, and the crop in inches times the DPI is the crop in pixels |
| Dimensions.WiderScale | python-scripts/utils/dimension_calculator.py:68-80 | a relatively wider input is scaled to the print height; the width is the truncated scaled width and the crop is the excess width |
| Dimensions.CalculateScaleForCrop | python-scripts/utils/dimension_calculator.py:9-92 | ZeroDivisionError exactly on the divisions that divide by zero; otherwise the final size is the truncated print size in pixels, with no crop iff the aspects agree within 0.01, a vertical crop iff the input is relatively taller, and a horizontal crop otherwise |
| Dimensions.CropInfoOf | python-scripts/utils/dimension_calculator.py:130-136 | crop information is absent exactly when the direction is "none", and otherwise carries the direction and both crop amounts |
| Dimensions.FactorOrDefault | python-scripts/utils/dimension_calculator.py:116 | a missing or zero factor falls back to 4; any other factor is used as given |
| Dimensions.CalculateOutputDimensions | python-scripts/utils/dimension_calculator.py:95-143 | without both print dimensions the output is the input times the factor, with no crop; with both it is the crop calculation's output size, with a crop report iff a crop is needed that carries the calculation's direction and both crop amounts, or that calculation's error |
| Dimensions.OutputCoversPrint | python-scripts/utils/dimension_calculator.py:17-21 | for positive inputs and a print size that is a whole number of pixels, the output is at least the print size in both dimensions and the crop amount is never negative |
| Dimensions.ScaleCoversPrint | python-scripts/utils/dimension_calculator.py:41-80 | the same coverage for any result that satisfies the calculation's per-branch contract |
| Dimensions.TallerCoversPrint | python-scripts/utils/dimension_calculator.py:55-67 | the vertical branch covers the print |
| Dimensions.WiderCoversPrint | python-scripts/utils/dimension_calculator.py:68-80 | the horizontal branch covers the print |
| Dimensions.ExcessHeight | python-scripts/utils/dimension_calculator.py:55-59 | scaling a relatively taller input to the print width gives more than the print height |
| Dimensions.ExcessWidth | python-scripts/utils/dimension_calculator.py:68-72 | scaling a relatively wider input to the print height gives at least the print width |
| Dimensions.TruncatedScale | python-scripts/utils/dimension_calculator.py:59 | truncating `n * num / den` gives the k with `k * den <= n * num < (k + 1) * den` |
| Dimensions.OversizeKeepsAspect | python-scripts/utils/dimension_calculator.py:55-80 | the oversized dimension keeps the input's aspect ratio to within one pixel (it is the exact scaled size rounded down) |
| Dimensions.TallerKeepsAspect | python-scripts/utils/dimension_calculator.py:57-59 | the vertical case of the aspect bound |
| Dimensions.WiderKeepsAspect | python-scripts/utils/dimension_calculator.py:70-72 | the horizontal case of the aspect bound |
| Tiles.FloorDiv | python-scripts/services/esrgan_upscaler.py:88 | Python's `//` is floor division for divisors of either sign |
| Tiles.FloorMod | python-scripts/services/esrgan_upscaler.py:88 | Python's `%` goes with floor division: its sign follows the divisor, and `a == (a // b) * b + a % b` |
| Tiles.TileCount | python-scripts/services/esrgan_upscaler.py:87-89 | ZeroDivisionError iff the overlap equals the tile size; otherwise at least one tile, and for a positive stride the least count whose strides reach `len - overlap` |
| Tiles.SpanAt | python-scripts/services/esrgan_upscaler.py:93-96 | with `0 <= overlap < tile`, every tile is a non-empty range inside the axis, and the first starts at 0 |
| Tiles.Spans | python-scripts/services/esrgan_upscaler.py:91-96 | the tiles of one axis, one per index, in loop order |
| Tiles.SpansChain | python-scripts/services/esrgan_upscaler.py:87-96 | with `0 <= overlap < tile` the tiles start at 0, end at the axis length, stay inside it, and leave no gap between neighbours |
| Tiles.NeighboursMeet | python-scripts/services/esrgan_upscaler.py:93-96 | each tile starts no later than the previous one ends |
| Tiles.LastSpanEnds | python-scripts/services/esrgan_upscaler.py:88-95 | the last tile ends at the far edge, because the count is a ceiling |
| Tiles.ChainCovers | python-scripts/services/esrgan_upscaler.py:125-128 | a gap-free chain reads every row, so no output pixel has zero accumulated weight |
| Tiles.PrefixCovers | python-scripts/services/esrgan_upscaler.py:91-96 | a row below the end of tile k is read by one of tiles 0..k |
| Tiles.PlanTiles | python-scripts/services/esrgan_upscaler.py:72-110 | the whole image is one pass iff it fits in a tile; otherwise the output is the input times the scale, the feather is half the scaled overlap, and there is a ZeroDivisionError iff the overlap equals the tile size |
| Tiles.TiledPlanCovers | python-scripts/services/esrgan_upscaler.py:75-128 | with `0 <= overlap < tile` a tiled plan's rows and columns are gap-free chains that read every row and column of the input |
| Tiles.NegativeOverlapLeavesGap | python-scripts/services/esrgan_upscaler.py:87-96 | a negative overlap (not prevented by any check) skips rows: on 10 rows with tile 4 and overlap -2, row 4 is never read |
| ImageUtils.Lower | python-scripts/utils/image_utils.py:41 | lower-casing keeps the length and maps each ASCII capital to its small letter |
| ImageUtils.SuffixFor | python-scripts/utils/image_utils.py:40-49 | ".png" iff the lower-cased format is "png", ".tiff" iff it is "tiff" or "tif", and nothing for any other format |
| ImageUtils.SavedPaths | python-scripts/utils/image_utils.py:39-51 | at most one path per format, and none for no formats |
| ImageUtils.SaveImageFormats | python-scripts/utils/image_utils.py:14-51 | a missing format list saves one PNG at `<dir>/<name>.png` |
| ImageUtils.AcceptedFormats | python-scripts/utils/image_utils.py:40-49 | the reference list: the accepted formats, in input order |
| ImageUtils.SavedPathsFollowFormats | python-scripts/utils/image_utils.py:39-51 | the saved paths are exactly the accepted formats' paths, one each, in input order |
| ImageUtils.SavedPathsAppend | python-scripts/utils/image_utils.py:40-49 | saving a concatenated list saves each part in turn |
| ImageUtils.SingleFormat | python-scripts/utils/image_utils.py:40-49 | a one-format list saves one path when the format is accepted and nothing otherwise |
| ImageUtils.Finish | python-scripts/services/esrgan_upscaler.py:237-244 | `output_path` is the first saved path, or None iff nothing was saved; all saved paths, the size and the crop are reported |
| ImageUtils.LastSegment | dist/upscaler/upscaler.service.js:110 | `split(...).pop()` gives a suffix of the path that contains no separator |
| ImageUtils.LastSegmentOfJoin | dist/upscaler/upscaler.service.js:109-111 | the last segment of `<dir>/<file>` is `file` when the file name has no separator |
| ImageUtils.LastSegmentSuffix | dist/upscaler/upscaler.service.js:136 | after a separator, the last segment is the separator-free rest |
| ImageUtils.Stem | python-scripts/services/flux_upscaler.py:173 | pathlib's stem of the last '/'-segment: the whole name when it ends in a dot or has no dot after its first character, otherwise the part before the last dot, which is non-empty and followed by a non-empty suffix without dots |
| ImageUtils.StemOfJoin | python-scripts/services/flux_upscaler.py:173 | the stem of `<dir>/<base>.<ext>` is `base` |
| ImageUtils.LastDot | python-scripts/services/flux_upscaler.py:173 | the index of the last dot, or -1 when there is none |
| JobConfig.PathOf | python-scripts/services/esrgan_upscaler.py:156 | `Path(v)` succeeds exactly on strings and keeps the string |
| JobConfig.RequiredPath | python-scripts/services/esrgan_upscaler.py:156 | a missing `image_path` raises KeyError with that key |
| JobConfig.StringOr | python-scripts/services/esrgan_upscaler.py:157 | `config.get(key, default)` used as a path: the default when the key is missing |
| JobConfig.NumberOf | python-scripts/services/flux_upscaler.py:217 | a number stands for itself and a boolean for 0 or 1; nothing else is a number |
| JobConfig.WholeValue | python-scripts/services/esrgan_upscaler.py:194-195 | the whole number a value stands for, exactly when it is a number or boolean with an integral value |
| JobConfig.TargetDims | python-scripts/services/esrgan_upscaler.py:177-191 | with `dpi = config.get("target_dpi", 150)` (also flux_upscaler.py:201, imagen_upscaler.py:161): for numeric print dimensions and DPI, the calculator's output size, with a crop report exactly when it needs a crop, or the calculator's error; for a DPI that is not a number, the print size is `int(inches * dpi)` as Python computes it and the rest of the calculator runs on it; non-numeric inches raise TypeError |
| JobConfig.PrintPixels | python-scripts/utils/dimension_calculator.py:35-36 | `int(inches * dpi)`: a numeric DPI gives the truncated product; a string DPI and whole inches give `int()` of the string repeated that many times; anything else that succeeds has a numeric DPI or is that case |
| JobConfig.NonNumericDpiDims | python-scripts/utils/dimension_calculator.py:38-80 | after a non-numeric DPI got past `int(inches * dpi)`: succeeds iff neither division by zero happens and the aspects match, and then returns the print size without a crop; a zero height raises ZeroDivisionError |
| JobConfig.NonNumericDpiNeverCrops | python-scripts/utils/dimension_calculator.py:35-80 | a DPI that is not a number succeeds only as a string with whole inches, never crops, and its size is `int()` of the repeated DPI text |
| JobConfig.StringDpiRepeats | python-scripts/utils/dimension_calculator.py:35-53 | whole inches `a` x `b` and a digit-string DPI `s` on an input of matching aspect give the size spelt by `s` written `a` and `b` times, with no crop (8 x 10 at "150" gives 24- and 30-digit sizes) |
| JobConfig.DigitDpiPixels | python-scripts/utils/dimension_calculator.py:35 | whole inches times a digit-string DPI read by `int()` is the number the repeated digits spell |
| JobConfig.TargetDimsAgreeWithCalculator | python-scripts/utils/dimension_calculator.py:124-143 | the upscalers' inline print-target branch agrees with `calculate_output_dimensions` on success, size and whether a crop is reported |
| JobConfig.SaveOne | python-scripts/services/esrgan_upscaler.py:163-229 | the output name is formatted with `str()`, so any value names the file; a non-string `output_format` raises AttributeError on `lower`; otherwise one path when the format is accepted, none when it is not |
| JobConfig.NullOutputNameSavesNone | python-scripts/utils/image_utils.py:41-45 | an `output_name` of null saves `<dir>/None.png` |
| Esrgan.LoadModelAsWritten | python-scripts/services/esrgan_upscaler.py:38-62 | as written: once the attribute is deleted every load fails; a cache hit returns the held model |
| Esrgan.LoadModel | python-scripts/services/esrgan_upscaler.py:38-62 | corrected: the cache stays coherent, a success holds the requested model under its name, and a failure leaves the cache empty |
| Esrgan.FetchModel | python-scripts/services/esrgan_upscaler.py:48-62 | a load from disk holds the requested model on success and leaves the cache unchanged on failure |
| Esrgan.CacheHit | python-scripts/services/esrgan_upscaler.py:40-41 | asking again for the held model returns it without touching the disk, in both versions |
| Esrgan.InstalledModelLoads | python-scripts/services/esrgan_upscaler.py:48-62 | with the corrected cache an installed model always loads, whatever happened before |
| Esrgan.DeletedIsSticky | python-scripts/services/esrgan_upscaler.py:40-46 | as written, after the deletion every later load fails and the cache never recovers |
| Esrgan.RunLoadsAsWritten | python-scripts/services/esrgan_upscaler.py:38-62 | one result per load in a sequence |
| Esrgan.RunLoads | python-scripts/services/esrgan_upscaler.py:38-62 | one result per load, with the cache coherent throughout |
| Esrgan.SwitchToMissingModel | python-scripts/services/esrgan_upscaler.py:44-50 | default, then a missing model, then default again: the third load fails as written and succeeds when corrected |
| Esrgan.SimpleDims | python-scripts/services/esrgan_upscaler.py:193-196 | without a print target: None and dictionaries raise the multiplication's TypeError; a whole number or a boolean gives the input times it; any other factor is a product the resize refuses |
| Esrgan.EarlyDims | python-scripts/services/esrgan_upscaler.py:176-196 | the size arithmetic that runs before the load: the print target's calculation, or the product whose only failure is a factor that does not multiply |
| Esrgan.Upscale | python-scripts/services/esrgan_upscaler.py:131-244 | a missing or non-string `image_path` fails before anything else; a success means the input exists and decodes, a model is held, and the passes are the tile plan of the input under the held model's scale, two iff `use_two_pass` is truthy |
| Esrgan.TilePasses | python-scripts/services/esrgan_upscaler.py:209-217 | the first pass plans the input with the configured tile and overlap (defaults 512 and 32); with `use_two_pass` a second pass plans the h*scale x w*scale output with `min(tile, 384)`; the first failing pass's error is the result |
| Esrgan.PassPlan | python-scripts/services/esrgan_upscaler.py:72-89 | an image no larger than a numeric tile runs whole, whatever the overlap; a non-numeric tile fails the size test; a tiled plan needs whole tile and overlap and is the tile plan of those |
| Esrgan.SecondPassTile | python-scripts/services/esrgan_upscaler.py:214 | `min(tile, 384)` is at most the tile and at most 384, and the tile itself when it is at most 384 |
| Esrgan.WholeImageIgnoresOverlap | python-scripts/services/esrgan_upscaler.py:75-77 | a fitting image runs whole and the overlap is never read |
| Esrgan.SmallImagesRunWhole | python-scripts/services/esrgan_upscaler.py:75-77 | a 100x100 input with overlap "8", and a 500x500 input with tile size 600.5, run as one tile |
| Esrgan.ProductFailsBeforeLoad | python-scripts/services/esrgan_upscaler.py:193-199 | a factor that does not multiply fails before the model load: the cache is untouched and no pass runs |
| Esrgan.MissingInputLeavesCache | python-scripts/services/esrgan_upscaler.py:166-167 | a missing input file is reported before the model is loaded: the cache is untouched and no pass runs |
| Esrgan.ReportedSizeIsChosenSize | python-scripts/services/esrgan_upscaler.py:176-244 | the reported size and crop are the print-target calculation's or the factor multiple's |
| Esrgan.PassesCoverInput | python-scripts/services/esrgan_upscaler.py:75-128 | with `0 <= overlap < tile`, the first tiled pass of a successful job reads every row and column of the input |
| Flux.LoadModels | python-scripts/services/flux_upscaler.py:98-130 | a no-op once loaded; otherwise it loads with the given upscale model and guidance, or reports the loader's failure and stays unloaded |
| Flux.LoadModelsIdempotent | python-scripts/services/flux_upscaler.py:107-109 | loading twice is loading once |
| Flux.Seed | python-scripts/services/flux_upscaler.py:188-189 | a zero seed (0 or False) becomes the random draw in `[0, 2^32 - 1]`; any other seed is kept |
| Flux.Restrict | python-scripts/services/flux_upscaler.py:163-286 | the part of a config on a key set: exactly the config's keys in the set, with their values |
| Flux.RestrictIgnores | python-scripts/services/flux_upscaler.py:163-286 | setting a key outside the set leaves the restriction unchanged |
| Flux.Settings | python-scripts/services/flux_upscaler.py:176-189 | missing tile sizes give 512, a missing `upscale_by` gives 4, missing steps give 20, and a missing seed is drawn |
| Flux.SimpleDims | python-scripts/services/flux_upscaler.py:215-219 | without a print target the output is `int(side * factor)` for the width, then the height, with no crop; a missing factor gives four times the input; the first failing side's error is the result |
| Flux.ScaledSide | python-scripts/services/flux_upscaler.py:216-218 | `int(side * factor)`: None and dictionaries do not multiply; a whole factor gives the exact product; a number or boolean is multiplied and truncated; a string is repeated and read by `int()`; a list is refused by `int()` |
| Flux.ScaledNumber | python-scripts/services/flux_upscaler.py:217-218 | multiplying by a float truncates toward zero, and is exact for a whole float |
| Flux.WholeFactorAgreesWithEsrgan | python-scripts/services/flux_upscaler.py:215-219 | a whole-number factor sizes a FLUX output exactly as it sizes an ESRGAN one |
| Flux.StringFactorRepeats | python-scripts/services/flux_upscaler.py:216-218 | the string factor "4" makes a 1 x 2 input 4 pixels wide and 44 high |
| Flux.SamplerInputs | python-scripts/services/flux_upscaler.py:236-262 | the sampler is handed exactly the sampler keys, with the settings' values |
| Flux.Upscale | python-scripts/services/flux_upscaler.py:132-286 | a loaded state stays as it is; an unloaded one loads with the config's `upscale_model` and `guidance`; a success handed the sampler the config's settings and the sampler accepted them; a sampler that refuses its inputs makes the job fail with its exception |
| Flux.Job | python-scripts/services/flux_upscaler.py:163-219 | the same loading facts for the part of the job before the sampler; a failed load is raised first; with the models loaded, an `image_path` that does not exist raises "Input file not found: <path>"; what it prepares names the input given as `image_path`, which exists and decodes |
| Flux.MissingInputFails | python-scripts/services/flux_upscaler.py:163-192 | a missing input ends the whole job with the load error, or else with "Input file not found: <path>", before any sampler setting is reported |
| Flux.TileSizeIgnored | python-scripts/services/flux_upscaler.py:176-186 | the request option `tile_size` is never read: any value of it gives the same run |
| Flux.UpscaleByDoesNotSize | python-scripts/services/flux_upscaler.py:176-219 | `upscale_by` reaches only the sampler: whatever its value the loader ends in the same state, the sampler is reached in both runs or in neither, and two successful runs give the same result |
| Flux.RestrictAgrees | python-scripts/services/flux_upscaler.py:163-219 | the restriction to the job keys agrees with the config on them |
| Flux.DimsOnJobKeys | python-scripts/services/flux_upscaler.py:197-218 | two configs that agree on the job keys make the same print-target test and the same size choice |
| Flux.ReportedSizeIsChosenSize | python-scripts/services/flux_upscaler.py:197-286 | the reported size and crop are the print-target calculation's or `int(side * factor)`'s, read from the whole config |
| Flux.LoadedStateIsStable | python-scripts/services/flux_upscaler.py:163-167 | once loaded, every later job keeps the same loaded models |
| Imagen.Initial | python-scripts/services/imagen_upscaler.py:28-32 | no credentials yet; the project and region default to "artinafti" and "us-central1" |
| Imagen.ApplyOverrides | python-scripts/services/imagen_upscaler.py:146-149 | a truthy override replaces the project or region; anything else leaves it |
| Imagen.GetCredentials | python-scripts/services/imagen_upscaler.py:34-44 | cached credentials are returned as they are; otherwise the default lookup's result, cached on success |
| Imagen.ParseFactor | python-scripts/services/imagen_upscaler.py:176 | `int(factor[1])`: a string reads iff its second character is a digit, giving that digit, with IndexError for shorter strings; a list converts its second item with `int()`; a dictionary raises KeyError 1 |
| Imagen.ParseFactorOfDigit | python-scripts/services/imagen_upscaler.py:176 | "x" followed by a digit reads back as that digit |
| Imagen.TwoDigitFactorReadsOneDigit | python-scripts/services/imagen_upscaler.py:176 | "x10" scales by 1 |
| Imagen.ParseFactorIsIntOfSecondChar | python-scripts/services/imagen_upscaler.py:176 | for a string, the factor is `int()` of its second character |
| Imagen.ListFactorReadsSecondItem | python-scripts/services/imagen_upscaler.py:176 | the list factors `["x", "4"]` and `["x", 4]` both scale by 4 |
| Imagen.FactorDims | python-scripts/services/imagen_upscaler.py:175-179 | without a print target the output is the input times the parsed digit, or the parse's error |
| Imagen.ContainsKey | python-scripts/services/imagen_upscaler.py:99-106 | Python's `in` on a decoded body: key membership, list membership or substring; TypeError on null, booleans and numbers |
| Imagen.ApiErrorText | python-scripts/services/imagen_upscaler.py:95-103 | `str()` of `error.message` whatever its type when the body is an object whose `error` is an object; the response text when there is no message, no error object, or no JSON object |
| Imagen.NullMessagePrintsNone | python-scripts/services/imagen_upscaler.py:95-103 | a status-500 body whose message is null raises "Imagen API error (500): None" |
| Imagen.FirstPrediction | python-scripts/services/imagen_upscaler.py:106-109 | an empty list is "No predictions"; otherwise its first element |
| Imagen.CheckResponse | python-scripts/services/imagen_upscaler.py:95-112 | a status other than 200 raises "Imagen API error (status): text"; success needs a 200, a JSON object with predictions, and truthy image data; a missing or empty prediction list is refused |
| Imagen.GoodResponseAccepted | python-scripts/services/imagen_upscaler.py:105-114 | a 200 whose first prediction carries image data yields that data |
| Imagen.MissingImageDataRefused | python-scripts/services/imagen_upscaler.py:109-112 | a first prediction without image data is refused, whatever follows it |
| Imagen.Upscale | python-scripts/services/imagen_upscaler.py:116-204 | a bad `image_path` fails first; an input that does not exist raises "Input file not found: <path>" with only the project and region overrides applied; a success means the input exists, credentials are cached and the response passed its checks |
| Imagen.MissingInputFails | python-scripts/services/imagen_upscaler.py:138-152 | a missing input raises "Input file not found: <path>" before the credentials are looked up, so the cached credentials are unchanged |
| Imagen.OverridesPersist | python-scripts/services/imagen_upscaler.py:146-152 | overrides are applied before the input is checked, so they stay for later jobs whatever this job's outcome |
| Imagen.CredentialsFetchedOnce | python-scripts/services/imagen_upscaler.py:36-37 | with cached credentials a job keeps them and does not depend on the default lookup |
| Imagen.ReportedSizeIsChosenSize | python-scripts/services/imagen_upscaler.py:159-204 | the reported size and crop are the print-target calculation's or the digit multiple's |
| Protocol.RequestValue | dist/python/python-executor.service.js:114-118 | the job line is an object of exactly `job_id`, `method` and `config` |
| Protocol.OptionalString | python-scripts/worker.py:92 | an absent path is `None` |
| Protocol.CropValue | python-scripts/utils/dimension_calculator.py:132-136 | the crop dictionary has exactly `direction`, `amount_px` and `amount_inches`, or is `None` |
| Protocol.Strings | python-scripts/worker.py:93 | the path list, element by element |
| Protocol.ToValue | python-scripts/worker.py:24-26 | every message the worker writes is an object with a `type` |
| Protocol.ErrorText | dist/python/python-executor.service.js:71 | `new Error(x).message` is the string itself, or empty when undefined |
| Protocol.Field | dist/python/python-executor.service.js:51-64 | a property read is defined exactly for a key of an object |
| Protocol.Classify | dist/python/python-executor.service.js:48-79 | "ready" iff status "ready"; a result or error names its job id, and an error carries its text; a non-object is ignored |
| Protocol.HostReadsWorkerMessages | dist/python/python-executor.service.js:48-79 | every worker message is read back as meant: "ready" and only "ready" readies, other statuses and warnings are notices, replies with a string id settle that id, replies without one are ignored |
| Worker.Startup | python-scripts/worker.py:29-64 | "loading_models" first and "ready" last, and "ready" nowhere else; a warning in between iff the ESRGAN preload fails |
| Values.TrimStart | python-scripts/worker.py:68 | drops exactly the leading whitespace |
| Values.TrimEnd | python-scripts/worker.py:68 | drops exactly the trailing whitespace |
| Values.Strip | python-scripts/worker.py:68 | the stripped line starts and ends with a non-space, or is empty |
| Values.BlankIffAllSpace | python-scripts/worker.py:68-70 | a line is skipped iff every character is whitespace |
| Values.PyStr | python-scripts/utils/image_utils.py:43 | `str()` of a value: a string is itself, None is "None", booleans are "True" and "False", a whole number prints as an int |
| Values.ParseInt | python-scripts/services/imagen_upscaler.py:176 | `int()` of a string succeeds only on a string with something other than whitespace |
| Values.SignedLiteral | python-scripts/services/imagen_upscaler.py:176 | digit groups read as their decimal value; a negative value needs a leading minus |
| Values.ParseIntRoundTrip | python-scripts/services/flux_upscaler.py:217-218 | every int printed in decimal reads back as itself |
| Values.DigitsRead | python-scripts/utils/dimension_calculator.py:35 | `int()` of a non-empty run of ASCII digits is the number they spell |
| Values.RepeatedDigitsRead | python-scripts/utils/dimension_calculator.py:35 | a digit string repeated `n >= 1` times, as `n * dpi` builds it, reads back under `int()` as the number the repetition spells |
| Values.RepeatDigits | python-scripts/utils/dimension_calculator.py:35 | repeating a string of digits gives a string of digits |
| Values.NegativeRoundTrip | python-scripts/services/flux_upscaler.py:217-218 | a negative int printed with its minus sign reads back as itself |
| Values.NegativeLiteral | python-scripts/services/flux_upscaler.py:217-218 | a minus sign before digit groups negates their value |
| Values.SignedZeroPaddedLiteral | python-scripts/services/flux_upscaler.py:217-218 | "-0" followed by a digit reads as minus that digit: leading zeros are allowed |
| Values.DoubledUnderscoreRefused | python-scripts/services/flux_upscaler.py:217-218 | two underscores between digits are refused |
| Values.TrailingUnderscoreRefused | python-scripts/services/flux_upscaler.py:217-218 | a trailing underscore is refused |
| Values.InnerSpaceRefused | python-scripts/services/flux_upscaler.py:217-218 | a space between digits is refused |
| Values.SingleCharLiteral | python-scripts/services/imagen_upscaler.py:176 | a one-character string reads iff it is a digit, as that digit |
| Values.ParseIntIgnoresSpace | python-scripts/services/flux_upscaler.py:217-218 | whitespace around the literal does not change what `int()` reads |
| Values.PyInt | python-scripts/services/imagen_upscaler.py:176 | `int()` of a JSON value: a number truncates toward zero, a boolean is 0 or 1, a string is read as a literal or raises ValueError quoting it, and None, lists and dictionaries raise TypeError |
| Values.TimesError | python-scripts/services/esrgan_upscaler.py:194-195 | `int * v` raises TypeError exactly for None and dictionaries |
| Worker.ReadJob | python-scripts/worker.py:75-77 | the three fields in order; the first missing one raises KeyError with its name |
| Worker.ConfigOf | python-scripts/services/esrgan_upscaler.py:156 | a config that is not a dictionary fails when the upscaler first indexes it |
| Worker.GetFlux | python-scripts/worker.py:44-53 | loads FLUX with its defaults the first time, announcing before and after; a failed load is retried next time; once loaded, nothing happens |
| Worker.Dispatch | python-scripts/worker.py:79-87 | any method other than the three is "Unknown method: ..."; only "flux" can write notices, and only loading notices |
| Worker.HandleLine | python-scripts/worker.py:67-107 | a blank line changes nothing and writes nothing; any other line is handled as its parse |
| Worker.HandleParsed | python-scripts/worker.py:72-107 | exactly one reply, after loading notices only; an error reply carries `job.get("job_id", "unknown")`, and a result carries the job's id |
| Worker.HandleJob | python-scripts/worker.py:73-107 | a missing field is an error reply without dispatch; otherwise the dispatch's notices, then a result iff it succeeded, with its output or its exception text |
| Worker.HandleLineAsWritten | python-scripts/worker.py:72-107 | as written, the worker dies iff a non-blank line parses to a JSON value that is not an object; otherwise it behaves as corrected |
| Worker.ListLineEndsWorker | python-scripts/worker.py:72-107 | the line "[1]" kills the worker as written (`list.get`); corrected, it is answered under id "unknown" |
| Worker.UnknownMethodAnswered | python-scripts/worker.py:86-107 | an unknown method is answered "Unknown method: <m>" under the job's id, and nothing else changes |
| Worker.RunLines | python-scripts/worker.py:67-107 | the loop keeps the worker's state consistent |
| Worker.LineLoadsFluxOnlyFirst | python-scripts/worker.py:44-53 | one line announces a FLUX load at most once, never when already loaded, and the load sticks |
| Worker.FluxNoticesCount | python-scripts/worker.py:44-83 | the same for one dispatch |
| Worker.FluxLoadedAtMostOnce | python-scripts/worker.py:40-53 | over any run of lines, "flux_models_loaded" is written at most once, and never when FLUX was loaded before |
| Executor.Submit | dist/python/python-executor.service.js:107-120 | refused iff not ready, with the not-ready message; otherwise the id becomes pending and exactly one job line is written |
| Executor.OnLine | dist/python/python-executor.service.js:48-79 | a line settles at most the pending job it names, resolving with the whole message or rejecting with its error text; "ready" sets readiness; everything else, including non-JSON, changes nothing |
| Executor.OnExit | dist/python/python-executor.service.js:83-98 | every pending job is rejected with "Python worker crashed", none stays pending, and a restart is due iff the exit count is still below the limit |
| Executor.OnRestartDue | dist/python/python-executor.service.js:93 | a due restart starts one live process and is consumed; it leaves the jobs, the readiness and the exit count alone, and keeps the count of spawns equal to exits plus the live process |
| Executor.OnStartupTimeout | dist/python/python-executor.service.js:99-104 | the timer settles its spawn's startup promise only if the service is not ready, and never readies it |
| Executor.StepSettlesPending | dist/python/python-executor.service.js:63-89 | one event settles only pending ids (or its own refused call) and leaves pending only ids it did not settle |
| Executor.EachJobSettledOnce | dist/python/python-executor.service.js:63-89 | over any run every promise is settled at most once, and only promises that were pending or created in the run |
| Executor.SubmittedIdsFresh | dist/python/python-executor.service.js:111 | calls in a valid run use ids never used before |
| Executor.SupervisedStep | dist/python/python-executor.service.js:83-98 | each event keeps the process count equal to exits plus the live process, and a restart due only within the limit |
| Executor.SpawnsBounded | dist/python/python-executor.service.js:91-97 | the compiled service starts at most three processes; after the third exit nothing is alive and no restart is due |
| Executor.SrcAlwaysRestarts | src/python/python-executor.service.ts:94-106 | the source service schedules a restart after every exit |
| Executor.DistBootStep | dist/python/python-executor.service.js:53-104 | one step keeps the compiled startup promise either settled or still waiting on the first process |
| Executor.DistBootSettles | dist/python/python-executor.service.js:53-104 | with the compiled service, startup is only ever unsettled while the first process is alive, not ready and before its timer |
| Executor.SrcBootHangs | src/python/python-executor.service.ts:94-116 | as written in the source: the first process exits, the restarted one becomes ready, the first timer then fires, and startup is never settled |
| Executor.SrcBootNeverSettles | src/python/python-executor.service.ts:56-116 | once lost, no event of the source service settles startup again |
| Pipeline.NoticesThenReply | dist/python/python-executor.service.js:51-58 | the FLUX loading notices a job may write before its reply change nothing on the host |
| Pipeline.WorkerAnswers | python-scripts/worker.py:72-107 | a job line written by the host is answered by the dispatch's notices and exactly one reply for that id |
| Pipeline.Reply | python-scripts/worker.py:89-107 | the reply carries the job's id, and is a result iff the upscaler succeeded |
| Pipeline.HostSettles | dist/python/python-executor.service.js:63-74 | after the notices, the reply settles its own pending job and nothing else |
| Pipeline.RoundTrip | dist/python/python-executor.service.js:107-120 | submit, worker, reply: the promise settles with the worker's result or its exception text, and the supervisor is back where it was |
| Bull.Add | dist/upscaler/upscaler.service.js:49-58 | the job is stored under its id, waiting, with progress 0; an existing id keeps its job; other jobs are untouched |
| Dispatcher.BuildConfig | dist/upscaler/upscaler.service.js:35-44 | the keys are the three fixed ones plus the options; options win; each fixed value applies when the options do not set its key |
| Dispatcher.QueueUpscale | dist/upscaler/upscaler.service.js:48-60 | adds one waiting job named "<method>-upscale" under the new id, with one attempt and retention ages 3600 and 7200, and acknowledges "queued" |
| Dispatcher.CopyOutput | dist/upscaler/upscaler.service.js:103-113 | copies the five output fields; a download URL names the last path segment iff `output_path` is truthy; a truthy non-string path throws |
| Dispatcher.Snapshot | dist/upscaler/upscaler.service.js:96-117 | state and progress; output fields iff completed with a truthy result; the error iff failed |
| Dispatcher.DownloadUrlFindsOutput | src/upscaler/upscaler.controller.ts:74-81 | the `output_url` of `<dir>/<file>` names `file`; for an absolute `dir` the result-download route `/api/upscale/result/<file>` (via `getResultPath`) finds whatever the worker saved there, whichever directories the two processes run in |
| Dispatcher.ServeResult | src/app.module.ts:25-28 | the static route serves `/api/results/<file>` from `OUTPUT_DIR`, or "/app/results" when unset, resolved against the host's directory, and only a file that exists; URLs outside the route are not served |
| Dispatcher.DistStatusUrlMisses | dist/app.module.js:37-40 | as written: with OUTPUT_DIR unset, the `output_url` of a file the worker saved below "./results" is looked up below "/app/results" and not found |
| Dispatcher.StatusUrlFindsOutput | src/app.module.ts:25-28 | corrected: with the output directory resolved to an absolute path whose default is the static root, the `output_url` `/api/results/<file>` serves exactly the file the worker saved |
| Dispatcher.ServedFromConfigDir | src/app.module.ts:26 | the static root resolved against the host's directory is the resolved output directory |
| Dispatcher.RelativeOutputDirMissesFile | dist/upscaler/upscaler.service.js:145-152 | as written: with the relative default "./results", a host started in the project root does not find the file the worker saved from `python-scripts` |
| Dispatcher.ConfigOutputDir | dist/upscaler/upscaler.service.js:34 | corrected: the configured directory resolved against the host's directory is absolute, and an absolute setting is kept |
| Dispatcher.ResolvedOutputDirFindsFile | dist/upscaler/upscaler.service.js:145-152 | corrected: with the resolved directory the host finds whatever the worker saved there |
| Dispatcher.BackslashSplitsLocallyOnly | dist/upscaler/upscaler.service.js:110-136 | local status splits "out\a.png" at the backslash; queue status does not |
| Processor.ReturnValue | src/upscaler/processors/upscaler.processor.ts:28-36 | the output fields the worker defined, plus status "completed" |
| Processor.ReturnValueKeepsWorkerOutput | src/upscaler/processors/upscaler.processor.ts:28-36 | the return value keeps every output field of a worker result unchanged |
| Processor.Begin | src/upscaler/processors/upscaler.processor.ts:22 | the taken job is active at progress 10, its data untouched |
| Processor.Settle | src/upscaler/processors/upscaler.processor.ts:24-40 | a result completes the job at 100 with the return value; an error fails it with its message, progress unchanged |
| QueueMode.TakeJob | src/upscaler/processors/upscaler.processor.ts:16-24 | the consumer takes a job: active at 10 with its call pending, or failed at once with the not-ready message |
| QueueMode.SubmittedJobReachesWorker | src/upscaler/processors/upscaler.processor.ts:17-24 | a submitted job taken by a ready consumer writes one request line with the call id, the method and the config the dispatcher built |
| QueueMode.OnSupervisor | src/upscaler/processors/upscaler.processor.ts:24-40 | when the event settles the running call, the running job completes at 100 with the worker's message or fails with the error, keeps its data, and the consumer is idle; other jobs are untouched; otherwise only the supervisor changes |
| QueueMode.TakePreserves | src/upscaler/processors/upscaler.processor.ts:6-40 | taking a job keeps the invariant |
| QueueMode.SupervisorPreserves | src/upscaler/processors/upscaler.processor.ts:24-40 | settling the running call keeps the invariant |
| QueueMode.StepPreserves | src/upscaler/processors/upscaler.processor.ts:6-40 | every possible event keeps the invariant |
| QueueMode.OneJobAtATime | src/upscaler/processors/upscaler.processor.ts:6-8 | over any run, at most one job is active and at most one call is pending |
| QueueMode.CompletedStatusReportsOutput | dist/upscaler/upscaler.service.js:103-113 | a completed job's status reports the worker's path and size, and a download URL naming the saved file |
| LocalMode.Created | dist/upscaler/upscaler.service.js:63-69 | the record starts queued at progress 0 |
| LocalMode.Settled | dist/upscaler/upscaler.service.js:76-83 | a result completes at 100; an error fails with its message, progress left at 10 |
| LocalMode.RunLocal | dist/upscaler/upscaler.service.js:45-87 | acknowledges "queued" although the record is never left queued: a record for the job, with no result, at progress 10; processing with no error and its call added to the supervisor's pending set when the supervisor is ready, failed with the not-ready message and the supervisor unchanged otherwise; other records are untouched |
| LocalMode.Call | dist/upscaler/upscaler.service.js:62-87 | when ready the new record is processing with its call pending; when not, it fails at once with the not-ready message |
| LocalMode.Apply | dist/upscaler/upscaler.service.js:75-84 | each record whose call settled takes that outcome and stops waiting; the others are untouched |
| LocalMode.CallPreserves | dist/upscaler/upscaler.service.js:62-87 | a submission keeps the invariant |
| LocalMode.ApplyPreserves | dist/upscaler/upscaler.service.js:75-84 | a reaction that settles only pending calls keeps the invariant |
| LocalMode.StepPreserves | dist/upscaler/upscaler.service.js:62-87 | every possible event keeps the invariant |
| LocalMode.FinishedIsFinal | dist/upscaler/upscaler.service.js:76-83 | a completed or failed record never changes again |
| LocalMode.RecordsStayShaped | dist/upscaler/upscaler.service.js:62-87 | over any run, no record is ever queued, and each processing record has its own pending call |
| LocalMode.TwoJobsProcessAtOnce | dist/upscaler/upscaler.service.js:71-85 | nothing serialises local jobs: two submissions are processing at once, with both calls pending |
| LocalMode.ReportFollowsRecord | dist/upscaler/upscaler.service.js:119-144 | a processing record reports progress 10 and no output, a failed one its error, and no report says "queued" |
| Options.Defaults | src/upscaler/dto/flux-upscale.dto.ts:4-68 | the defaults: exactly the fields with an initial value |
| Options.Failures | src/upscaler/dto/flux-upscale.dto.ts:4-68 | the failing fields: exactly the known, present fields whose value breaks their rule |
| Options.Validate | src/upscaler/dto/flux-upscale.dto.ts:4-68 | a body passes iff every known field present fits its rule; a refusal names exactly the failing fields; a pass keeps the body and adds the defaults of the absent fields |
| Options.OneField | src/upscaler/dto/flux-upscale.dto.ts:4-68 | a one-field body passes iff that field fits its rule or is unknown |
| Options.FactorRange | src/upscaler/dto/flux-upscale.dto.ts:4-8 | the FLUX and ESRGAN factor passes iff it is in [1, 8] |
| Options.DenoiseRange | src/upscaler/dto/flux-upscale.dto.ts:22-26 | denoise passes iff it is in [0, 1] |
| Options.StepsRange | src/upscaler/dto/flux-upscale.dto.ts:28-32 | steps pass iff in [1, 100], and null passes |
| Options.Unbounded | src/upscaler/dto/esrgan-upscale.dto.ts:26-28 | `tile_size` and `target_dpi` take any number |
| Options.EmptyBody | src/upscaler/dto/imagen-upscale.dto.ts:3-35 | an empty body passes and carries exactly the defaults |
| Options.FluxTableDefaults | src/upscaler/dto/flux-upscale.dto.ts:4-68 | the FLUX defaults the worker also reads, and the sampler keys the options do not offer |
| Options.FluxSamplerDefaultsAgree | src/upscaler/dto/flux-upscale.dto.ts:22-68 | the defaults the options fill in give the sampler the same settings as when the fields are left out |
| Options.FluxFactorDefaultAgrees | src/upscaler/dto/flux-upscale.dto.ts:4-8 | the default factor gives the same output size as the worker's own default |
| Options.ImagenFactorUnchecked | src/upscaler/dto/imagen-upscale.dto.ts:4-6 | any string passes as the Imagen factor; "x10" passes and scales by 1 |
| Options.FluxTileSizeUnused | src/upscaler/dto/flux-upscale.dto.ts:34-36 | the FLUX `tile_size` is always filled in, yet it is neither a FLUX job key nor a sampler key, while the sampler's tile keys are not offered |

## Left out

- Pixels, tensors and the models themselves: the tiled upscaling's arithmetic on images, the feather masks, LANCZOS resizing (including a resize to a zero size) and image encoding are not modelled. An upscaler's pass is its tile plan; the image size comes from the environment. Whether the image library can resize to the many-digit sizes a string DPI yields is not modelled.
- The JSON text codec is a parameter of the worker (`parse`). The host reads already-parsed values, and a non-JSON line is `None`.
- Processes, pipes, readline, timers and the clock become supervisor events, or `Env` fields such as `elapsed` and `seedDraw`. A line that a dead process wrote after its exit is excluded by the validity of a run.
- Logging, tracebacks (the error reply's `traceback` field), the worker's stderr, and the `PYTHON_PATH`/`CUDA_VISIBLE_DEVICES` settings.
- The import of the upscaler modules at worker start. A failed import would end the worker before "ready".
- Imagen: credential refresh, the access token, the request body, the prompt text, network errors and timeouts are not modelled. The HTTP response is a parameter, and so is the default-credentials lookup.
- FLUX: the ComfyUI node set-up, the prompt re-encoding for a custom `positive_prompt`, and the memory clean-up are not modelled.
- BullMQ: the order in which waiting jobs are taken (any waiting job may be taken), the retention timers (modelled only as an `Expire` event that removes a finished job), Redis failures, and a failing `updateProgress`.
- The `equivalent_print_size` string and the `scale_factor` of the crop calculation are not modelled. Neither reaches a reply.
- The static route's URL decoding, its refusal of paths that leave the root, and its index and caching behaviour: Dispatcher.ServeResult takes the file name after `/api/results/` literally.
- pathlib's and Node's path normalisation: `Join` is `dir + "/" + file`, and `Dispatcher.Resolve` does not collapse "." segments.
- Floating-point rounding: all arithmetic is on exact reals. Unicode digits in `int()` are not modelled.
- Exception texts that depend on Python's or JavaScript's printing are replaced by stand-ins:
  - the TypeError of arithmetic on a non-number, including a print dimension or DPI that does not multiply (TargetDims states only that the error is a TypeError when an inch value is not a number);
  - the ZeroDivisionError text: always "division by zero", where CPython says "integer division or modulo by zero" for the tile count's `//` and `%` and "float division by zero" when the divisor is a float, as a DPI of 0.0 is;
  - the image library's decode error;
  - `str()` and `String()` of floats, lists and dictionaries;
  - the JavaScript message of `split` on a non-string;
  - the decode error of a status-200 body that is not JSON: always `ValueError("Expecting value: line 1 column 1 (char 0)")`, where requests raises its JSONDecodeError with the actual position and reason;
  - the TypeError of indexing a non-dictionary response body with "predictions": the Python text for a list or a string, but not the exact wording of every interpreter version.
- The class-validator messages: a refusal is the set of failing field names. The `ValidationPipe` settings in `main.ts` are not part of this model, so the coercion of multipart strings to numbers is not modelled.
- The controllers, the AWS GPU and Lambda services, and the health check are outside the core.
- Options.Validate: fields the table does not know pass through unchanged; how the application's validation pipe (main.ts) treats them is not part of this model.
- Protocol.ToValue: its contract states only that every message is an object with a `type`; the field contents are stated by Protocol.HostReadsWorkerMessages and Processor.ReturnValueKeepsWorkerOutput.
- Executor: `onModuleDestroy` kills the worker at shutdown; the model has no shutdown event, and that kill's exit would be an ordinary `Exit` event, which schedules a restart like any other exit. Neither service listens for the child's 'error' event (a spawn that fails), and the model has no such event either.
- Executor.Submit: the not-ready refusal is an event of its own. Between the check and the write, nothing else can happen in the model, as in the single-threaded source.
- Esrgan.Upscale: the worker composes the corrected loader (Esrgan.LoadModel), so Worker.Dispatch, Worker.RunLines and Pipeline.RoundTrip never show the sticky AttributeError of the cache as written; Esrgan.LoadModelAsWritten, Esrgan.DeletedIsSticky and Esrgan.SwitchToMissingModel show it for the loader alone.
- Flux.Upscale: whether the sampler accepts its inputs is a function of the environment (`samplerError`); which values ComfyUI refuses, and the sampler's own error texts, are not modelled.
- PyStr: a fractional float, a list or a dictionary prints as a placeholder naming its type, not as Python's `repr`.
- ParseInt: Unicode digits and non-ASCII whitespace other than `str.isspace`'s set are not modelled; the ValueError text does not escape quotes the way `repr` does. The limit of 4300 digits that Python 3.11 and later put on `int()` of a string is not modelled, so a DPI string repeated to more digits than that reads as its number here where Python raises ValueError.
- LocalMode.Shaped: the initial "queued" record is never observable, so the invariant excludes it. The acknowledgement still says "queued".

## Findings

| source | as written | input that shows it | evidently intended | confidence | as-written member | corrected member |
|---|---|---|---|---|---|---|
| python-scripts/worker.py:72-107 | `job = json.loads(line)` can give a list, number, string or null; `job["method"]` then raises TypeError, and the handler's `job.get(...)` raises AttributeError outside any `try`, ending the worker | the line `[1]` | every non-blank line gets an error reply (under id "unknown") and the loop continues | high (not executed) | Worker.HandleLineAsWritten, Worker.ListLineEndsWorker | Worker.HandleLine, Worker.HandleParsed |
| python-scripts/services/esrgan_upscaler.py:44-50 | `del self._loaded_model` removes the attribute; if the next model file is missing, the attribute is never set again, so every later `_load_model` raises AttributeError at line 40, even for an installed model | load "4x-UltraSharp.pth", then "missing.pth", then "4x-UltraSharp.pth" | the cache is emptied (set to None) and later loads work | high (not executed) | Esrgan.LoadModelAsWritten, Esrgan.SwitchToMissingModel, Esrgan.DeletedIsSticky | Esrgan.LoadModel, Esrgan.InstalledModelLoads |
| dist/upscaler/upscaler.service.js:34-152 | the worker is spawned with its working directory in `python-scripts` (dist/python/python-executor.service.js:45), while the output directory defaults to the relative "./results"; the worker saves below its own directory, `getResultPath` looks below the host's, and the static route behind `output_url` looks below "/app/results" | OUTPUT_DIR unset, the host started in the project root, then the download of a completed job; and its `output_url`, which the static route (dist/app.module.js:37-40) looks up below "/app/results" | both processes use one absolute directory, the static root's, as src's default "/app/results" is | medium (not executed) | Dispatcher.RelativeOutputDirMissesFile, Dispatcher.DistStatusUrlMisses | Dispatcher.ConfigOutputDir, Dispatcher.ResolvedOutputDirFindsFile, Dispatcher.StatusUrlFindsOutput |
| src/python/python-executor.service.ts:94-116 | the exit handler does not settle the startup promise, and the restarted process settles only its own; if the first process exits before "ready", `onModuleInit` waits forever once the first timer finds the service ready | exit of process 1, restart, "ready" from process 2, then the first 120 s timer | startup settles when the worker fails, as in dist/python/python-executor.service.js:83-90 | medium (not executed) | Executor.SrcBootHangs, Executor.SrcBootNeverSettles | Executor.DistBootSettles |

=== FILE: dimensions.dfy ===
/** Print-size arithmetic of the worker (python-scripts/utils/dimension_calculator.py):
    inches times DPI to pixels, and the choice of which dimension to oversize so
    that the upscaled image can be cropped to the print's aspect ratio.
    Python floats are reals here; float rounding is not modelled. */
module Dimensions {
  import opened Wrappers
  import opened Values

  function Abs(x: real): real {
    if x < 0.0 then -x else x
  }

  /** Two aspect ratios closer than this are treated as equal. */
  const AspectTolerance: real := 0.01

  /** The DPI the upscalers and the request options fall back to. */
  const DefaultDpi: real := 150.0

  /** The simple scale factor used when no print size is given. */
  const DefaultUpscaleFactor: int := 4

  /** Which dimension of the output is larger than the print and must be cropped. */
  datatype Direction = NoCrop | Vertical | Horizontal {
    /** The `crop_direction` string of the source. */
    function Name(): string {
      match this
      case NoCrop => "none"
      case Vertical => "vertical"
      case Horizontal => "horizontal"
    }
  }

  /** The dictionary returned by `calculate_scale_for_crop`, without the
      formatted `equivalent_print_size` text. */
  datatype ScaleInfo = ScaleInfo(
    outputWidth: int,
    outputHeight: int,
    finalWidth: int,
    finalHeight: int,
    scaleFactor: real,
    direction: Direction,
    cropPx: int,
    cropInches: real)

  /** The `crop_info` dictionary reported to callers. */
  datatype CropInfo = CropInfo(direction: Direction, amountPx: int, amountInches: real)

  /** The aspect ratios of input and print agree within the tolerance
      (only meaningful when both heights are non-zero). */
  predicate AspectsMatch(inputWidth: int, inputHeight: int, widthInches: real, heightInches: real)
    requires inputHeight != 0 && heightInches != 0.0
  {
    Abs(inputWidth as real / inputHeight as real - widthInches / heightInches) < AspectTolerance
  }

  /** The input is relatively taller than the print. */
  predicate InputTaller(inputWidth: int, inputHeight: int, widthInches: real, heightInches: real)
    requires inputHeight != 0 && heightInches != 0.0
  {
    inputWidth as real / inputHeight as real < widthInches / heightInches
  }

  /** The divisions of `calculate_scale_for_crop` that raise ZeroDivisionError. */
  predicate DividesByZero(inputWidth: int, inputHeight: int, widthInches: real, heightInches: real, dpi: real) {
    || inputHeight == 0
    || heightInches == 0.0
    || (inputWidth == 0 && (AspectsMatch(inputWidth, inputHeight, widthInches, heightInches)
                            || InputTaller(inputWidth, inputHeight, widthInches, heightInches)))
    || (dpi == 0.0 && !AspectsMatch(inputWidth, inputHeight, widthInches, heightInches))
  }

  /** The result when the aspect ratios already match: the print size itself. */
  function MatchedScale(inputWidth: int, finalWidth: int, finalHeight: int): (info: ScaleInfo)
    requires inputWidth != 0
    ensures info.direction == NoCrop
    ensures info.outputWidth == info.finalWidth == finalWidth
    ensures info.outputHeight == info.finalHeight == finalHeight
    ensures info.cropPx == 0 && info.cropInches == 0.0
    ensures info.scaleFactor * inputWidth as real == finalWidth as real
  {
    ScaleInfo(finalWidth, finalHeight, finalWidth, finalHeight,
              finalWidth as real / inputWidth as real, NoCrop, 0, 0.0)
  }

  /** The result for a relatively taller input: full print width, excess height. */
  function TallerScale(inputWidth: int, inputHeight: int, finalWidth: int, finalHeight: int, dpi: real)
    : (info: ScaleInfo)
    requires inputWidth != 0 && dpi != 0.0
    ensures info.direction == Vertical
    ensures info.finalWidth == finalWidth && info.finalHeight == finalHeight
    ensures info.outputWidth == finalWidth
    ensures info.scaleFactor * inputWidth as real == finalWidth as real
    ensures info.outputHeight == Trunc(inputHeight as real * info.scaleFactor)
    ensures info.cropPx == info.outputHeight - finalHeight
    ensures info.cropInches * dpi == info.cropPx as real
  {
    var scale := finalWidth as real / inputWidth as real;
    var outputHeight := Trunc(inputHeight as real * scale);
    var crop := outputHeight - finalHeight;
    ScaleInfo(finalWidth, outputHeight, finalWidth, finalHeight, scale, Vertical, crop, crop as real / dpi)
  }

  /** The result for a relatively wider input: full print height, excess width. */
  function WiderScale(inputWidth: int, inputHeight: int, finalWidth: int, finalHeight: int, dpi: real)
    : (info: ScaleInfo)
    requires inputHeight != 0 && dpi != 0.0
    ensures info.direction == Horizontal
    ensures info.finalWidth == finalWidth && info.finalHeight == finalHeight
    ensures info.outputHeight == finalHeight
    ensures info.scaleFactor * inputHeight as real == finalHeight as real
    ensures info.outputWidth == Trunc(inputWidth as real * info.scaleFactor)
    ensures info.cropPx == info.outputWidth - finalWidth
    ensures info.cropInches * dpi == info.cropPx as real
  {
    var scale := finalHeight as real / inputHeight as real;
    var outputWidth := Trunc(inputWidth as real * scale);
    var crop := outputWidth - finalWidth;
    ScaleInfo(outputWidth, finalHeight, finalWidth, finalHeight, scale, Horizontal, crop, crop as real / dpi)
  }

  /** `calculate_scale_for_crop`: the print size in pixels is inches times DPI,
      truncated; the output matches the print when the aspect ratios agree, and
      otherwise matches it in one dimension and is oversized in the other. */
  function CalculateScaleForCrop(inputWidth: int, inputHeight: int, widthInches: real, heightInches: real, dpi: real)
    : (r: Result<ScaleInfo, PyException>)
    ensures r.Err? <==> DividesByZero(inputWidth, inputHeight, widthInches, heightInches, dpi)
    ensures r.Err? ==> r.error == ZeroDivisionError
    ensures r.Ok? ==> (r.value.finalWidth == Trunc(widthInches * dpi)
                       && r.value.finalHeight == Trunc(heightInches * dpi))
    ensures r.Ok? ==>
      (r.value.direction == NoCrop <==> AspectsMatch(inputWidth, inputHeight, widthInches, heightInches))
    ensures r.Ok? ==>
      (r.value.direction == Vertical <==>
        !AspectsMatch(inputWidth, inputHeight, widthInches, heightInches)
        && InputTaller(inputWidth, inputHeight, widthInches, heightInches))
    ensures r.Ok? && r.value.direction == NoCrop ==>
      r.value == MatchedScale(inputWidth, r.value.finalWidth, r.value.finalHeight)
    ensures r.Ok? && r.value.direction == Vertical ==>
      r.value == TallerScale(inputWidth, inputHeight, r.value.finalWidth, r.value.finalHeight, dpi)
    ensures r.Ok? && r.value.direction == Horizontal ==>
      r.value == WiderScale(inputWidth, inputHeight, r.value.finalWidth, r.value.finalHeight, dpi)
  {
    var finalWidth := Trunc(widthInches * dpi);
    var finalHeight := Trunc(heightInches * dpi);
    if inputHeight == 0 || heightInches == 0.0 then
      Err(ZeroDivisionError)
    else if AspectsMatch(inputWidth, inputHeight, widthInches, heightInches) then
      if inputWidth == 0 then Err(ZeroDivisionError)
      else Ok(MatchedScale(inputWidth, finalWidth, finalHeight))
    else if InputTaller(inputWidth, inputHeight, widthInches, heightInches) then
      if inputWidth == 0 || dpi == 0.0 then Err(ZeroDivisionError)
      else Ok(TallerScale(inputWidth, inputHeight, finalWidth, finalHeight, dpi))
    else
      if dpi == 0.0 then Err(ZeroDivisionError)
      else Ok(WiderScale(inputWidth, inputHeight, finalWidth, finalHeight, dpi))
  }

  /** The `crop_info` built from a scale result: absent exactly when no crop is needed. */
  function CropInfoOf(info: ScaleInfo): (c: Option<CropInfo>)
    ensures c.None? <==> info.direction == NoCrop
    ensures c.Some? ==> c.value == CropInfo(info.direction, info.cropPx, info.cropInches)
  {
    if info.direction == NoCrop then None
    else Some(CropInfo(info.direction, info.cropPx, info.cropInches))
  }

  /** The dictionary returned by `calculate_output_dimensions`. */
  datatype OutputDims = OutputDims(width: int, height: int, scaleFactor: real, cropInfo: Option<CropInfo>)

  /** `upscale_factor or 4`: a missing or zero factor falls back to 4. */
  function FactorOrDefault(factor: Option<int>): (f: int)
    ensures factor.Some? && factor.value != 0 ==> f == factor.value
    ensures factor.None? || factor.value == 0 ==> f == DefaultUpscaleFactor
  {
    if factor.Some? && factor.value != 0 then factor.value else DefaultUpscaleFactor
  }

  /** `calculate_output_dimensions`: a plain multiple of the input when either
      print dimension is missing, the crop-aware calculation otherwise. */
  function CalculateOutputDimensions(inputWidth: int, inputHeight: int, upscaleFactor: Option<int>, dpi: real,
                                     widthInches: Option<real>, heightInches: Option<real>)
    : (r: Result<OutputDims, PyException>)
    ensures widthInches.None? || heightInches.None? ==>
      var f := FactorOrDefault(upscaleFactor);
      r == Ok(OutputDims(inputWidth * f, inputHeight * f, f as real, None))
    ensures widthInches.Some? && heightInches.Some? ==>
      match CalculateScaleForCrop(inputWidth, inputHeight, widthInches.value, heightInches.value, dpi)
      case Err(e) => r == Err(e)
      case Ok(info) =>
        && r.Ok?
        && r.value.width == info.outputWidth && r.value.height == info.outputHeight
        && r.value.scaleFactor == info.scaleFactor
        && (r.value.cropInfo.None? <==> info.direction == NoCrop)
        && (r.value.cropInfo.Some? ==>
              r.value.cropInfo.value == CropInfo(info.direction, info.cropPx, info.cropInches))
  {
    if widthInches.None? || heightInches.None? then
      var f := FactorOrDefault(upscaleFactor);
      Ok(OutputDims(inputWidth * f, inputHeight * f, f as real, None))
    else
      match CalculateScaleForCrop(inputWidth, inputHeight, widthInches.value, heightInches.value, dpi)
      case Err(e) => Err(e)
      case Ok(info) => Ok(OutputDims(info.outputWidth, info.outputHeight, info.scaleFactor, CropInfoOf(info)))
  }

  /** A real whose value is a whole number (a print size that is an exact pixel count). */
  predicate IsWhole(x: real) {
    x.Floor as real == x
  }

  lemma TruncAtLeast(x: real, n: int)
    requires 0 <= n && n as real <= x
    ensures Trunc(x) >= n
  {
  }

  /** Cross-multiplying a strict comparison of two ratios with positive denominators. */
  lemma CrossLess(a: real, b: real, c: real, d: real)
    requires b > 0.0 && d > 0.0 && a / b < c / d
    ensures a * d < c * b
  {
    MulStrict(a / b, c / d, b * d);
    assert a / b * (b * d) == a * d;
    assert c / d * (b * d) == c * b;
  }

  /** Cross-multiplying a non-strict comparison of two ratios with positive denominators. */
  lemma CrossAtMost(a: real, b: real, c: real, d: real)
    requires b > 0.0 && d > 0.0 && a / b <= c / d
    ensures a * d <= c * b
  {
    MulMonotone(a / b, c / d, b * d);
    assert a / b * (b * d) == a * d;
    assert c / d * (b * d) == c * b;
  }

  /** Scaling a relatively taller input (W/H < wIn/hIn) to the print width
      gives more than the print height. */
  lemma ExcessHeight(W: real, H: real, widthInches: real, heightInches: real, dpi: real,
                     finalWidth: real, finalHeight: real, scale: real)
    requires W > 0.0 && H > 0.0 && heightInches > 0.0 && dpi > 0.0
    requires W / H < widthInches / heightInches
    requires finalWidth == widthInches * dpi && finalHeight == heightInches * dpi
    requires scale * W == finalWidth
    ensures finalHeight < H * scale
  {
    CrossLess(W, H, widthInches, heightInches);
    MulStrict(W * heightInches, widthInches * H, dpi);
    assert W * finalHeight < H * finalWidth;
    assert H * finalWidth == W * (H * scale);
    assert finalHeight < H * scale by {
      if H * scale <= finalHeight {
        MulMonotone(H * scale, finalHeight, W);
      }
    }
  }

  /** The mirror image: scaling a relatively wider input (wIn/hIn <= W/H) to
      the print height gives at least the print width. */
  lemma ExcessWidth(W: real, H: real, widthInches: real, heightInches: real, dpi: real,
                    finalWidth: real, finalHeight: real, scale: real)
    requires W > 0.0 && H > 0.0 && heightInches > 0.0 && dpi > 0.0
    requires widthInches / heightInches <= W / H
    requires finalWidth == widthInches * dpi && finalHeight == heightInches * dpi
    requires scale * H == finalHeight
    ensures finalWidth <= W * scale
  {
    CrossAtMost(widthInches, heightInches, W, H);
    MulMonotone(widthInches * H, W * heightInches, dpi);
    assert H * finalWidth <= W * finalHeight;
    assert W * finalHeight == H * (W * scale);
    assert finalWidth <= W * scale by {
      if W * scale < finalWidth {
        MulStrict(W * scale, finalWidth, H);
      }
    }
  }

  /** The point of the calculation: when the print is a whole number of pixels,
      the output is at least as large as the print in both dimensions, so the
      crop amount is never negative and the print can be cut from the output. */
  lemma OutputCoversPrint(w: int, h: int, widthInches: real, heightInches: real, dpi: real)
    requires w > 0 && h > 0 && widthInches > 0.0 && heightInches > 0.0 && dpi > 0.0
    requires IsWhole(widthInches * dpi) && IsWhole(heightInches * dpi)
    ensures CalculateScaleForCrop(w, h, widthInches, heightInches, dpi).Ok?
    ensures var info := CalculateScaleForCrop(w, h, widthInches, heightInches, dpi).value;
      && info.outputWidth >= info.finalWidth
      && info.outputHeight >= info.finalHeight
      && info.cropPx >= 0 && info.cropInches >= 0.0
  {
    var r := CalculateScaleForCrop(w, h, widthInches, heightInches, dpi);
    assert !DividesByZero(w, h, widthInches, heightInches, dpi);
    var info := r.value;
    WholeTrunc(widthInches, dpi);
    WholeTrunc(heightInches, dpi);
    ScaleCoversPrint(w, h, widthInches, heightInches, dpi, info);
  }

  /** The case analysis behind OutputCoversPrint, stated for any result that
      satisfies the calculation's contract. */
  lemma ScaleCoversPrint(w: int, h: int, widthInches: real, heightInches: real, dpi: real, info: ScaleInfo)
    requires w > 0 && h > 0 && widthInches > 0.0 && heightInches > 0.0 && dpi > 0.0
    requires info.finalWidth as real == widthInches * dpi && info.finalHeight as real == heightInches * dpi
    requires info.direction == Vertical ==> InputTaller(w, h, widthInches, heightInches)
    requires info.direction == Horizontal ==> !InputTaller(w, h, widthInches, heightInches)
    requires info.direction == NoCrop ==> info == MatchedScale(w, info.finalWidth, info.finalHeight)
    requires info.direction == Vertical ==>
      info == TallerScale(w, h, info.finalWidth, info.finalHeight, dpi)
    requires info.direction == Horizontal ==>
      info == WiderScale(w, h, info.finalWidth, info.finalHeight, dpi)
    ensures info.outputWidth >= info.finalWidth
    ensures info.outputHeight >= info.finalHeight
    ensures info.cropPx >= 0 && info.cropInches >= 0.0
  {
    if info.direction == Vertical {
      TallerCoversPrint(w, h, widthInches, heightInches, dpi, info);
    } else if info.direction == Horizontal {
      WiderCoversPrint(w, h, widthInches, heightInches, dpi, info);
    }
  }

  lemma TallerCoversPrint(w: int, h: int, widthInches: real, heightInches: real, dpi: real, info: ScaleInfo)
    requires w > 0 && h > 0 && widthInches > 0.0 && heightInches > 0.0 && dpi > 0.0
    requires info.finalWidth as real == widthInches * dpi && info.finalHeight as real == heightInches * dpi
    requires InputTaller(w, h, widthInches, heightInches)
    requires info == TallerScale(w, h, info.finalWidth, info.finalHeight, dpi)
    ensures info.outputWidth >= info.finalWidth
    ensures info.outputHeight >= info.finalHeight
    ensures info.cropPx >= 0 && info.cropInches >= 0.0
  {
    ExcessHeight(w as real, h as real, widthInches, heightInches, dpi,
                 info.finalWidth as real, info.finalHeight as real, info.scaleFactor);
    TruncAtLeast(h as real * info.scaleFactor, info.finalHeight);
    CropInchesSign(info.cropPx, info.cropInches, dpi);
  }

  lemma WiderCoversPrint(w: int, h: int, widthInches: real, heightInches: real, dpi: real, info: ScaleInfo)
    requires w > 0 && h > 0 && widthInches > 0.0 && heightInches > 0.0 && dpi > 0.0
    requires info.finalWidth as real == widthInches * dpi && info.finalHeight as real == heightInches * dpi
    requires !InputTaller(w, h, widthInches, heightInches)
    requires info == WiderScale(w, h, info.finalWidth, info.finalHeight, dpi)
    ensures info.outputWidth >= info.finalWidth
    ensures info.outputHeight >= info.finalHeight
    ensures info.cropPx >= 0 && info.cropInches >= 0.0
  {
    ExcessWidth(w as real, h as real, widthInches, heightInches, dpi,
                info.finalWidth as real, info.finalHeight as real, info.scaleFactor);
    TruncAtLeast(w as real * info.scaleFactor, info.finalWidth);
    CropInchesSign(info.cropPx, info.cropInches, dpi);
  }

  lemma WholeTrunc(inches: real, dpi: real)
    requires inches > 0.0 && dpi > 0.0 && IsWhole(inches * dpi)
    ensures Trunc(inches * dpi) as real == inches * dpi
  {
    MulStrict(0.0, inches, dpi);
  }

  lemma CropInchesSign(px: int, inches: real, dpi: real)
    requires px >= 0 && dpi > 0.0 && inches * dpi == px as real
    ensures inches >= 0.0
  {
    assert inches == px as real / dpi;
  }

  lemma MulMonotone(a: real, b: real, c: real)
    requires a <= b && c >= 0.0
    ensures a * c <= b * c
  {
  }

  lemma MulStrict(a: real, b: real, c: real)
    requires a < b && c > 0.0
    ensures a * c < b * c
  {
  }

  /** Converting a product of integers to a real. */
  lemma CastMul(a: int, b: int)
    ensures (a * b) as real == a as real * b as real
  {
  }

  /** The exact scaled size times the denominator is `n * num`. */
  lemma ScaledTimesDen(n: real, num: real, den: real, scale: real)
    requires den > 0.0 && scale * den == num
    ensures (n * scale) * den == n * num
  {
    calc {
      (n * scale) * den;
      n * (scale * den);
      n * num;
    }
  }

  /** Truncating the exact scaled size `n * num / den` gives `k` with
      `k * den <= n * num < (k + 1) * den`. */
  lemma TruncatedScale(n: int, num: int, den: int, scale: real, k: int)
    requires n > 0 && num >= 0 && den > 0
    requires scale * den as real == num as real
    requires k == Trunc(n as real * scale)
    ensures k * den <= n * num < (k + 1) * den
  {
    var D := den as real;
    var x := n as real * scale;
    assert scale >= 0.0 by {
      if scale < 0.0 {
        MulStrict(scale, 0.0, D);
      }
    }
    assert x >= 0.0 by {
      MulMonotone(0.0, scale, n as real);
    }
    ScaledTimesDen(n as real, num as real, D, scale);
    CastMul(n, num);
    BelowProduct(x, k, den, n * num);
    AboveProduct(x, k, den, n * num);
  }

  /** k <= x with x * den an integer m gives k * den <= m. */
  lemma BelowProduct(x: real, k: int, den: int, m: int)
    requires den > 0 && k as real <= x && m as real == x * den as real
    ensures k * den <= m
  {
    MulMonotone(k as real, x, den as real);
    CastMul(k, den);
    IntOrder(k * den, m);
  }

  /** x < k + 1 with x * den an integer m gives m < (k + 1) * den. */
  lemma AboveProduct(x: real, k: int, den: int, m: int)
    requires den > 0 && x < k as real + 1.0 && m as real == x * den as real
    ensures m < (k + 1) * den
  {
    var k1 := k + 1;
    assert k1 as real == k as real + 1.0;
    MulStrict(x, k1 as real, den as real);
    CastMul(k1, den);
    IntStrictOrder(m, k1 * den);
  }

  lemma IntOrder(a: int, b: int)
    requires a as real <= b as real
    ensures a <= b
  {
  }

  lemma IntStrictOrder(a: int, b: int)
    requires a as real < b as real
    ensures a < b
  {
  }

  /** The oversized dimension keeps the input's aspect ratio to within one
      pixel: it is the exact scaled size rounded down. */
  lemma OversizeKeepsAspect(w: int, h: int, widthInches: real, heightInches: real, dpi: real)
    requires w > 0 && h > 0 && widthInches >= 0.0 && heightInches > 0.0 && dpi > 0.0
    ensures CalculateScaleForCrop(w, h, widthInches, heightInches, dpi).Ok?
    ensures var info := CalculateScaleForCrop(w, h, widthInches, heightInches, dpi).value;
      && (info.direction == Vertical ==>
            info.outputHeight * w <= h * info.finalWidth < (info.outputHeight + 1) * w)
      && (info.direction == Horizontal ==>
            info.outputWidth * h <= w * info.finalHeight < (info.outputWidth + 1) * h)
  {
    var info := CalculateScaleForCrop(w, h, widthInches, heightInches, dpi).value;
    assert info.finalWidth >= 0 && info.finalHeight >= 0 by {
      assert widthInches * dpi >= 0.0 && heightInches * dpi >= 0.0;
    }
    if info.direction == Vertical {
      TallerKeepsAspect(w, h, dpi, info);
    } else if info.direction == Horizontal {
      WiderKeepsAspect(w, h, dpi, info);
    }
  }

  lemma TallerKeepsAspect(w: int, h: int, dpi: real, info: ScaleInfo)
    requires w > 0 && h > 0 && dpi > 0.0 && info.finalWidth >= 0
    requires info == TallerScale(w, h, info.finalWidth, info.finalHeight, dpi)
    ensures info.outputHeight * w <= h * info.finalWidth < (info.outputHeight + 1) * w
  {
    TruncatedScale(h, info.finalWidth, w, info.scaleFactor, info.outputHeight);
  }

  lemma WiderKeepsAspect(w: int, h: int, dpi: real, info: ScaleInfo)
    requires w > 0 && h > 0 && dpi > 0.0 && info.finalHeight >= 0
    requires info == WiderScale(w, h, info.finalWidth, info.finalHeight, dpi)
    ensures info.outputWidth * h <= w * info.finalHeight < (info.outputWidth + 1) * h
  {
    TruncatedScale(w, info.finalHeight, h, info.scaleFactor, info.outputWidth);
  }
}

=== FILE: dispatcher.dfy ===
/** The host's job dispatcher (`UpscalerService` in
    dist/upscaler/upscaler.service.js and src/upscaler/upscaler.service.ts):
    the config a job is given, what a submission acknowledges, how a job is
    added to the queue, the status snapshot, and the result-file lookup.
    The local-mode records are in LocalMode and the queue consumer in
    Processor. Environment variables and the file system are parameters. */
module Dispatcher {
  import opened Wrappers
  import opened Values
  import opened ImageUtils
  import opened Bull
  import Protocol

  /** The output directory used when OUTPUT_DIR is unset or empty: dist's is
      relative, src's absolute. */
  const DistOutputDir: string := "./results"
  const SrcOutputDir: string := "/app/results"

  /** `process.env.OUTPUT_DIR || default`: an unset or empty setting falls
      back to the build's default. */
  function OutputDir(setting: Option<string>, fallback: string): (dir: string)
    ensures setting.Some? && setting.value != "" ==> dir == setting.value
    ensures setting.None? || setting.value == "" ==> dir == fallback
  {
    if setting.Some? && setting.value != "" then setting.value else fallback
  }

  /** The three keys the dispatcher always sets. */
  const FixedKeys: set<string> := {"image_path", "output_dir", "output_name"}

  /** The job config: the input path, the output directory and the job id
      as output name, then the caller's options spread over them; the two
      conditional copies of `model` and `upscale_model` that follow write
      values the spread already put there. */
  function BuildConfig(filePath: string, outputDir: string, jobId: string, options: Config): (c: Config)
    ensures c.Keys == FixedKeys + options.Keys
    ensures forall k :: k in options ==> c[k] == options[k]
    ensures "image_path" !in options ==> c["image_path"] == Str(filePath)
    ensures "output_dir" !in options ==> c["output_dir"] == Str(outputDir)
    ensures "output_name" !in options ==> c["output_name"] == Str(jobId)
  {
    var spread := map["image_path" := Str(filePath), "output_dir" := Str(outputDir), "output_name" := Str(jobId)] + options;
    var withModel := if JsTruthy(Get(options, "model", Null)) then spread["model" := options["model"]] else spread;
    if JsTruthy(Get(options, "upscale_model", Null)) then withModel["upscale_model" := options["upscale_model"]]
    else withModel
  }

  /** What `queueUpscale` returns, in both modes. */
  datatype Ack = Ack(jobId: string, status: string, kind: string)

  /** The queue's single-attempt policy: the dispatcher's id is the queue
      id, one attempt, completed jobs kept an hour and failed ones two. */
  const Attempts: nat := 1
  const KeepCompleted: nat := 3600
  const KeepFailed: nat := 7200

  /** `queueUpscale` in queue mode, under the fresh id `jobId`: the job is
      added under that id with name "<method>-upscale", and the caller is
      told it is queued. */
  function QueueUpscale(q: Queue, kind: string, filePath: string, outputDir: string, jobId: string, options: Config)
    : (r: (Queue, Ack))
    requires jobId !in q
    ensures r.1 == Ack(jobId, "queued", kind)
    ensures r.0.Keys == q.Keys + {jobId}
    ensures forall id :: id in q ==> r.0[id] == q[id]
    ensures var job := r.0[jobId];
      && job.state == Waiting && job.progress == Num(0.0)
      && job.name == kind + "-upscale"
      && job.data == JobData(kind, BuildConfig(filePath, outputDir, jobId, options), jobId)
      && job.opts.jobId == job.data.jobId == jobId
      && job.opts.attempts == 1
      && job.opts.removeOnCompleteAge == 3600 && job.opts.removeOnFailAge == 7200
  {
    var data := JobData(kind, BuildConfig(filePath, outputDir, jobId, options), jobId);
    (Add(q, kind + "-upscale", data, JobOptions(jobId, Attempts, KeepCompleted, KeepFailed)),
     Ack(jobId, "queued", kind))
  }

  /** The output fields a completed status copies; None stands for a
      property that is undefined and so absent from the JSON reply. */
  datatype OutputFields = OutputFields(
    outputPath: Option<Value>,
    outputWidth: Option<Value>,
    outputHeight: Option<Value>,
    cropInfo: Option<Value>,
    processingTime: Option<Value>,
    outputUrl: Option<string>)

  /** A status reply. */
  datatype Report =
    | NotFound(jobId: string)
    | Found(jobId: string, status: string, progress: real, output: Option<OutputFields>, error: Option<string>)

  const ResultsRoute: string := "/api/results/"

  /** The separators the local status splits on, and the one the queue
      status splits on. */
  const LocalSeparators: set<char> := {'/', '\\'}
  const QueueSeparators: set<char> := {'/'}

  /** The copy of a result's output fields. A truthy `output_path` adds a
      download URL naming its last segment; one that is truthy but not a
      string has no `split` and the status call throws. */
  function CopyOutput(result: Value, seps: set<char>): (r: Result<OutputFields, string>)
    ensures var p := Protocol.Field(result, "output_path");
      && (r.Err? <==> p.Some? && JsTruthy(p.value) && !p.value.Str?)
      && (r.Ok? ==>
        && r.value.outputPath == p
        && r.value.outputWidth == Protocol.Field(result, "output_width")
        && r.value.outputHeight == Protocol.Field(result, "output_height")
        && r.value.cropInfo == Protocol.Field(result, "crop_info")
        && r.value.processingTime == Protocol.Field(result, "processing_time")
        && (r.value.outputUrl.Some? <==> p.Some? && JsTruthy(p.value))
        && (r.value.outputUrl.Some? ==>
              exists file :: r.value.outputUrl.value == ResultsRoute + file
                && file == LastSegment(p.value.s, seps)))
  {
    var p := Protocol.Field(result, "output_path");
    var url: Result<Option<string>, string> :=
      if p.Some? && JsTruthy(p.value) then
        (if p.value.Str? then Ok(Some(ResultsRoute + LastSegment(p.value.s, seps)))
         else Err("output_path.split is not a function"))
      else Ok(None);
    match url
    case Err(e) => Err(e)
    case Ok(u) =>
      Ok(OutputFields(p, Protocol.Field(result, "output_width"), Protocol.Field(result, "output_height"),
                      Protocol.Field(result, "crop_info"), Protocol.Field(result, "processing_time"), u))
  }

  /** The status of a job that exists: its state name and progress, the
      output fields when it completed with a truthy result, and the error
      when it failed. */
  function Snapshot(jobId: string, status: string, progress: real, result: Option<Value>,
                    error: Option<string>, seps: set<char>): (r: Result<Report, string>)
    ensures var copies := status == "completed" && result.Some? && JsTruthy(result.value);
      && (r.Err? <==> copies && CopyOutput(result.value, seps).Err?)
      && (r.Ok? ==>
        && r.value.Found? && r.value.jobId == jobId && r.value.status == status && r.value.progress == progress
        && (r.value.output.Some? <==> copies)
        && (copies ==> r.value.output == Some(CopyOutput(result.value, seps).value))
        && r.value.error == (if status == "failed" then error else None))
  {
    if status == "completed" && result.Some? && JsTruthy(result.value) then
      match CopyOutput(result.value, seps)
      case Err(e) => Err(e)
      case Ok(o) => Ok(Found(jobId, status, progress, Some(o), None))
    else Ok(Found(jobId, status, progress, None, if status == "failed" then error else None))
  }

  /** `getJobStatus` in queue mode: "not_found" for an id the queue does not
      hold; otherwise the snapshot, with a progress that is not a number
      reported as 0 and the failure reason as the error. */
  function QueueStatus(q: Queue, jobId: string): (r: Result<Report, string>)
    ensures jobId !in q ==> r == Ok(NotFound(jobId))
    ensures jobId in q ==>
      var job := q[jobId];
      r == Snapshot(jobId, job.state.Name(), if job.progress.Num? then job.progress.n else 0.0,
                    job.returnvalue, job.failedReason, QueueSeparators)
  {
    if jobId !in q then Ok(NotFound(jobId))
    else
      var job := q[jobId];
      Snapshot(jobId, job.state.Name(), if job.progress.Num? then job.progress.n else 0.0,
               job.returnvalue, job.failedReason, QueueSeparators)
  }

  /** A path is absolute when it starts at the root. */
  predicate Absolute(p: string) {
    p != [] && p[0] == '/'
  }

  /** Where a process whose working directory is `cwd` finds the path `p`:
      an absolute path is itself, a relative one is taken below `cwd`.
      Normalisation of "." and ".." segments is not modelled. */
  function Resolve(cwd: string, p: string): (q: string)
    ensures Absolute(p) ==> q == p
    ensures !Absolute(p) ==> |q| == |cwd| + 1 + |p| && q[|q| - |p|..] == p
  {
    if Absolute(p) then p else Join(cwd, p)
  }

  /** The worker's working directory: dist spawns it in `python-scripts`
      below the project root (`join(__dirname, '../../python-scripts')` from
      `dist/python`). */
  function WorkerCwd(root: string): (cwd: string)
    ensures |cwd| == |root| + |"/python-scripts"|
  {
    Join(root, "python-scripts")
  }

  /** `getResultPath(filename)`: the path joined from the output directory,
      looked up from the host's working directory `hostCwd`; an error naming
      the file when nothing is there. */
  function ResultPath(hostCwd: string, outputDir: string, filename: string, fileExists: string -> bool)
    : (r: Result<string, string>)
    ensures r.Ok? <==> fileExists(Resolve(hostCwd, Join(outputDir, filename)))
    ensures r.Ok? ==> r.value == Join(outputDir, filename)
    ensures r.Err? ==> r.error == "Result file not found: " + filename
  {
    var path := Join(outputDir, filename);
    if fileExists(Resolve(hostCwd, path)) then Ok(path) else Err("Result file not found: " + filename)
  }

  /** As written in dist: with OUTPUT_DIR unset the directory is the relative
      "./results". The worker, running in `<root>/python-scripts`, saves the
      output below its own directory; a host started in `<root>` looks below
      `<root>`. On a file system holding exactly the saved file, the lookup
      of the file the status named fails. */
  lemma RelativeOutputDirMissesFile(root: string, file: string)
    ensures var saved := Resolve(WorkerCwd(root), Join(OutputDir(None, DistOutputDir), file));
      ResultPath(root, OutputDir(None, DistOutputDir), file, p => p == saved)
        == Err("Result file not found: " + file)
  {
    var rel := Join(DistOutputDir, file);
    assert !Absolute(rel);
    assert |Resolve(WorkerCwd(root), rel)| != |Resolve(root, rel)|;
  }

  /** The corrected directory: the configured one resolved once against the
      host's working directory (`path.resolve`), so that the config the
      worker receives and the host's lookup name the same absolute place. */
  function ConfigOutputDir(hostCwd: string, setting: Option<string>, fallback: string): (dir: string)
    requires Absolute(hostCwd)
    ensures Absolute(dir)
    ensures Absolute(OutputDir(setting, fallback)) ==> dir == OutputDir(setting, fallback)
    ensures !Absolute(OutputDir(setting, fallback)) ==> dir == Join(hostCwd, OutputDir(setting, fallback))
  {
    Resolve(hostCwd, OutputDir(setting, fallback))
  }

  /** With an absolute output directory the two working directories no
      longer matter: whenever the worker saved `<dir>/<file>`, the host finds
      it there. */
  lemma ResolvedOutputDirFindsFile(hostCwd: string, root: string, setting: Option<string>, fallback: string,
                                   file: string, fileExists: string -> bool)
    requires Absolute(hostCwd)
    ensures var dir := ConfigOutputDir(hostCwd, setting, fallback);
      fileExists(Resolve(WorkerCwd(root), Join(dir, file))) ==>
        ResultPath(hostCwd, dir, file, fileExists) == Ok(Join(dir, file))
  {
    var dir := ConfigOutputDir(hostCwd, setting, fallback);
    assert Join(dir, file)[0] == dir[0];
  }

  /** The status of a saved output `<dir>/<file>` names `file`: its
      `output_url` is `/api/results/<file>`, and the result-download route
      `/api/upscale/result/<file>`, which looks the file up with
      `getResultPath`, finds whatever the worker saved there when `dir` is
      absolute, whichever directories the two processes run in. Where the
      `output_url` itself leads is stated by StatusUrlFindsOutput. */
  lemma DownloadUrlFindsOutput(result: Value, dir: string, file: string, seps: set<char>,
                               hostCwd: string, workerCwd: string, fileExists: string -> bool)
    requires '/' in seps
    requires file != [] && forall c :: c in file ==> c !in seps
    requires Protocol.Field(result, "output_path") == Some(Str(Join(dir, file)))
    ensures CopyOutput(result, seps).Ok?
    ensures CopyOutput(result, seps).value.outputUrl == Some(ResultsRoute + file)
    ensures Absolute(dir) && fileExists(Resolve(workerCwd, Join(dir, file))) ==>
      ResultPath(hostCwd, dir, file, fileExists) == Ok(Join(dir, file))
  {
    LastSegmentOfJoin(dir, file, seps);
    assert Join(dir, file) != [];
    if Absolute(dir) {
      assert Join(dir, file)[0] == dir[0];
    }
  }

  /** The root the static file server serves `/api/results` from, when
      OUTPUT_DIR is unset or empty (both builds). */
  const StaticRootDefault: string := "/app/results"

  /** The static file server behind `output_url`: a URL below
      `/api/results/` names a file below `OUTPUT_DIR || "/app/results"`,
      resolved from the host's working directory; the file, or None (not
      found). */
  function ServeResult(hostCwd: string, setting: Option<string>, url: string, fileExists: string -> bool)
    : (r: Option<string>)
    ensures r.Some? ==>
      && |url| >= |ResultsRoute| && url[..|ResultsRoute|] == ResultsRoute
      && fileExists(r.value)
    ensures forall file :: url == ResultsRoute + file ==>
      var path := Resolve(hostCwd, Join(OutputDir(setting, StaticRootDefault), file));
      r == if fileExists(path) then Some(path) else None
  {
    if |url| >= |ResultsRoute| && url[..|ResultsRoute|] == ResultsRoute then
      var path := Resolve(hostCwd, Join(OutputDir(setting, StaticRootDefault), url[|ResultsRoute|..]));
      if fileExists(path) then Some(path) else None
    else None
  }

  /** As written in dist, for the status URL: with OUTPUT_DIR unset the
      worker saves below "./results" in its own directory, while the static
      server serves "/app/results"; on a file system holding exactly the
      saved file, the `output_url` of the status finds nothing. */
  lemma DistStatusUrlMisses(root: string, file: string)
    ensures var saved := Resolve(WorkerCwd(root), Join(OutputDir(None, DistOutputDir), file));
      ServeResult(root, None, ResultsRoute + file, p => p == saved) == None
  {
    var saved := Resolve(WorkerCwd(root), Join(DistOutputDir, file));
    var served := Resolve(root, Join(StaticRootDefault, file));
    assert !Absolute(Join(DistOutputDir, file));
    assert Absolute(Join(StaticRootDefault, file));
    assert |saved| != |served|;
  }

  /** The corrected dispatcher saves below the directory the static server
      serves, `OUTPUT_DIR || "/app/results"` resolved once from the host's
      working directory (as src's default already is): the `output_url` of
      a completed status then serves exactly the file the worker saved,
      whichever directory the worker runs in. */
  lemma StatusUrlFindsOutput(result: Value, file: string, seps: set<char>, hostCwd: string,
                             workerCwd: string, setting: Option<string>, fileExists: string -> bool)
    requires Absolute(hostCwd)
    requires '/' in seps
    requires file != [] && forall c :: c in file ==> c !in seps
    requires Protocol.Field(result, "output_path")
      == Some(Str(Join(ConfigOutputDir(hostCwd, setting, StaticRootDefault), file)))
    ensures var dir := ConfigOutputDir(hostCwd, setting, StaticRootDefault);
      && CopyOutput(result, seps).Ok?
      && CopyOutput(result, seps).value.outputUrl == Some(ResultsRoute + file)
      && (fileExists(Resolve(workerCwd, Join(dir, file))) ==>
            ServeResult(hostCwd, setting, ResultsRoute + file, fileExists) == Some(Join(dir, file)))
  {
    var dir := ConfigOutputDir(hostCwd, setting, StaticRootDefault);
    DownloadUrlFindsOutput(result, dir, file, seps, hostCwd, workerCwd, fileExists);
    ServedFromConfigDir(hostCwd, setting, file);
    assert Resolve(workerCwd, Join(dir, file)) == Join(dir, file) by {
      assert Join(dir, file)[0] == dir[0];
    }
  }

  /** The file the static server reads for `/api/results/<file>` is the one
      below the resolved directory. */
  lemma ServedFromConfigDir(hostCwd: string, setting: Option<string>, file: string)
    requires Absolute(hostCwd)
    ensures Resolve(hostCwd, Join(OutputDir(setting, StaticRootDefault), file))
      == Join(ConfigOutputDir(hostCwd, setting, StaticRootDefault), file)
  {
    var d := OutputDir(setting, StaticRootDefault);
    if !Absolute(d) {
      assert Join(hostCwd, Join(d, file)) == Join(Join(hostCwd, d), file);
    } else {
      assert Join(d, file)[0] == d[0];
    }
  }

  /** A path without separators is its own last segment. */
  lemma {:induction false} NoSeparatorWhole(path: string, seps: set<char>)
    requires forall c :: c in path ==> c !in seps
    ensures LastSegment(path, seps) == path
    decreases |path|
  {
    if path != [] {
      var init := path[..|path| - 1];
      assert path[|path| - 1] in path;
      assert LastSegment(path, seps) == LastSegment(init, seps) + [path[|path| - 1]];
      forall c | c in init ensures c !in seps {
        var i :| 0 <= i < |init| && init[i] == c;
        assert path[i] == c;
      }
      NoSeparatorWhole(init, seps);
      assert init + [path[|path| - 1]] == path;
    }
  }

  /** The two status calls differ on Windows-style paths: the local one
      names the file after the last backslash, the queue one does not. */
  lemma BackslashSplitsLocallyOnly()
    ensures LastSegment("out\\a.png", LocalSeparators) == "a.png"
    ensures LastSegment("out\\a.png", QueueSeparators) == "out\\a.png"
  {
    assert "out\\a.png" == "out\\" + "a.png";
    LastSegmentSuffix("out\\", "a.png", LocalSeparators);
    NoSeparatorWhole("out\\a.png", QueueSeparators);
  }
}

=== FILE: esrgan.dfy ===
/** The Real-ESRGAN upscaler (python-scripts/services/esrgan_upscaler.py):
    its one-slot model cache, its output-size choice and the order in which
    `upscale` reads, checks, loads, tiles, resizes and saves. Pixels, tensors
    and the network itself are not modelled; a loaded model is its file name
    and its scale. */
module Esrgan {
  import opened Wrappers
  import opened Values
  import opened Dimensions
  import opened Tiles
  import opened ImageUtils
  import opened JobConfig

  /** The model file the worker preloads and `upscale` falls back to. */
  const DefaultModel: string := "4x-UltraSharp.pth"

  /** Tile size cap of the optional second pass. */
  const SecondPassTileCap: int := 384

  /** A loaded network: which file, and how much it enlarges. */
  datatype LoadedModel = LoadedModel(name: string, scale: int)

  /** The `_loaded_model` attribute: unset to None, holding a model, or
      removed altogether by `del`. */
  datatype Slot = Empty | Holding(model: LoadedModel) | Deleted

  /** `_loaded_model_name` and `_loaded_model`. */
  datatype ModelCache = ModelCache(name: Option<string>, slot: Slot)

  /** The state of a freshly constructed upscaler. */
  const InitialCache: ModelCache := ModelCache(None, Empty)

  /** `upscale_models_dir / model_name`. */
  function ModelPath(env: Env, name: string): string {
    Join(Join(env.modelsDir, "upscale_models"), name)
  }

  /** The exception for reading the removed attribute. */
  const MissingAttribute: PyException := AttributeError("EsrganUpscaler", "_loaded_model")

  /** The cache after a load attempt, and the model or the exception. */
  datatype Load = Load(cache: ModelCache, result: Result<LoadedModel, PyException>)

  /** `_load_model` as written: switching away from a held model `del`etes the
      attribute, so a missing new model leaves the object without it and every
      later call fails on the attribute read. */
  function LoadModelAsWritten(cache: ModelCache, name: Value, env: Env): (l: Load)
    ensures cache.slot == Deleted ==> l == Load(cache, Err(MissingAttribute))
    ensures cache.slot.Holding? && name == Str(cache.slot.model.name) && cache.name == Some(cache.slot.model.name) ==>
      l == Load(cache, Ok(cache.slot.model))
  {
    if cache.slot == Deleted then Load(cache, Err(MissingAttribute))
    else if cache.name.Some? && name == Str(cache.name.value) && cache.slot.Holding? then
      Load(cache, Ok(cache.slot.model))
    else
      var unloaded := if cache.slot.Holding? then cache.(slot := Deleted) else cache;
      FetchModel(unloaded, name, env)
  }

  /** The cache's name is the held model's name, and nothing was deleted:
      true of a fresh upscaler and kept by LoadModel. */
  predicate Coherent(cache: ModelCache) {
    && cache.slot != Deleted
    && (cache.slot.Holding? ==> cache.name == Some(cache.slot.model.name))
  }

  /** `_load_model` with the previous model released by setting the
      attribute to None: a hit returns the held model, a successful load
      holds the new one, and a failed load leaves the cache empty. */
  function LoadModel(cache: ModelCache, name: Value, env: Env): (l: Load)
    requires Coherent(cache)
    ensures Coherent(l.cache)
    ensures l.result.Ok? ==> l.cache == ModelCache(Some(l.result.value.name), Holding(l.result.value))
    ensures l.result.Ok? ==> name == Str(l.result.value.name)
    ensures l.result.Err? ==> l.cache == cache.(slot := Empty)
  {
    if cache.name.Some? && name == Str(cache.name.value) && cache.slot.Holding? then
      Load(cache, Ok(cache.slot.model))
    else
      FetchModel(cache.(slot := Empty), name, env)
  }

  /** Resolve the model's path under the models directory, check that the
      file is there, and load it. */
  function FetchModel(cache: ModelCache, name: Value, env: Env): (l: Load)
    ensures l.result.Ok? ==>
      l.cache == ModelCache(Some(l.result.value.name), Holding(l.result.value)) && name == Str(l.result.value.name)
    ensures l.result.Err? ==> l.cache == cache
  {
    match PathOf(name)
    case Err(e) => Load(cache, Err(e))
    case Ok(n) =>
      if !env.modelInstalled(n) then Load(cache, Err(FileNotFoundError("Model not found: " + ModelPath(env, n))))
      else
        var m := LoadedModel(n, env.modelScale(n));
        Load(ModelCache(Some(n), Holding(m)), Ok(m))
  }

  /** Asking again for the model already held returns it without touching
      the disk, in both versions. */
  lemma CacheHit(m: LoadedModel, env: Env)
    ensures var c := ModelCache(Some(m.name), Holding(m));
      && LoadModel(c, Str(m.name), env) == Load(c, Ok(m))
      && LoadModelAsWritten(c, Str(m.name), env) == Load(c, Ok(m))
  {
  }

  /** An installed model always loads with the corrected cache, whatever
      happened before. */
  lemma InstalledModelLoads(cache: ModelCache, name: string, env: Env)
    requires Coherent(cache)
    requires env.modelInstalled(name)
    ensures LoadModel(cache, Str(name), env).result.Ok?
    ensures LoadModel(cache, Str(name), env).result.value.name == name
  {
  }

  /** As written, once the attribute is gone every call fails, even for an
      installed model or for the name that was loaded before. */
  lemma {:induction false} DeletedIsSticky(cache: ModelCache, names: seq<Value>, env: Env)
    requires cache.slot == Deleted
    ensures RunLoadsAsWritten(cache, names, env).cache == cache
    ensures forall i :: 0 <= i < |names| ==> RunLoadsAsWritten(cache, names, env).results[i] == Err(MissingAttribute)
  {
    if names != [] {
      DeletedIsSticky(cache, names[1..], env);
    }
  }

  /** The cache and the results of a sequence of `_load_model` calls. */
  datatype Loads = Loads(cache: ModelCache, results: seq<Result<LoadedModel, PyException>>)

  function RunLoadsAsWritten(cache: ModelCache, names: seq<Value>, env: Env): (r: Loads)
    ensures |r.results| == |names|
    decreases |names|
  {
    if names == [] then Loads(cache, [])
    else
      var l := LoadModelAsWritten(cache, names[0], env);
      var rest := RunLoadsAsWritten(l.cache, names[1..], env);
      Loads(rest.cache, [l.result] + rest.results)
  }

  function RunLoads(cache: ModelCache, names: seq<Value>, env: Env): (r: Loads)
    requires Coherent(cache)
    ensures |r.results| == |names|
    ensures Coherent(r.cache)
    decreases |names|
  {
    if names == [] then Loads(cache, [])
    else
      var l := LoadModel(cache, names[0], env);
      var rest := RunLoads(l.cache, names[1..], env);
      Loads(rest.cache, [l.result] + rest.results)
  }

  /** The failing sequence: the default model loads, a missing model is
      requested, then the default model again. As written the third call
      raises AttributeError; corrected, it loads the default model. */
  lemma SwitchToMissingModel(env: Env)
    requires env.modelInstalled(DefaultModel) && !env.modelInstalled("missing.pth")
    ensures var names := [Str(DefaultModel), Str("missing.pth"), Str(DefaultModel)];
      && RunLoadsAsWritten(InitialCache, names, env).results[2] == Err(MissingAttribute)
      && RunLoads(InitialCache, names, env).results[2] == Ok(LoadedModel(DefaultModel, env.modelScale(DefaultModel)))
  {
    var names := [Str(DefaultModel), Str("missing.pth"), Str(DefaultModel)];
    var m := LoadedModel(DefaultModel, env.modelScale(DefaultModel));
    var l1 := LoadModelAsWritten(InitialCache, names[0], env);
    assert l1 == Load(ModelCache(Some(DefaultModel), Holding(m)), Ok(m));
    var l2 := LoadModelAsWritten(l1.cache, names[1], env);
    assert l2.cache.slot == Deleted;
    var l3 := LoadModelAsWritten(l2.cache, names[2], env);
    assert l3.result == Err(MissingAttribute);
    assert names[1..][1..] == [names[2]];
    assert RunLoadsAsWritten(l2.cache, [names[2]], env).results == [l3.result];
    assert RunLoadsAsWritten(l1.cache, names[1..], env).results == [l2.result, l3.result];
    var c1 := LoadModel(InitialCache, names[0], env);
    assert c1 == Load(ModelCache(Some(DefaultModel), Holding(m)), Ok(m));
    var c2 := LoadModel(c1.cache, names[1], env);
    assert c2.cache.slot == Empty;
    var c3 := LoadModel(c2.cache, names[2], env);
    assert c3.result == Ok(m);
    assert RunLoads(c2.cache, [names[2]], env).results == [c3.result];
    assert RunLoads(c1.cache, names[1..], env).results == [c2.result, c3.result];
  }

  /** The simple size choice: `w * factor` and `h * factor` (default 4),
      handed to the resize. None and dictionaries do not multiply; a number
      multiplies, and a string or a list is repeated; only a whole product
      is a size the resize accepts. */
  function SimpleDims(w: int, h: int, factor: Value): (r: Result<Dims, PyException>)
    ensures forall f: int :: NumberOf(factor) == Some(f as real) ==> r == Ok(Dims(w * f, h * f, None))
    ensures r.Ok? <==> WholeValue(factor).Some?
    ensures TimesError(factor).Some? ==> r == Err(TimesError(factor).value)
  {
    match TimesError(factor)
    case Some(e) => Err(e)
    case None =>
      match WholeValue(factor)
      case Some(f) => Ok(Dims(w * f, h * f, None))
      case None => Err(TypeError("'" + TypeName(factor) + "' object cannot be interpreted as an integer"))
  }

  /** One ESRGAN job: the cache afterwards, the result, and the tile plans of
      the passes that ran. */
  datatype EsrganRun = EsrganRun(cache: ModelCache, result: Result<UpscaleOutput, PyException>, passes: seq<TilePlan>)

  /** The size arithmetic that runs before the model is loaded: the print
      target's calculation, or the product `w * factor`, whose only failure
      is a factor that does not multiply. */
  function EarlyDims(size: Size, config: Config): (r: Result<Dims, PyException>)
    ensures PrintTargetGiven(config) ==> r == TargetDims(size.width, size.height, config)
    ensures !PrintTargetGiven(config) ==>
      var e := TimesError(Get(config, "upscale_factor", Num(4.0)));
      (r.Err? <==> e.Some?) && (e.Some? ==> r.error == e.value)
  {
    if PrintTargetGiven(config) then TargetDims(size.width, size.height, config)
    else match TimesError(Get(config, "upscale_factor", Num(4.0)))
    case Some(e) => Err(e)
    case None => Ok(Dims(0, 0, None))
  }

  /** `EsrganUpscaler.upscale(config)`. */
  function Upscale(cache: ModelCache, config: Config, env: Env): (run: EsrganRun)
    requires Coherent(cache)
    ensures Coherent(run.cache)
    ensures RequiredPath(config, "image_path").Err? ==>
      run == EsrganRun(cache, Err(RequiredPath(config, "image_path").error), [])
    ensures run.result.Ok? ==>
      && RequiredPath(config, "image_path").Ok?
      && env.fileExists(RequiredPath(config, "image_path").value)
      && env.imageSize(RequiredPath(config, "image_path").value).Some?
      && run.cache.slot.Holding?
      && |run.passes| == (if Truthy(Get(config, "use_two_pass", Bool(false))) then 2 else 1)
      && var size := env.imageSize(RequiredPath(config, "image_path").value).value;
         TilePasses(size, run.cache.slot.model.scale, config) == Ok(run.passes)
  {
    match RequiredPath(config, "image_path")
    case Err(e) => EsrganRun(cache, Err(e), [])
    case Ok(imagePath) =>
      match StringOr(config, "output_dir", env.outputDirDefault)
      case Err(e) => EsrganRun(cache, Err(e), [])
      case Ok(outputDir) =>
        if !env.fileExists(imagePath) then
          EsrganRun(cache, Err(FileNotFoundError("Input file not found: " + imagePath)), [])
        else match env.imageSize(imagePath)
        case None => EsrganRun(cache, Err(ValueError("Could not load image: " + imagePath)), [])
        case Some(size) =>
          var early := EarlyDims(size, config);
          if early.Err? then EsrganRun(cache, Err(early.error), [])
          else
            var load := LoadModel(cache, Get(config, "model", Str(DefaultModel)), env);
            match load.result
            case Err(e) => EsrganRun(load.cache, Err(e), [])
            case Ok(model) =>
              var tiled := TilePasses(size, model.scale, config);
              match tiled
              case Err(e) => EsrganRun(load.cache, Err(e), [])
              case Ok(passes) =>
                var dims := if PrintTargetGiven(config) then early
                            else SimpleDims(size.width, size.height, Get(config, "upscale_factor", Num(4.0)));
                match dims
                case Err(e) => EsrganRun(load.cache, Err(e), passes)
                case Ok(d) =>
                  match SaveOne(config, Stem(imagePath) + "_esrgan", outputDir)
                  case Err(e) => EsrganRun(load.cache, Err(e), passes)
                  case Ok(saved) => EsrganRun(load.cache, Ok(Finish(saved, d.width, d.height, d.cropInfo, env.elapsed)), passes)
  }

  /** `_upscale_with_tiles`'s plan for an h x w input. The size test
      `h <= tile_size and w <= tile_size` comes first and takes any number;
      only an image that does not fit reads `tile_overlap` and needs both
      values to be whole, since they become tile counts and slice bounds. */
  function PassPlan(h: int, w: int, tile: Value, overlap: Value, scale: int): (r: Result<TilePlan, PyException>)
    ensures r == Ok(Whole) <==>
      NumberOf(tile).Some? && h as real <= NumberOf(tile).value && w as real <= NumberOf(tile).value
    ensures NumberOf(tile).None? ==> r.Err?
    ensures r.Ok? && r.value.Tiled? ==>
      && WholeValue(tile).Some? && WholeValue(overlap).Some?
      && PlanTiles(h, w, WholeValue(tile).value, WholeValue(overlap).value, scale) == r
    ensures WholeValue(tile).Some? && WholeValue(overlap).Some? ==>
      r == PlanTiles(h, w, WholeValue(tile).value, WholeValue(overlap).value, scale)
  {
    match NumberOf(tile)
    case None => Err(TypeError("'<=' not supported between instances of 'int' and '" + TypeName(tile) + "'"))
    case Some(t) =>
      if h as real <= t && w as real <= t then Ok(Whole)
      else if NumberOf(overlap).None? then
        Err(TypeError("unsupported operand type(s) for -: '" + TypeName(tile) + "' and '" + TypeName(overlap) + "'"))
      else match (WholeValue(tile), WholeValue(overlap))
      case (Some(ti), Some(o)) => PlanTiles(h, w, ti, o, scale)
      case _ => Err(TypeError("'float' object cannot be interpreted as an integer"))
  }

  /** `min(tile_size, 384)`: Python keeps the first argument unless the
      second is smaller. */
  function SecondPassTile(tile: Value): (t: Value)
    ensures NumberOf(tile).Some? ==> NumberOf(t).Some? && NumberOf(t).value <= NumberOf(tile).value
    ensures NumberOf(tile).Some? ==> NumberOf(t).value <= SecondPassTileCap as real
    ensures NumberOf(tile).Some? && NumberOf(tile).value <= SecondPassTileCap as real ==> t == tile
  {
    if NumberOf(tile).Some? && (SecondPassTileCap as real) < NumberOf(tile).value then Num(SecondPassTileCap as real)
    else tile
  }

  /** The first pass over the input and, with `use_two_pass`, a second one
      over the first pass's h*scale x w*scale output with tiles of at most
      384. */
  function TilePasses(size: Size, scale: int, config: Config): (r: Result<seq<TilePlan>, PyException>)
    ensures var tile := Get(config, "tile_size", Num(512.0));
      var overlap := Get(config, "tile_overlap", Num(32.0));
      var first := PassPlan(size.height, size.width, tile, overlap, scale);
      var second := PassPlan(size.height * scale, size.width * scale, SecondPassTile(tile), overlap, scale);
      if !Truthy(Get(config, "use_two_pass", Bool(false))) then
        && (r.Ok? <==> first.Ok?)
        && (r.Ok? ==> r.value == [first.value])
        && (first.Err? ==> r == Err(first.error))
      else
        && (r.Ok? <==> first.Ok? && second.Ok?)
        && (r.Ok? ==> r.value == [first.value, second.value])
        && (first.Err? ==> r == Err(first.error))
        && (first.Ok? && second.Err? ==> r == Err(second.error))
  {
    var tile := Get(config, "tile_size", Num(512.0));
    var overlap := Get(config, "tile_overlap", Num(32.0));
    match PassPlan(size.height, size.width, tile, overlap, scale)
    case Err(e) => Err(e)
    case Ok(first) =>
      if !Truthy(Get(config, "use_two_pass", Bool(false))) then Ok([first])
      else
        match PassPlan(size.height * scale, size.width * scale, SecondPassTile(tile), overlap, scale)
        case Err(e) => Err(e)
        case Ok(second) => Ok([first, second])
  }

  /** An image that fits in one tile is upscaled whole, whatever
      `tile_overlap` holds, and with any numeric tile size. */
  lemma WholeImageIgnoresOverlap(h: int, w: int, tile: Value, overlap: Value, other: Value, scale: int)
    requires NumberOf(tile).Some? && h as real <= NumberOf(tile).value && w as real <= NumberOf(tile).value
    ensures PassPlan(h, w, tile, overlap, scale) == Ok(Whole)
    ensures PassPlan(h, w, tile, overlap, scale) == PassPlan(h, w, tile, other, scale)
  {
  }

  /** A 100x100 input with the overlap given as the string "8", and a
      500x500 input with a tile size of 600.5, both run as one tile. */
  lemma SmallImagesRunWhole(scale: int)
    ensures TilePasses(Size(100, 100), scale, map["tile_overlap" := Str("8")]) == Ok([Whole])
    ensures TilePasses(Size(500, 500), scale, map["tile_size" := Num(600.5)]) == Ok([Whole])
  {
  }

  /** A factor that does not multiply fails before the model is loaded: the
      cache is untouched and no pass runs. */
  lemma ProductFailsBeforeLoad(cache: ModelCache, config: Config, env: Env, path: string)
    requires Coherent(cache)
    requires "image_path" in config && config["image_path"] == Str(path)
    requires !("output_dir" in config) || config["output_dir"].Str?
    requires env.fileExists(path) && env.imageSize(path).Some?
    requires !PrintTargetGiven(config)
    requires TimesError(Get(config, "upscale_factor", Num(4.0))).Some?
    ensures Upscale(cache, config, env)
      == EsrganRun(cache, Err(TimesError(Get(config, "upscale_factor", Num(4.0))).value), [])
  {
  }

  /** A missing input file is reported before anything is loaded: the cache
      is untouched and no tile pass runs. */
  lemma MissingInputLeavesCache(cache: ModelCache, config: Config, env: Env, path: string)
    requires Coherent(cache)
    requires "image_path" in config && config["image_path"] == Str(path)
    requires !("output_dir" in config) || config["output_dir"].Str?
    requires !env.fileExists(path)
    ensures Upscale(cache, config, env) == EsrganRun(cache, Err(FileNotFoundError("Input file not found: " + path)), [])
  {
  }

  /** The reported size is the chosen size, whatever the model's scale and
      the tiling: without a print target it is the input times the factor,
      with one it is the calculator's, and the crop report follows the
      calculator's direction. */
  lemma ReportedSizeIsChosenSize(cache: ModelCache, config: Config, env: Env)
    requires Coherent(cache)
    ensures var run := Upscale(cache, config, env);
      run.result.Ok? ==>
        var size := env.imageSize(config["image_path"].s).value;
        var d := if PrintTargetGiven(config) then TargetDims(size.width, size.height, config)
                 else SimpleDims(size.width, size.height, Get(config, "upscale_factor", Num(4.0)));
        && d.Ok?
        && run.result.value.outputWidth == d.value.width
        && run.result.value.outputHeight == d.value.height
        && run.result.value.cropInfo == d.value.cropInfo
  {
  }

  /** With a non-negative overlap below the tile size, the first pass of a
      successful job, when tiled, reads every row and column of the input. */
  lemma PassesCoverInput(cache: ModelCache, config: Config, env: Env)
    requires Coherent(cache)
    ensures var run := Upscale(cache, config, env);
      run.result.Ok? && run.passes[0].Tiled? ==>
        var size := env.imageSize(config["image_path"].s).value;
        var tile := WholeValue(Get(config, "tile_size", Num(512.0)));
        var overlap := WholeValue(Get(config, "tile_overlap", Num(32.0)));
        && tile.Some? && overlap.Some?
        && (size.height >= 1 && size.width >= 1 && 0 <= overlap.value < tile.value ==>
              Covers(run.passes[0].rows, size.height) && Covers(run.passes[0].cols, size.width))
  {
    var run := Upscale(cache, config, env);
    if run.result.Ok? && run.passes[0].Tiled? {
      var size := env.imageSize(config["image_path"].s).value;
      var tile := WholeValue(Get(config, "tile_size", Num(512.0)));
      var overlap := WholeValue(Get(config, "tile_overlap", Num(32.0)));
      if size.height >= 1 && size.width >= 1 && 0 <= overlap.value < tile.value {
        TiledPlanCovers(size.height, size.width, tile.value, overlap.value, run.cache.slot.model.scale);
      }
    }
  }
}

=== FILE: executor.dfy ===
/** The host's worker supervisor and job correlator (`PythonExecutorService`
    in dist/python/python-executor.service.js and
    src/python/python-executor.service.ts) as a transition system. Process
    spawning, readline and the timers become events: a parsed line from a
    given spawn, the exit of the current process, a due restart, and the
    startup timeout of a given spawn. A settled promise is an entry of the
    map a transition returns. */
module Executor {
  import opened Wrappers
  import opened Values
  import opened Protocol

  /** The two versions of the service: the compiled one stops restarting
      after `limit` exits and settles its startup promise when the process
      exits; the source one restarts forever and does not. */
  datatype Variant = Variant(limit: Option<nat>, settleOnExit: bool)

  const Dist: Variant := Variant(Some(3), true)
  const Src: Variant := Variant(None, false)

  const NotReadyMessage: string := "Python worker not ready — models still loading"
  const CrashMessage: string := "Python worker crashed"

  /** How a job's promise settles: with the worker's whole result message,
      or with an Error carrying a message. */
  datatype Outcome = Resolved(msg: Value) | Rejected(message: string)

  /** The service's state. `pending` holds the ids of the pending-jobs map;
      `exits` counts process exits (the compiled version's restart counter);
      `spawns` counts started processes, the current one being number
      `spawns`; `restartDue` is a scheduled restart; `bootSettled` says
      whether the promise `onModuleInit` awaits (the first spawn's) has
      settled, and `firstTimerPending` whether the first spawn's startup
      timer has yet to fire. */
  datatype Executor = Executor(
    ready: bool,
    pending: set<string>,
    exits: nat,
    spawns: nat,
    alive: bool,
    restartDue: bool,
    bootSettled: bool,
    firstTimerPending: bool)

  /** Right after `onModuleInit` has started the first process. */
  const Initial: Executor := Executor(false, {}, 0, 1, true, false, false, true)

  /** The result of one transition: the new state and the promises it
      settled, by job id. */
  datatype Reaction = Reaction(state: Executor, settled: map<string, Outcome>)

  /** `executeUpscaler(method, config)` under the fresh id `id`: refused
      while not ready; otherwise the id is registered and one job line is
      written. */
  datatype Submission = NotReady(error: string) | Written(state: Executor, line: Value)

  function Submit(x: Executor, id: string, kind: string, config: Value): (s: Submission)
    ensures !x.ready <==> s.NotReady?
    ensures s.NotReady? ==> s.error == NotReadyMessage
    ensures s.Written? ==>
      && s.state == x.(pending := x.pending + {id})
      && s.line == RequestValue(Request(id, kind, config))
    ensures s.Written? && id !in x.pending ==> |s.state.pending| == |x.pending| + 1
  {
    if !x.ready then NotReady(NotReadyMessage)
    else Written(x.(pending := x.pending + {id}), RequestValue(Request(id, kind, config)))
  }

  /** The line handler, for a line from spawn number `spawn`; `None` is a
      line that is not JSON. */
  function OnLine(x: Executor, spawn: nat, line: Option<Value>): (r: Reaction)
    ensures r.state.pending <= x.pending && r.settled.Keys <= x.pending
    ensures r.state.pending == x.pending - r.settled.Keys
    ensures r.state.ready == (x.ready || (line.Some? && Classify(line.value) == Ready))
    ensures r.state.(ready := x.ready, pending := x.pending, bootSettled := x.bootSettled) == x
    ensures r.state.bootSettled == (x.bootSettled || (spawn == 1 && line.Some? && Classify(line.value) == Ready))
    ensures line.None? ==> r == Reaction(x, map[])
    ensures line.Some? ==>
      match Classify(line.value)
      case JobResult(id, msg) =>
        r.settled == (if id in x.pending then map[id := Resolved(msg)] else map[])
      case JobError(id, text) =>
        r.settled == (if id in x.pending then map[id := Rejected(text)] else map[])
      case _ => r.settled == map[] && r.state.pending == x.pending
  {
    match line
    case None => Reaction(x, map[])
    case Some(v) =>
      match Classify(v)
      case Ready => Reaction(x.(ready := true, bootSettled := x.bootSettled || spawn == 1), map[])
      case JobResult(id, msg) =>
        if id in x.pending then Reaction(x.(pending := x.pending - {id}), map[id := Resolved(msg)])
        else Reaction(x, map[])
      case JobError(id, text) =>
        if id in x.pending then Reaction(x.(pending := x.pending - {id}), map[id := Rejected(text)])
        else Reaction(x, map[])
      case _ => Reaction(x, map[])
  }

  /** The exit handler: not ready, every pending job rejected once as
      crashed, the map emptied; the exit is counted and a restart scheduled
      while the limit allows. */
  function OnExit(v: Variant, x: Executor): (r: Reaction)
    ensures !r.state.ready && r.state.pending == {} && !r.state.alive
    ensures r.settled.Keys == x.pending
    ensures forall id :: id in r.settled ==> r.settled[id] == Rejected(CrashMessage)
    ensures r.state.exits == x.exits + 1 && r.state.spawns == x.spawns
    ensures r.state.restartDue <==> v.limit.None? || x.exits + 1 < v.limit.value
    ensures r.state.bootSettled == (x.bootSettled || (v.settleOnExit && x.spawns == 1))
    ensures r.state.firstTimerPending == x.firstTimerPending
  {
    Reaction(Executor(false, {}, x.exits + 1, x.spawns, false,
                      v.limit.None? || x.exits + 1 < v.limit.value,
                      x.bootSettled || (v.settleOnExit && x.spawns == 1),
                      x.firstTimerPending),
             map id | id in x.pending :: Rejected(CrashMessage))
  }

  /** The scheduled restart fires: a new process is started. It starts
      only a service that was restarting, it does not touch the jobs or the
      readiness, and it keeps the accounting of one live process per spawn
      that has not exited. */
  function OnRestartDue(x: Executor): (y: Executor)
    ensures !y.restartDue
    ensures x.restartDue ==> y.alive && y.spawns == x.spawns + 1
    ensures y.exits == x.exits && y.pending == x.pending && y.ready == x.ready
    ensures y.bootSettled == x.bootSettled && y.firstTimerPending == x.firstTimerPending
    ensures !x.restartDue ==> y == x
    ensures x.spawns == x.exits + (if x.alive then 1 else 0) && !(x.alive && x.restartDue) ==>
      y.spawns == y.exits + (if y.alive then 1 else 0)
  {
    if x.restartDue then x.(spawns := x.spawns + 1, alive := true, restartDue := false) else x
  }

  /** The 120-second timer of spawn `spawn`: it settles that spawn's startup
      promise when the service is not ready, and never marks it ready. */
  function OnStartupTimeout(x: Executor, spawn: nat): (y: Executor)
    ensures y.ready == x.ready && y.pending == x.pending
    ensures y.bootSettled == (x.bootSettled || (spawn == 1 && !x.ready))
    ensures y.firstTimerPending == (x.firstTimerPending && spawn != 1)
    ensures y.(bootSettled := x.bootSettled, firstTimerPending := x.firstTimerPending) == x
  {
    x.(bootSettled := x.bootSettled || (spawn == 1 && !x.ready),
       firstTimerPending := x.firstTimerPending && spawn != 1)
  }

  /** What can happen to the service. */
  datatype Event =
    | Line(spawn: nat, parsed: Option<Value>)
    | Exit
    | RestartDue
    | StartupTimeout(spawn: nat)
    | Call(id: string, kind: string, config: Value)

  /** One event. A refused call settles its own promise at once. */
  function Step(v: Variant, x: Executor, e: Event): (r: Reaction)
  {
    match e
    case Line(k, p) => OnLine(x, k, p)
    case Exit => OnExit(v, x)
    case RestartDue => Reaction(OnRestartDue(x), map[])
    case StartupTimeout(k) => Reaction(OnStartupTimeout(x, k), map[])
    case Call(id, kind, config) =>
      match Submit(x, id, kind, config)
      case NotReady(err) => Reaction(x, map[id := Rejected(err)])
      case Written(y, _) => Reaction(y, map[])
  }

  /** Events that can occur: lines and exits come from the live current
      process, a restart only when scheduled, the first spawn's timer only
      once, and every call gets an id never used before. */
  predicate Possible(x: Executor, e: Event, used: set<string>) {
    match e
    case Line(k, _) => x.alive && k == x.spawns
    case Exit => x.alive
    case RestartDue => x.restartDue
    case StartupTimeout(k) => 1 <= k <= x.spawns && (k == 1 ==> x.firstTimerPending)
    case Call(id, _, _) => id !in used
  }

  function NewIds(e: Event): set<string> {
    if e.Call? then {e.id} else {}
  }

  /** A run of events, each possible when it happens. */
  predicate Valid(v: Variant, x: Executor, events: seq<Event>, used: set<string>)
    decreases |events|
  {
    events == [] ||
      (Possible(x, events[0], used) &&
       Valid(v, Step(v, x, events[0]).state, events[1..], used + NewIds(events[0])))
  }

  /** The state after a run. */
  function Run(v: Variant, x: Executor, events: seq<Event>): Executor
    decreases |events|
  {
    if events == [] then x else Run(v, Step(v, x, events[0]).state, events[1..])
  }

  /** Every id a run settles. */
  function SettledIds(v: Variant, x: Executor, events: seq<Event>): set<string>
    decreases |events|
  {
    if events == [] then {}
    else Step(v, x, events[0]).settled.Keys + SettledIds(v, Step(v, x, events[0]).state, events[1..])
  }

  /** No id is settled by two different events of the run. */
  predicate SettledOnce(v: Variant, x: Executor, events: seq<Event>)
    decreases |events|
  {
    events == [] ||
      (Step(v, x, events[0]).settled.Keys !! SettledIds(v, Step(v, x, events[0]).state, events[1..])
       && SettledOnce(v, Step(v, x, events[0]).state, events[1..]))
  }

  /** One event settles only pending ids or the id of the call it is, and
      leaves pending only ids it did not settle. */
  lemma StepSettlesPending(v: Variant, x: Executor, e: Event)
    requires e.Call? ==> e.id !in x.pending
    ensures Step(v, x, e).settled.Keys <= x.pending + NewIds(e)
    ensures Step(v, x, e).state.pending <= x.pending + NewIds(e)
    ensures Step(v, x, e).state.pending !! Step(v, x, e).settled.Keys
  {
  }

  /** Every promise is settled at most once over any run, and only promises
      that were pending or created during the run are settled. */
  lemma {:induction false} EachJobSettledOnce(v: Variant, x: Executor, events: seq<Event>, used: set<string>)
    requires x.pending <= used
    requires Valid(v, x, events, used)
    ensures SettledOnce(v, x, events)
    ensures SettledIds(v, x, events) <= x.pending + (SubmittedIds(events))
    ensures SettledIds(v, x, events) !! (used - x.pending)
    decreases |events|
  {
    if events != [] {
      var e := events[0];
      var r := Step(v, x, e);
      var used' := used + NewIds(e);
      StepSettlesPending(v, x, e);
      EachJobSettledOnce(v, r.state, events[1..], used');
      assert SubmittedIds(events) == NewIds(e) + SubmittedIds(events[1..]);
      SubmittedIdsFresh(v, r.state, events[1..], used');
    }
  }

  /** The ids of the calls in a run. */
  function SubmittedIds(events: seq<Event>): set<string>
    decreases |events|
  {
    if events == [] then {} else NewIds(events[0]) + SubmittedIds(events[1..])
  }

  /** Calls in a valid run use ids not used before it. */
  lemma {:induction false} SubmittedIdsFresh(v: Variant, x: Executor, events: seq<Event>, used: set<string>)
    requires Valid(v, x, events, used)
    ensures SubmittedIds(events) !! used
    decreases |events|
  {
    if events != [] {
      SubmittedIdsFresh(v, Step(v, x, events[0]).state, events[1..], used + NewIds(events[0]));
    }
  }

  /** How the process count relates to exits, and when a restart can be
      scheduled. */
  predicate Supervised(v: Variant, x: Executor) {
    && x.spawns == x.exits + (if x.alive then 1 else 0)
    && !(x.alive && x.restartDue)
    && (x.restartDue ==> v.limit.None? || x.exits < v.limit.value)
    && (x.alive && v.limit.Some? ==> x.exits == 0 || x.exits < v.limit.value)
    && (x.exits == 0 ==> x.alive && x.spawns == 1)
    && (v.limit.Some? ==> x.exits <= AtLeastOne(v.limit.value))
  }

  function AtLeastOne(n: nat): nat {
    if n == 0 then 1 else n
  }

  lemma SupervisedStep(v: Variant, x: Executor, e: Event, used: set<string>)
    requires Supervised(v, x) && Possible(x, e, used)
    ensures Supervised(v, Step(v, x, e).state)
  {
  }

  /** With a limit of `m` exits, no more than `max(m, 1)` processes are ever
      started: the compiled service starts at most three, and none after the
      third exit. */
  lemma {:induction false} SpawnsBounded(v: Variant, x: Executor, events: seq<Event>, used: set<string>)
    requires v.limit.Some?
    requires Supervised(v, x) && Valid(v, x, events, used)
    ensures Supervised(v, Run(v, x, events))
    ensures var y := Run(v, x, events);
      && y.spawns <= AtLeastOne(v.limit.value)
      && (y.exits >= v.limit.value && y.exits >= 1 ==> !y.alive && !y.restartDue)
    decreases |events|
  {
    if events != [] {
      SupervisedStep(v, x, events[0], used);
      SpawnsBounded(v, Step(v, x, events[0]).state, events[1..], used + NewIds(events[0]));
    }
  }

  /** The source service restarts after every exit. */
  lemma SrcAlwaysRestarts(x: Executor)
    ensures OnExit(Src, x).state.restartDue
  {
  }

  /** With the compiled service the startup promise is unsettled only while
      the first process is alive, not ready, and its timer has not fired. */
  predicate BootWaiting(x: Executor) {
    x.spawns == 1 && x.alive && !x.ready && x.firstTimerPending
  }

  lemma DistBootStep(x: Executor, e: Event, used: set<string>)
    requires Supervised(Dist, x) && Possible(x, e, used)
    requires x.bootSettled || BootWaiting(x)
    ensures var y := Step(Dist, x, e).state;
      y.bootSettled || BootWaiting(y)
  {
  }

  lemma {:induction false} DistBootSettles(x: Executor, events: seq<Event>, used: set<string>)
    requires Supervised(Dist, x) && Valid(Dist, x, events, used)
    requires x.bootSettled || BootWaiting(x)
    ensures var y := Run(Dist, x, events);
      y.bootSettled || BootWaiting(y)
    decreases |events|
  {
    if events != [] {
      SupervisedStep(Dist, x, events[0], used);
      DistBootStep(x, events[0], used);
      DistBootSettles(Step(Dist, x, events[0]).state, events[1..], used + NewIds(events[0]));
    }
  }

  /** The source service can leave startup unsettled for good: the first
      process exits before it is ready, the restarted one becomes ready,
      and the first process's timer then finds the service ready and
      settles nothing. */
  lemma SrcBootHangs()
    ensures var events := [Exit, RestartDue, Line(2, Some(ToValue(Status("ready")))), StartupTimeout(1)];
      && Valid(Src, Initial, events, {})
      && var y := Run(Src, Initial, events);
        !y.bootSettled && y.ready && !y.firstTimerPending && y.spawns == 2
  {
    var events := [Exit, RestartDue, Line(2, Some(ToValue(Status("ready")))), StartupTimeout(1)];
    HostReadsWorkerMessages(Status("ready"));
    var x1 := Step(Src, Initial, Exit).state;
    var x2 := Step(Src, x1, RestartDue).state;
    var x3 := Step(Src, x2, events[2]).state;
    var x4 := Step(Src, x3, StartupTimeout(1)).state;
    assert x3.ready && !x3.bootSettled && x3.spawns == 2;
    assert events[1..][1..][1..][1..] == [];
    assert Run(Src, Initial, events) == x4;
  }

  /** Once in that state nothing can settle startup again. */
  predicate BootLost(x: Executor) {
    !x.bootSettled && !x.firstTimerPending && x.spawns >= 2
  }

  lemma {:induction false} SrcBootNeverSettles(x: Executor, events: seq<Event>, used: set<string>)
    requires BootLost(x) && Valid(Src, x, events, used)
    ensures BootLost(Run(Src, x, events))
    decreases |events|
  {
    if events != [] {
      SrcBootNeverSettles(Step(Src, x, events[0]).state, events[1..], used + NewIds(events[0]));
    }
  }
}

=== FILE: flux.dfy ===
/** The FLUX diffusion upscaler (python-scripts/services/flux_upscaler.py):
    its once-only model loading, the sampler settings it reads with their
    defaults, the seed rule, and its output-size choice. The ComfyUI graph
    itself (CLIP, UNet, VAE, the tiled sampler) is not modelled: what reaches
    it is the settings record. */
module Flux {
  import opened Wrappers
  import opened Values
  import opened Dimensions
  import opened ImageUtils
  import opened JobConfig
  import Esrgan

  /** `load_models`'s default upscale model and guidance. */
  const DefaultUpscaleModel: string := "4x-UltraSharp.pth"
  const DefaultGuidance: real := 3.5

  /** What `load_models` was called with: the upscale model name and the
      guidance the empty prompts were encoded with. */
  datatype LoadedWith = LoadedWith(upscaleModel: Value, guidance: Value)

  /** `_models_loaded` and what was loaded. */
  datatype FluxState = FluxState(loaded: Option<LoadedWith>)

  const Unloaded: FluxState := FluxState(None)

  /** The state after `load_models`, and the exception it raised if any. */
  datatype FluxLoad = FluxLoad(state: FluxState, error: Option<PyException>)

  /** `load_models(upscale_model=..., guidance=...)`: a no-op once loaded;
      otherwise it loads, unless the environment makes loading fail. */
  function LoadModels(state: FluxState, upscaleModel: Value, guidance: Value, env: Env): (l: FluxLoad)
    ensures state.loaded.Some? ==> l == FluxLoad(state, None)
    ensures state.loaded.None? && env.fluxLoadError.None? ==>
      l == FluxLoad(FluxState(Some(LoadedWith(upscaleModel, guidance))), None)
    ensures state.loaded.None? && env.fluxLoadError.Some? ==>
      l == FluxLoad(state, Some(RuntimeError(env.fluxLoadError.value)))
  {
    if state.loaded.Some? then FluxLoad(state, None)
    else if env.fluxLoadError.Some? then FluxLoad(state, Some(RuntimeError(env.fluxLoadError.value)))
    else FluxLoad(FluxState(Some(LoadedWith(upscaleModel, guidance))), None)
  }

  /** Loading twice is loading once: the second call changes nothing. */
  lemma LoadModelsIdempotent(state: FluxState, m1: Value, g1: Value, m2: Value, g2: Value, env: Env)
    requires LoadModels(state, m1, g1, env).error.None?
    ensures var s1 := LoadModels(state, m1, g1, env).state;
      s1.loaded.Some? && LoadModels(s1, m2, g2, env) == FluxLoad(s1, None)
  {
  }

  /** Python's `seed == 0`: true for the number zero and for `False`. */
  predicate SeedIsZero(v: Value) {
    v == Num(0.0) || v == Bool(false)
  }

  /** A zero seed is replaced by the random draw; any other seed is used as
      given. */
  function Seed(v: Value, draw: SeedDraw): (s: Value)
    ensures SeedIsZero(v) ==> s.Num? && 0.0 <= s.n <= 4294967295.0 && s == Num(draw as real)
    ensures !SeedIsZero(v) ==> s == v
  {
    if SeedIsZero(v) then Num(draw as real) else v
  }

  /** The settings handed to the tiled diffusion sampler. */
  datatype FluxSettings = FluxSettings(
    upscaleBy: Value,
    denoise: Value,
    steps: Value,
    seed: Value,
    cfg: Value,
    samplerName: Value,
    scheduler: Value,
    tileWidth: Value,
    tileHeight: Value,
    maskBlur: Value,
    tilePadding: Value)

  /** The keys that reach only the sampler. */
  const SamplerKeys: set<string> := {
    "upscale_by", "denoise", "steps", "seed", "cfg", "sampler_name", "scheduler",
    "tile_width", "tile_height", "mask_blur", "tile_padding"}

  /** The keys that decide loading, paths, size and saving. */
  const JobKeys: set<string> := {
    "upscale_model", "guidance", "image_path", "output_dir", "output_name", "output_format",
    "target_width_inches", "target_height_inches", "target_dpi", "upscale_factor"}

  /** The part of a config whose keys are in `keys`. */
  function Restrict(config: Config, keys: set<string>): (r: Config)
    ensures forall k :: k in r <==> k in config && k in keys
    ensures forall k :: k in r ==> r[k] == config[k]
  {
    map k | k in config && k in keys :: config[k]
  }

  /** Setting a key outside `keys` does not change the restriction. */
  lemma RestrictIgnores(config: Config, keys: set<string>, k: string, v: Value)
    requires k !in keys
    ensures Restrict(config[k := v], keys) == Restrict(config, keys)
  {
    var a := Restrict(config[k := v], keys);
    var b := Restrict(config, keys);
    assert a.Keys == b.Keys;
    assert forall j :: j in a ==> a[j] == b[j];
  }

  /** The sampler settings: each from the config or its default, with the
      seed rule applied. */
  function Settings(config: Config, draw: SeedDraw): (s: FluxSettings)
    ensures "tile_width" !in config ==> s.tileWidth == Num(512.0)
    ensures "tile_height" !in config ==> s.tileHeight == Num(512.0)
    ensures "upscale_by" !in config ==> s.upscaleBy == Num(4.0)
    ensures "steps" !in config ==> s.steps == Num(20.0)
    ensures "seed" !in config ==> s.seed == Num(draw as real)
  {
    FluxSettings(
      Get(config, "upscale_by", Num(4.0)),
      Get(config, "denoise", Num(0.2)),
      Get(config, "steps", Num(20.0)),
      Seed(Get(config, "seed", Num(0.0)), draw),
      Get(config, "cfg", Num(7.0)),
      Get(config, "sampler_name", Str("euler")),
      Get(config, "scheduler", Str("normal")),
      Get(config, "tile_width", Num(512.0)),
      Get(config, "tile_height", Num(512.0)),
      Get(config, "mask_blur", Num(8.0)),
      Get(config, "tile_padding", Num(32.0)))
  }

  /** `int(side * factor)` for an int `side`: a number multiplies and is
      truncated, a boolean counts as 0 or 1, a string is repeated `side` times
      and then read as a decimal literal, a list is repeated and `int()`
      refuses it; None and dictionaries do not multiply. */
  function ScaledSide(side: int, factor: Value): (r: Result<int, PyException>)
    ensures TimesError(factor).Some? ==> r == Err(TimesError(factor).value)
    ensures WholeValue(factor).Some? ==> r == Ok(side * WholeValue(factor).value)
    ensures NumberOf(factor).Some? ==> r == Ok(ScaledNumber(side, NumberOf(factor).value))
    ensures factor.Str? ==> r == PyInt(Str(Repeat(factor.s, side)))
    ensures factor.Arr? ==> r == Err(IntArgError(factor))
  {
    match TimesError(factor)
    case Some(e) => Err(e)
    case None =>
      match factor
      case Num(f) => Ok(ScaledNumber(side, f))
      case Bool(b) => Ok(ScaledNumber(side, if b then 1.0 else 0.0))
      case Str(s) => PyInt(Str(Repeat(s, side)))
      case _ => Err(IntArgError(factor))
  }

  /** `int(side * x)` for a float or boolean `x`: exact when `x` is whole. */
  function ScaledNumber(side: int, x: real): (n: int)
    ensures n == Trunc(side as real * x)
    ensures x.Floor as real == x ==> n == side * x.Floor
  {
    if x.Floor as real == x then TruncOfWholeProduct(side, x); side * x.Floor
    else Trunc(side as real * x)
  }

  /** Multiplying by a whole float and truncating loses nothing. */
  lemma TruncOfWholeProduct(a: int, x: real)
    requires x.Floor as real == x
    ensures Trunc(a as real * x) == a * x.Floor
  {
    assert a as real * x == (a * x.Floor) as real;
  }

  /** The size choice without a print target: `int(input * upscale_factor)`
      for the width, then the height, default factor 4, no crop. */
  function SimpleDims(w: int, h: int, config: Config): (r: Result<Dims, PyException>)
    ensures var f := Get(config, "upscale_factor", Num(4.0));
      r.Ok? <==> ScaledSide(w, f).Ok? && ScaledSide(h, f).Ok?
    ensures var f := Get(config, "upscale_factor", Num(4.0));
      r.Ok? ==> r.value == Dims(ScaledSide(w, f).value, ScaledSide(h, f).value, None)
    ensures var f := Get(config, "upscale_factor", Num(4.0));
      ScaledSide(w, f).Err? ==> r == Err(ScaledSide(w, f).error)
    ensures "upscale_factor" !in config ==> r == Ok(Dims(4 * w, 4 * h, None))
  {
    var f := Get(config, "upscale_factor", Num(4.0));
    match ScaledSide(w, f)
    case Err(e) => Err(e)
    case Ok(ow) =>
      match ScaledSide(h, f)
      case Err(e) => Err(e)
      case Ok(oh) => Ok(Dims(ow, oh, None))
  }

  /** A whole-number factor sizes a FLUX output exactly as it sizes an
      ESRGAN one. */
  lemma WholeFactorAgreesWithEsrgan(w: int, h: int, factor: Value)
    requires WholeValue(factor).Some?
    ensures SimpleDims(w, h, map["upscale_factor" := factor]) == Esrgan.SimpleDims(w, h, factor)
  {
  }

  /** A string factor is repeated, not read: "4" makes a 1 x 2 input
      4 pixels wide and 44 high. */
  lemma StringFactorRepeats()
    ensures SimpleDims(1, 2, map["upscale_factor" := Str("4")]) == Ok(Dims(4, 44, None))
  {
    assert ScaledSide(1, Str("4")) == Ok(4) by {
      assert Repeat("4", 1) == "4";
      assert IntToString(4) == "4";
      ParseIntRoundTrip(4);
    }
    assert ScaledSide(2, Str("4")) == Ok(44) by {
      assert Repeat("4", 2) == "44";
      assert IntToString(44) == "44";
      ParseIntRoundTrip(44);
    }
  }

  /** What the tiled sampler is handed, as a dictionary of its keyword
      arguments. */
  function SamplerInputs(s: FluxSettings): (c: Config)
    ensures c.Keys == SamplerKeys
    ensures c["upscale_by"] == s.upscaleBy && c["seed"] == s.seed
    ensures c["tile_width"] == s.tileWidth && c["tile_height"] == s.tileHeight
  {
    map["upscale_by" := s.upscaleBy, "denoise" := s.denoise, "steps" := s.steps, "seed" := s.seed,
        "cfg" := s.cfg, "sampler_name" := s.samplerName, "scheduler" := s.scheduler,
        "tile_width" := s.tileWidth, "tile_height" := s.tileHeight, "mask_blur" := s.maskBlur,
        "tile_padding" := s.tilePadding]
  }

  /** One FLUX job: the loader state afterwards, the result, and the
      settings that reached the sampler when it ran. */
  datatype FluxRun = FluxRun(state: FluxState, result: Result<UpscaleOutput, PyException>, settings: Option<FluxSettings>)

  /** What the job settles before the sampler runs: the input, the
      output directory and the chosen size. */
  datatype Prepared = Prepared(imagePath: string, outputDir: string, dims: Dims)

  /** The loader state after the steps before sampling, and what they
      prepared or the exception they raised. */
  datatype JobOutcome = JobOutcome(state: FluxState, prepared: Result<Prepared, PyException>)

  /** `FluxUpscaler.upscale(config)`: the job keys decide loading, paths and
      size; then the sampler runs on the sampler settings and may raise;
      then the result is saved under the job keys' name and format. */
  function Upscale(state: FluxState, config: Config, env: Env): (run: FluxRun)
    ensures state.loaded.Some? ==> run.state == state
    ensures state.loaded.None? && env.fluxLoadError.None? ==>
      run.state.loaded == Some(LoadedWith(Get(config, "upscale_model", Str(DefaultUpscaleModel)),
                                          Get(config, "guidance", Num(DefaultGuidance))))
    ensures run.result.Ok? ==>
      && run.state.loaded.Some?
      && run.settings == Some(Settings(config, env.seedDraw))
      && env.samplerError(SamplerInputs(run.settings.value)).None?
    ensures run.settings.Some? && env.samplerError(SamplerInputs(run.settings.value)).Some? ==>
      run.result == Err(env.samplerError(SamplerInputs(run.settings.value)).value)
  {
    var jc := Restrict(config, JobKeys);
    var job := Job(state, jc, env);
    match job.prepared
    case Err(e) => FluxRun(job.state, Err(e), None)
    case Ok(p) =>
      var settings := Settings(config, env.seedDraw);
      match env.samplerError(SamplerInputs(settings))
      case Some(e) => FluxRun(job.state, Err(e), Some(settings))
      case None =>
        match SaveOne(jc, Stem(p.imagePath) + "_flux", p.outputDir)
        case Err(e) => FluxRun(job.state, Err(e), Some(settings))
        case Ok(saved) =>
          FluxRun(job.state, Ok(Finish(saved, p.dims.width, p.dims.height, p.dims.cropInfo, env.elapsed)),
                  Some(settings))
  }

  /** The steps before sampling: loading, the input and output paths, the
      input's size and the output-size choice. */
  function Job(state: FluxState, config: Config, env: Env): (j: JobOutcome)
    ensures state.loaded.Some? ==> j.state == state
    ensures state.loaded.None? && env.fluxLoadError.None? ==>
      j.state.loaded == Some(LoadedWith(Get(config, "upscale_model", Str(DefaultUpscaleModel)),
                                        Get(config, "guidance", Num(DefaultGuidance))))
    ensures j.prepared.Ok? ==>
      && j.state.loaded.Some?
      && "image_path" in config && config["image_path"] == Str(j.prepared.value.imagePath)
      && env.fileExists(j.prepared.value.imagePath)
      && env.imageSize(j.prepared.value.imagePath).Some?
    ensures state.loaded.None? && env.fluxLoadError.Some? ==>
      j == JobOutcome(state, Err(RuntimeError(env.fluxLoadError.value)))
    ensures (state.loaded.Some? || env.fluxLoadError.None?)
            && RequiredPath(config, "image_path").Ok?
            && StringOr(config, "output_dir", env.outputDirDefault).Ok?
            && !env.fileExists(RequiredPath(config, "image_path").value) ==>
      j.prepared == Err(FileNotFoundError("Input file not found: " + RequiredPath(config, "image_path").value))
  {
    var load := if state.loaded.Some? then FluxLoad(state, None)
                else LoadModels(state, Get(config, "upscale_model", Str(DefaultUpscaleModel)),
                                Get(config, "guidance", Num(DefaultGuidance)), env);
    if load.error.Some? then JobOutcome(load.state, Err(load.error.value))
    else
      var s := load.state;
      match RequiredPath(config, "image_path")
      case Err(e) => JobOutcome(s, Err(e))
      case Ok(imagePath) =>
        match StringOr(config, "output_dir", env.outputDirDefault)
        case Err(e) => JobOutcome(s, Err(e))
        case Ok(outputDir) =>
          if !env.fileExists(imagePath) then
            JobOutcome(s, Err(FileNotFoundError("Input file not found: " + imagePath)))
          else match env.imageSize(imagePath)
          case None => JobOutcome(s, Err(DecodeError(imagePath)))
          case Some(size) =>
            var dims := if PrintTargetGiven(config) then TargetDims(size.width, size.height, config)
                        else SimpleDims(size.width, size.height, config);
            match dims
            case Err(e) => JobOutcome(s, Err(e))
            case Ok(d) => JobOutcome(s, Ok(Prepared(imagePath, outputDir, d)))
  }

  /** A missing input fails with FileNotFoundError after the models are
      loaded and before the sampler is reached; a failed load comes first. */
  lemma MissingInputFails(state: FluxState, config: Config, env: Env, path: string)
    requires "image_path" in config && config["image_path"] == Str(path)
    requires !("output_dir" in config) || config["output_dir"].Str?
    requires !env.fileExists(path)
    ensures var load := LoadModels(state, Get(config, "upscale_model", Str(DefaultUpscaleModel)),
                                   Get(config, "guidance", Num(DefaultGuidance)), env);
      Upscale(state, config, env)
        == FluxRun(load.state,
                   Err(if load.error.Some? then load.error.value
                       else FileNotFoundError("Input file not found: " + path)),
                   None)
  {
    var jc := Restrict(config, JobKeys);
    RestrictAgrees(config);
    assert Get(jc, "upscale_model", Str(DefaultUpscaleModel)) == Get(config, "upscale_model", Str(DefaultUpscaleModel));
    assert Get(jc, "guidance", Num(DefaultGuidance)) == Get(config, "guidance", Num(DefaultGuidance));
    assert RequiredPath(jc, "image_path") == Ok(path);
    assert StringOr(jc, "output_dir", env.outputDirDefault).Ok?;
  }

  /** Two configs that agree on the job keys: each job key is in both or in
      neither, with the same value. */
  predicate AgreeOn(a: Config, b: Config, keys: set<string>) {
    forall k | k in keys :: (k in a <==> k in b) && (k in a ==> a[k] == b[k])
  }

  /** The restriction to the job keys agrees with the config on them. */
  lemma RestrictAgrees(config: Config)
    ensures AgreeOn(Restrict(config, JobKeys), config, JobKeys)
  {
  }

  /** The size choice reads only job keys, so a config and its restriction
      choose the same size. */
  lemma DimsOnJobKeys(a: Config, b: Config, w: int, h: int)
    requires AgreeOn(a, b, JobKeys)
    ensures PrintTargetGiven(a) == PrintTargetGiven(b)
    ensures PrintTargetGiven(a) ==> TargetDims(w, h, a) == TargetDims(w, h, b)
    ensures SimpleDims(w, h, a) == SimpleDims(w, h, b)
  {
    assert Get(a, "target_width_inches", Null) == Get(b, "target_width_inches", Null);
    assert Get(a, "target_height_inches", Null) == Get(b, "target_height_inches", Null);
    assert Get(a, "upscale_factor", Num(4.0)) == Get(b, "upscale_factor", Num(4.0));
    if PrintTargetGiven(a) {
      assert a["target_width_inches"] == b["target_width_inches"];
      assert a["target_height_inches"] == b["target_height_inches"];
      assert Dpi(a) == Dpi(b) by {
        assert Get(a, "target_dpi", Num(DefaultDpi)) == Get(b, "target_dpi", Num(DefaultDpi));
      }
    }
  }

  /** Without a print target the reported size is `int(input * factor)` per
      side, with no crop; with one it is the calculator's. Both are read from
      the whole config. */
  lemma ReportedSizeIsChosenSize(state: FluxState, config: Config, env: Env)
    ensures var run := Upscale(state, config, env);
      run.result.Ok? ==>
        var size := env.imageSize(config["image_path"].s).value;
        var d := if PrintTargetGiven(config) then TargetDims(size.width, size.height, config)
                 else SimpleDims(size.width, size.height, config);
        && d.Ok?
        && run.result.value.outputWidth == d.value.width
        && run.result.value.outputHeight == d.value.height
        && run.result.value.cropInfo == d.value.cropInfo
  {
    var jc := Restrict(config, JobKeys);
    var run := Upscale(state, config, env);
    if run.result.Ok? {
      var p := Job(state, jc, env).prepared.value;
      var size := env.imageSize(p.imagePath).value;
      RestrictAgrees(config);
      DimsOnJobKeys(jc, config, size.width, size.height);
    }
  }

  /** The request option `tile_size` is never read: a job with any value for
      it runs exactly as one without it. */
  lemma TileSizeIgnored(state: FluxState, config: Config, env: Env, v: Value)
    requires "tile_size" !in config
    ensures Upscale(state, config["tile_size" := v], env) == Upscale(state, config, env)
  {
    var c2 := config["tile_size" := v];
    RestrictIgnores(config, JobKeys, "tile_size", v);
    assert Settings(c2, env.seedDraw) == Settings(config, env.seedDraw);
  }

  /** The sampler's `upscale_by` does not decide the output: whatever its
      value, the loader ends in the same state, and two runs that both succeed
      report the same size, crop and paths. Only the sampler itself, which may
      refuse one value and take the other, sees it. */
  lemma UpscaleByDoesNotSize(state: FluxState, config: Config, env: Env, v: Value)
    ensures var a := Upscale(state, config["upscale_by" := v], env);
      var b := Upscale(state, config, env);
      && a.state == b.state
      && (a.result.Ok? && b.result.Ok? ==> a.result == b.result)
      && (a.settings.Some? <==> b.settings.Some?)
  {
    RestrictIgnores(config, JobKeys, "upscale_by", v);
  }

  /** In a running job the models are loaded at most once: after a
      successful load every later job keeps the same loaded state. */
  lemma {:induction false} LoadedStateIsStable(state: FluxState, configs: seq<Config>, env: Env)
    requires state.loaded.Some?
    ensures RunJobs(state, configs, env) == state
  {
    if configs != [] {
      LoadedStateIsStable(Upscale(state, configs[0], env).state, configs[1..], env);
    }
  }

  /** The loader state after a sequence of jobs. */
  function RunJobs(state: FluxState, configs: seq<Config>, env: Env): FluxState
    decreases |configs|
  {
    if configs == [] then state else RunJobs(Upscale(state, configs[0], env).state, configs[1..], env)
  }
}

=== FILE: image_utils.dfy ===
/** The format-to-file mapping of `save_image_formats`
    (python-scripts/utils/image_utils.py) and the result record every upscaler
    returns. Writing the pixels is not modelled: a saved file is its path. */
module ImageUtils {
  import opened Wrappers
  import opened Dimensions

  /** ASCII lower-casing. Python's `str.lower` is Unicode-aware, but no
      non-ASCII character lower-cases to a string equal to "png", "tiff" or
      "tif", so the comparisons below come out the same. */
  function Lower(s: string): (t: string)
    ensures |t| == |s|
    ensures forall i :: 0 <= i < |s| ==> t[i] == LowerChar(s[i])
  {
    if s == [] then [] else [LowerChar(s[0])] + Lower(s[1..])
  }

  function LowerChar(c: char): char {
    if 'A' <= c <= 'Z' then (c as int + 32) as char else c
  }

  /** `Path(dir) / file` as a string. pathlib's normalisation of `dir`
      (dropping a trailing slash or a leading "./") is not modelled. */
  function Join(dir: string, file: string): string {
    dir + "/" + file
  }

  /** The file suffix a format is saved under, or None for a format that is
      skipped: "png" in any case gives ".png", "tiff" and "tif" in any case
      give ".tiff". */
  function SuffixFor(format: string): (s: Option<string>)
    ensures s == Some(".png") <==> Lower(format) == "png"
    ensures s == Some(".tiff") <==> Lower(format) in {"tiff", "tif"}
    ensures s.None? <==> Lower(format) !in {"png", "tiff", "tif"}
  {
    var f := Lower(format);
    if f == "png" then Some(".png")
    else if f == "tiff" || f == "tif" then Some(".tiff")
    else None
  }

  /** A format that produces a file. */
  predicate Accepted(format: string) {
    SuffixFor(format).Some?
  }

  /** The paths the loop appends, one per accepted format, in order. */
  function SavedPaths(name: string, dir: string, formats: seq<string>): (paths: seq<string>)
    ensures |paths| <= |formats|
    ensures formats == [] ==> paths == []
  {
    if formats == [] then []
    else
      var rest := SavedPaths(name, dir, formats[1..]);
      match SuffixFor(formats[0])
      case Some(suffix) => [Join(dir, name + suffix)] + rest
      case None => rest
  }

  /** `save_image_formats(img, name, dir, formats)`: a missing list means
      `["png"]`. */
  function SaveImageFormats(name: string, dir: string, formats: Option<seq<string>>): (paths: seq<string>)
    ensures formats.None? ==> paths == [Join(dir, name + ".png")]
    ensures formats.Some? ==> |paths| <= |formats.value|
  {
    var fs := formats.GetOr(["png"]);
    assert formats.None? ==> fs[1..] == [];
    SavedPaths(name, dir, fs)
  }

  /** The accepted formats of a list, in order (the reference for SavedPaths). */
  function AcceptedFormats(formats: seq<string>): (acc: seq<string>)
    ensures forall f :: f in acc ==> Accepted(f)
    ensures |acc| <= |formats|
  {
    if formats == [] then []
    else if Accepted(formats[0]) then [formats[0]] + AcceptedFormats(formats[1..])
    else AcceptedFormats(formats[1..])
  }

  /** The path one accepted format is saved under. */
  function PathFor(name: string, dir: string, format: string): string
    requires Accepted(format)
  {
    Join(dir, name + SuffixFor(format).value)
  }

  /** The saved paths are exactly the accepted formats' paths, one each, in
      input order; skipped formats contribute nothing. */
  lemma {:induction false} SavedPathsFollowFormats(name: string, dir: string, formats: seq<string>)
    ensures var acc := AcceptedFormats(formats);
      && |SavedPaths(name, dir, formats)| == |acc|
      && forall i :: 0 <= i < |acc| ==> SavedPaths(name, dir, formats)[i] == PathFor(name, dir, acc[i])
  {
    if formats != [] {
      SavedPathsFollowFormats(name, dir, formats[1..]);
    }
  }

  /** Saving a concatenated list saves each part in turn. */
  lemma {:induction false} SavedPathsAppend(name: string, dir: string, a: seq<string>, b: seq<string>)
    ensures SavedPaths(name, dir, a + b) == SavedPaths(name, dir, a) + SavedPaths(name, dir, b)
  {
    if a == [] {
      assert a + b == b;
    } else {
      assert (a + b)[1..] == a[1..] + b;
      SavedPathsAppend(name, dir, a[1..], b);
    }
  }

  /** The upscalers save a single format: the result is one path when the
      format is accepted and none otherwise. */
  lemma SingleFormat(name: string, dir: string, format: string)
    ensures Accepted(format) ==> SavedPaths(name, dir, [format]) == [PathFor(name, dir, format)]
    ensures !Accepted(format) ==> SavedPaths(name, dir, [format]) == []
  {
    assert [format][1..] == [];
  }

  /** The dictionary an upscaler returns. */
  datatype UpscaleOutput = UpscaleOutput(
    outputPath: Option<string>,
    outputPaths: seq<string>,
    outputWidth: int,
    outputHeight: int,
    cropInfo: Option<CropInfo>,
    processingTime: real)

  /** The return statement shared by the three upscalers: `output_path` is
      the first saved path, or None when nothing was saved. */
  function Finish(saved: seq<string>, width: int, height: int, cropInfo: Option<CropInfo>, elapsed: real)
    : (out: UpscaleOutput)
    ensures out.outputPaths == saved
    ensures out.outputPath.None? <==> saved == []
    ensures out.outputPath.Some? ==> out.outputPath.value == saved[0] && out.outputPath.value in saved
    ensures out.outputWidth == width && out.outputHeight == height && out.cropInfo == cropInfo
  {
    UpscaleOutput(if saved == [] then None else Some(saved[0]), saved, width, height, cropInfo, elapsed)
  }

  /** The last path segment, splitting on the given separators
      (JavaScript's `split(...).pop()`). */
  function LastSegment(path: string, seps: set<char>): (seg: string)
    ensures forall c :: c in seg ==> c !in seps
    ensures |seg| <= |path|
    ensures seg == path[|path| - |seg|..]
  {
    if path == [] then []
    else if path[|path| - 1] in seps then []
    else LastSegment(path[..|path| - 1], seps) + [path[|path| - 1]]
  }

  /** The file name of a joined path is the name given to Join, as long as it
      contains no separator. */
  lemma {:induction false} LastSegmentOfJoin(dir: string, file: string, seps: set<char>)
    requires '/' in seps
    requires forall c :: c in file ==> c !in seps
    ensures LastSegment(Join(dir, file), seps) == file
  {
    LastSegmentSuffix(dir + "/", file, seps);
    assert Join(dir, file) == (dir + "/") + file;
  }

  lemma {:induction false} LastSegmentSuffix(prefix: string, file: string, seps: set<char>)
    requires |prefix| >= 1 && prefix[|prefix| - 1] in seps
    requires forall c :: c in file ==> c !in seps
    ensures LastSegment(prefix + file, seps) == file
    decreases |file|
  {
    if file == [] {
      assert prefix + file == prefix;
    } else {
      var p := prefix + file;
      assert p[..|p| - 1] == prefix + file[..|file| - 1];
      assert p[|p| - 1] == file[|file| - 1];
      LastSegmentSuffix(prefix, file[..|file| - 1], seps);
      assert file[..|file| - 1] + [file[|file| - 1]] == file;
    }
  }

  /** `Path(p).stem`: the last '/'-segment without its final suffix. A dot
      at the very start or the very end of the name does not begin a suffix. */
  function Stem(path: string): (stem: string)
    ensures |stem| <= |path|
    ensures var name := LastSegment(path, {'/'});
      stem == name <==>
        (name != [] && name[|name| - 1] == '.') || forall i :: 0 < i < |name| - 1 ==> name[i] != '.'
    ensures var name := LastSegment(path, {'/'});
      stem != name ==>
        && 0 < |stem| < |name| - 1
        && stem == name[..|stem|] && name[|stem|] == '.'
        && forall j :: |stem| < j < |name| ==> name[j] != '.'
  {
    var name := LastSegment(path, {'/'});
    var dot := LastDot(name);
    if dot <= 0 || dot == |name| - 1 then name else name[..dot]
  }

  /** The stem of `<dir>/<base>.<ext>` is `base`, for a non-empty base and
      an extension without dots; directories and dots in the base do not
      matter. */
  lemma {:induction false} StemOfJoin(dir: string, base: string, ext: string)
    requires base != [] && ext != []
    requires forall c :: c in base ==> c != '/'
    requires forall c :: c in ext ==> c != '/' && c != '.'
    ensures Stem(Join(dir, base + "." + ext)) == base
  {
    var file := base + "." + ext;
    assert LastSegment(Join(dir, file), {'/'}) == file by {
      assert forall c :: c in file ==> c in base || c == '.' || c in ext;
      LastSegmentOfJoin(dir, file, {'/'});
    }
    assert file[|base|] == '.' && 0 < |base| < |file| - 1;
    assert forall j :: |base| < j < |file| ==> file[j] != '.' by {
      forall j | |base| < j < |file|
        ensures file[j] != '.'
      {
        assert file[j] == ext[j - |base| - 1] && ext[j - |base| - 1] in ext;
      }
    }
    var stem := Stem(Join(dir, file));
    assert file[|file| - 1] != '.';
    assert stem != file;
    assert |stem| == |base|;
    assert file[..|base|] == base;
  }

  /** The index of the last '.' in a string, or -1. */
  function LastDot(s: string): (i: int)
    ensures -1 <= i < |s|
    ensures i >= 0 ==> s[i] == '.' && forall j :: i < j < |s| ==> s[j] != '.'
    ensures i == -1 ==> forall j :: 0 <= j < |s| ==> s[j] != '.'
  {
    if s == [] then -1
    else if s[|s| - 1] == '.' then |s| - 1
    else LastDot(s[..|s| - 1])
  }
}

=== FILE: imagen.dfy ===
/** The Imagen cloud upscaler (python-scripts/services/imagen_upscaler.py):
    the project and region overrides that persist on the instance, the cached
    credentials, the size choice from the "x<digit>" factor, and the checks
    on the prediction response. The HTTP request itself, the access-token
    refresh and the base64 decoding are not modelled: the response is part of
    the environment. */
module Imagen {
  import opened Wrappers
  import opened Values
  import opened Dimensions
  import opened ImageUtils
  import opened JobConfig

  /** The project and region used when the environment names none. */
  const DefaultProject: string := "artinafti"
  const DefaultRegion: string := "us-central1"

  /** The upscaler instance: the project and region the next request goes to
      and the credentials fetched so far. */
  datatype ImagenState = ImagenState(projectId: Value, region: Value, credentials: Option<string>)

  /** A freshly constructed upscaler, given `GCP_PROJECT_ID` and `GCP_REGION`
      when they are set. */
  function Initial(projectEnv: Option<string>, regionEnv: Option<string>): (s: ImagenState)
    ensures s.credentials.None?
    ensures projectEnv.None? ==> s.projectId == Str(DefaultProject)
    ensures regionEnv.None? ==> s.region == Str(DefaultRegion)
  {
    ImagenState(Str(projectEnv.GetOr(DefaultProject)), Str(regionEnv.GetOr(DefaultRegion)), None)
  }

  /** `if config.get(key): self.<field> = config[key]`: a truthy override
      replaces the field; anything else leaves it. */
  function ApplyOverrides(state: ImagenState, config: Config): (s: ImagenState)
    ensures s.credentials == state.credentials
    ensures Truthy(Get(config, "gcp_project_id", Null)) ==> s.projectId == config["gcp_project_id"]
    ensures !Truthy(Get(config, "gcp_project_id", Null)) ==> s.projectId == state.projectId
    ensures Truthy(Get(config, "gcp_region", Null)) ==> s.region == config["gcp_region"]
    ensures !Truthy(Get(config, "gcp_region", Null)) ==> s.region == state.region
  {
    var p := Get(config, "gcp_project_id", Null);
    var r := Get(config, "gcp_region", Null);
    state.(projectId := if Truthy(p) then p else state.projectId,
           region := if Truthy(r) then r else state.region)
  }

  /** `_get_credentials()`: the cached credentials, or the application
      default credentials, which are then cached. */
  function GetCredentials(state: ImagenState, env: Env): (r: (ImagenState, Result<string, PyException>))
    ensures state.credentials.Some? ==> r == (state, Ok(state.credentials.value))
    ensures state.credentials.None? && env.credentials.Ok? ==>
      r == (state.(credentials := Some(env.credentials.value)), env.credentials)
    ensures state.credentials.None? && env.credentials.Err? ==> r == (state, env.credentials)
  {
    if state.credentials.Some? then (state, Ok(state.credentials.value))
    else match env.credentials
    case Ok(c) => (state.(credentials := Some(c)), Ok(c))
    case Err(e) => (state, Err(e))
  }

  /** `int(upscale_factor[1])`: `int()` of the second item. For a string
      that is its second character, so only a digit there reads; a list's
      second element is converted whatever it is; a sequence shorter than two
      has no index 1; a dictionary is looked up under the key 1. */
  function ParseFactor(factor: Value): (r: Result<int, PyException>)
    ensures factor.Str? ==> (r.Ok? <==> |factor.s| >= 2 && '0' <= factor.s[1] <= '9')
    ensures factor.Str? && r.Ok? ==> 0 <= r.value <= 9 && r.value == factor.s[1] as int - '0' as int
    ensures factor.Str? && |factor.s| < 2 ==> r == Err(IndexError("string index out of range"))
    ensures factor.Arr? && |factor.items| >= 2 ==> r == PyInt(factor.items[1])
    ensures factor.Arr? && |factor.items| < 2 ==> r == Err(IndexError("list index out of range"))
    ensures factor.Obj? ==> r == Err(IntKeyError(1))
    ensures r.Ok? ==> factor.Str? || factor.Arr?
  {
    match factor
    case Str(s) =>
      if |s| < 2 then Err(IndexError("string index out of range"))
      else if '0' <= s[1] <= '9' then Ok(s[1] as int - '0' as int)
      else Err(ValueError("invalid literal for int() with base 10: '" + [s[1]] + "'"))
    case Arr(xs) => if |xs| < 2 then Err(IndexError("list index out of range")) else PyInt(xs[1])
    case Obj(_) => Err(IntKeyError(1))
    case _ => Err(TypeError(NotSubscriptable(factor)))
  }

  /** For a string, reading the digit is Python's `int()` of the
      one-character string at index 1. */
  lemma ParseFactorIsIntOfSecondChar(s: string)
    requires |s| >= 2
    ensures ParseFactor(Str(s)) == PyInt(Str([s[1]]))
  {
    var c := s[1];
    var read := if IsDigit(c) then Ok(c as int - '0' as int)
      else Err(ValueError("invalid literal for int() with base 10: '" + [c] + "'"));
    assert ParseFactor(Str(s)) == read;
    PyIntOfChar(c);
  }

  /** "x" followed by a digit reads back as that digit. */
  lemma ParseFactorOfDigit(lead: char, d: int, rest: string)
    requires 0 <= d <= 9
    ensures ParseFactor(Str([lead, Digit(d)] + rest)) == Ok(d)
  {
  }

  /** Only one character is read: "x10" scales by 1, not 10. */
  lemma TwoDigitFactorReadsOneDigit()
    ensures ParseFactor(Str("x10")) == Ok(1)
  {
  }

  /** A list is indexed too: `["x", "4"]` scales by 4, and `["x", 4]` as
      well. */
  lemma ListFactorReadsSecondItem()
    ensures ParseFactor(Arr([Str("x"), Str("4")])) == Ok(4)
    ensures ParseFactor(Arr([Str("x"), Num(4.0)])) == Ok(4)
  {
    assert PyInt(Str("4")) == Ok(4) by {
      SingleCharLiteral('4');
      assert "4" == ['4'];
    }
    assert PyInt(Num(4.0)) == Ok(4) by {
      assert Trunc(4.0) == 4;
    }
  }

  /** The size choice without a print target: the input times the parsed
      digit, no crop. */
  function FactorDims(w: int, h: int, factor: Value): (r: Result<Dims, PyException>)
    ensures r.Ok? <==> ParseFactor(factor).Ok?
    ensures r.Ok? ==> r.value == Dims(w * ParseFactor(factor).value, h * ParseFactor(factor).value, None)
  {
    match ParseFactor(factor)
    case Err(e) => Err(e)
    case Ok(scale) => Ok(Dims(w * scale, h * scale, None))
  }

  /** Does `needle` occur in `s` (Python's `needle in s` on strings)? */
  predicate Substring(needle: string, s: string) {
    exists i | 0 <= i <= |s| :: OccursAt(needle, s, i)
  }

  /** `needle` occurs in `s` starting at index `i`. */
  predicate OccursAt(needle: string, s: string, i: int) {
    0 <= i <= |s| - |needle| && s[i..i + |needle|] == needle
  }

  /** Python's `"predictions" in result` on any decoded JSON value: key
      lookup for a dict, membership for a list, substring for a string; other
      values are not iterable. */
  function ContainsKey(v: Value, key: string): (r: Result<bool, PyException>)
    ensures v.Obj? ==> r == Ok(key in v.fields)
    ensures v.Arr? ==> r == Ok(Str(key) in v.items)
    ensures v.Str? ==> r == Ok(Substring(key, v.s))
    ensures r.Err? <==> v.Null? || v.Bool? || v.Num?
  {
    match v
    case Obj(m) => Ok(key in m)
    case Arr(xs) => Ok(Str(key) in xs)
    case Str(s) => Ok(Substring(key, s))
    case _ => Err(TypeError("argument of type '" + TypeName(v) + "' is not iterable"))
  }

  /** The error text of a failed request: `str()` of `error.message` when
      the body is a JSON object whose `error` is an object, the response
      text when that object has no `message`, and the response text for any
      other body (indexing or `.get` on it raises inside the `try`). */
  function ApiErrorText(resp: ApiResponse): (msg: string)
    ensures (resp.json.Some? && resp.json.value.Obj? && "error" in resp.json.value.fields
             && resp.json.value.fields["error"].Obj?
             && "message" in resp.json.value.fields["error"].fields) ==>
      msg == PyStr(resp.json.value.fields["error"].fields["message"])
    ensures (resp.json.Some? && resp.json.value.Obj? && "error" in resp.json.value.fields
             && resp.json.value.fields["error"].Obj?
             && "message" !in resp.json.value.fields["error"].fields) ==>
      msg == resp.text
    ensures (resp.json.None? || !resp.json.value.Obj? || "error" !in resp.json.value.fields
             || !resp.json.value.fields["error"].Obj?) ==>
      msg == resp.text
  {
    match resp.json
    case Some(Obj(body)) =>
      if "error" in body && body["error"].Obj? then
        PyStr(Get(body["error"].fields, "message", Str(resp.text)))
      else resp.text
    case _ => resp.text
  }

  /** A `null` message prints as "None", as the f-string of the raised message prints
      it, and not as the response text. */
  lemma NullMessagePrintsNone(text: string)
    ensures var body := Obj(map["error" := Obj(map["message" := Null])]);
      CheckResponse(ApiResponse(500, text, Some(body)))
        == Err(Exception("Imagen API error (500): None"))
  {
    var body := Obj(map["error" := Obj(map["message" := Null])]);
    var resp := ApiResponse(500, text, Some(body));
    assert ApiErrorText(resp) == "None";
    assert IntToString(500) == "500" by {
      assert IntToString(500) == IntToString(50) + [Digit(0)];
      assert IntToString(50) == IntToString(5) + [Digit(0)];
      assert IntToString(5) == [Digit(5)];
    }
    assert CheckResponse(resp) == Err(Exception("Imagen API error (" + IntToString(500) + "): " + "None"));
    assert "Imagen API error (" + "500" + "): " + "None" == "Imagen API error (500): None";
  }

  const NoPredictions: PyException := Exception("No predictions in API response")
  const NoImageData: PyException := Exception("No image data in prediction")

  /** The first element of `result["predictions"]`, after checking that it
      is there and not empty. */
  function FirstPrediction(predictions: Value): (r: Result<Value, PyException>)
    ensures predictions.Arr? && predictions.items == [] ==> r == Err(NoPredictions)
    ensures predictions.Arr? && predictions.items != [] ==> r == Ok(predictions.items[0])
  {
    match predictions
    case Arr(xs) => if xs == [] then Err(NoPredictions) else Ok(xs[0])
    case Str(s) => if s == [] then Err(NoPredictions) else Ok(Str([s[0]]))
    case Obj(m) => if m == map[] then Err(NoPredictions) else Err(IntKeyError(0))
    case _ => Err(TypeError("object of type '" + TypeName(predictions) + "' has no len()"))
  }

  /** `_call_imagen_api`'s checks on the response: the base64 image data of
      the first prediction, or the error the method raises. */
  function CheckResponse(resp: ApiResponse): (r: Result<Value, PyException>)
    ensures resp.status != 200 ==>
      r == Err(Exception("Imagen API error (" + IntToString(resp.status) + "): " + ApiErrorText(resp)))
    ensures r.Ok? ==>
      && resp.status == 200
      && resp.json.Some? && resp.json.value.Obj?
      && "predictions" in resp.json.value.fields
      && Truthy(r.value)
    ensures resp.status == 200 && resp.json.Some? && resp.json.value.Obj? ==>
      var body := resp.json.value.fields;
      && ("predictions" !in body ==> r == Err(NoPredictions))
      && ("predictions" in body && body["predictions"] == Arr([]) ==> r == Err(NoPredictions))
  {
    if resp.status != 200 then
      Err(Exception("Imagen API error (" + IntToString(resp.status) + "): " + ApiErrorText(resp)))
    else match resp.json
    case None => Err(ValueError("Expecting value: line 1 column 1 (char 0)"))
    case Some(body) =>
      match ContainsKey(body, "predictions")
      case Err(e) => Err(e)
      case Ok(false) => Err(NoPredictions)
      case Ok(true) =>
        if !body.Obj? then Err(TypeError(NotSubscriptable(body)))
        else match FirstPrediction(body.fields["predictions"])
        case Err(e) => Err(e)
        case Ok(prediction) =>
          if !prediction.Obj? then Err(AttributeError(TypeName(prediction), "get"))
          else
            var data := Get(prediction.fields, "bytesBase64Encoded", Null);
            if !Truthy(data) then Err(NoImageData) else Ok(data)
  }

  /** A successful request: status 200, and a first prediction carrying
      image data. */
  lemma GoodResponseAccepted(data: string, rest: seq<Value>, text: string)
    requires data != ""
    ensures var pred := Obj(map["bytesBase64Encoded" := Str(data)]);
      CheckResponse(ApiResponse(200, text, Some(Obj(map["predictions" := Arr([pred] + rest)]))))
        == Ok(Str(data))
  {
  }

  /** A first prediction without image data is refused, whatever follows it. */
  lemma MissingImageDataRefused(pred: map<string, Value>, rest: seq<Value>, text: string)
    requires "bytesBase64Encoded" !in pred || !Truthy(pred["bytesBase64Encoded"])
    ensures CheckResponse(ApiResponse(200, text, Some(Obj(map["predictions" := Arr([Obj(pred)] + rest)]))))
      == Err(NoImageData)
  {
  }

  /** One Imagen job: the instance afterwards and the result. */
  datatype ImagenRun = ImagenRun(state: ImagenState, result: Result<UpscaleOutput, PyException>)

  /** `ImagenUpscaler.upscale(config)`. */
  function Upscale(state: ImagenState, config: Config, env: Env): (run: ImagenRun)
    ensures RequiredPath(config, "image_path").Err? ==> run == ImagenRun(state, Err(RequiredPath(config, "image_path").error))
    ensures run.result.Ok? ==>
      && RequiredPath(config, "image_path").Ok?
      && env.fileExists(RequiredPath(config, "image_path").value)
      && run.state.credentials.Some?
      && CheckResponse(env.response).Ok?
    ensures RequiredPath(config, "image_path").Ok?
            && StringOr(config, "output_dir", env.outputDirDefault).Ok?
            && !env.fileExists(RequiredPath(config, "image_path").value) ==>
      run == ImagenRun(ApplyOverrides(state, config),
                       Err(FileNotFoundError("Input file not found: " + RequiredPath(config, "image_path").value)))
  {
    match RequiredPath(config, "image_path")
    case Err(e) => ImagenRun(state, Err(e))
    case Ok(imagePath) =>
      match StringOr(config, "output_dir", env.outputDirDefault)
      case Err(e) => ImagenRun(state, Err(e))
      case Ok(outputDir) =>
        var s := ApplyOverrides(state, config);
        if !env.fileExists(imagePath) then
          ImagenRun(s, Err(FileNotFoundError("Input file not found: " + imagePath)))
        else match env.imageSize(imagePath)
        case None => ImagenRun(s, Err(DecodeError(imagePath)))
        case Some(size) =>
          var dims := if PrintTargetGiven(config) then TargetDims(size.width, size.height, config)
                      else FactorDims(size.width, size.height, Get(config, "upscale_factor", Str("x4")));
          match dims
          case Err(e) => ImagenRun(s, Err(e))
          case Ok(d) =>
            var (s2, creds) := GetCredentials(s, env);
            if creds.Err? then ImagenRun(s2, Err(creds.error))
            else match CheckResponse(env.response)
            case Err(e) => ImagenRun(s2, Err(e))
            case Ok(_) =>
              match SaveOne(config, Stem(imagePath) + "_imagen", outputDir)
              case Err(e) => ImagenRun(s2, Err(e))
              case Ok(saved) => ImagenRun(s2, Ok(Finish(saved, d.width, d.height, d.cropInfo, env.elapsed)))
  }

  /** A missing input fails with FileNotFoundError before the credentials
      are fetched, so they stay as they were; the project and region
      overrides, applied just before the check, stay on the instance. */
  lemma MissingInputFails(state: ImagenState, config: Config, env: Env, path: string)
    requires "image_path" in config && config["image_path"] == Str(path)
    requires !("output_dir" in config) || config["output_dir"].Str?
    requires !env.fileExists(path)
    ensures var run := Upscale(state, config, env);
      && run.result == Err(FileNotFoundError("Input file not found: " + path))
      && run.state.credentials == state.credentials
  {
  }

  /** The overrides are applied before the input is even looked at, so they
      stay on the instance for later jobs whatever this job's outcome. */
  lemma OverridesPersist(state: ImagenState, config: Config, env: Env)
    requires RequiredPath(config, "image_path").Ok?
    requires StringOr(config, "output_dir", env.outputDirDefault).Ok?
    ensures var s := Upscale(state, config, env).state;
      && (Truthy(Get(config, "gcp_project_id", Null)) ==> s.projectId == config["gcp_project_id"])
      && (!Truthy(Get(config, "gcp_project_id", Null)) ==> s.projectId == state.projectId)
      && (Truthy(Get(config, "gcp_region", Null)) ==> s.region == config["gcp_region"])
      && (!Truthy(Get(config, "gcp_region", Null)) ==> s.region == state.region)
  {
  }

  /** Once fetched, the credentials are never fetched again: a job on an
      instance that holds credentials keeps them and does not depend on what
      the default-credentials lookup would return. */
  lemma CredentialsFetchedOnce(state: ImagenState, config: Config, env: Env, other: Result<string, PyException>)
    requires state.credentials.Some?
    ensures Upscale(state, config, env).state.credentials == state.credentials
    ensures Upscale(state, config, env) == Upscale(state, config, env.(credentials := other))
  {
  }

  /** Without a print target the reported size is the input times the digit
      of `upscale_factor`, with no crop; with one it is the calculator's. */
  lemma ReportedSizeIsChosenSize(state: ImagenState, config: Config, env: Env)
    ensures var run := Upscale(state, config, env);
      run.result.Ok? ==>
        var size := env.imageSize(config["image_path"].s).value;
        var d := if PrintTargetGiven(config) then TargetDims(size.width, size.height, config)
                 else FactorDims(size.width, size.height, Get(config, "upscale_factor", Str("x4")));
        && d.Ok?
        && run.result.value.outputWidth == d.value.width
        && run.result.value.outputHeight == d.value.height
        && run.result.value.cropInfo == d.value.cropInfo
  {
  }
}

=== FILE: job_config.dfy ===
/** What the three upscalers share: the outside world a job runs against
    (files, decoded image sizes, installed models, the clock, the random draw,
    the cloud response), the way they read their `config` dictionary, and the
    print-target branch of their output-size choice
    (the three upscalers under python-scripts/services). */
module JobConfig {
  import opened Wrappers
  import opened Values
  import opened Dimensions
  import opened ImageUtils

  /** A value `random.randint(0, 2**32 - 1)` can return. */
  type SeedDraw = x: int | 0 <= x < 0x1_0000_0000

  /** Pixel size of a decoded image. */
  datatype Size = Size(width: int, height: int)

  /** An HTTP response of the Imagen endpoint: status, body text and the body
      decoded as JSON when it is JSON. */
  datatype ApiResponse = ApiResponse(status: int, text: string, json: Option<Value>)

  /** Everything a job observes outside its own config. Function-valued fields
      stand for the file system, the image decoders and the FLUX sampler, which
      may raise on the settings it is handed. */
  datatype Env = Env(
    outputDirDefault: string,
    modelsDir: string,
    fileExists: string -> bool,
    imageSize: string -> Option<Size>,
    modelInstalled: string -> bool,
    modelScale: string -> int,
    fluxLoadError: Option<string>,
    samplerError: Config -> Option<PyException>,
    seedDraw: SeedDraw,
    credentials: Result<string, PyException>,
    response: ApiResponse,
    elapsed: real)

  /** `Path(v)` on a config value: only strings are paths. */
  function PathOf(v: Value): (r: Result<string, PyException>)
    ensures v.Str? <==> r.Ok?
    ensures r.Ok? ==> r.value == v.s
  {
    if v.Str? then Ok(v.s)
    else Err(TypeError("expected str, bytes or os.PathLike object, not " + TypeName(v)))
  }

  /** `config["image_path"]`: a missing key raises KeyError. */
  function RequiredPath(config: Config, key: string): (r: Result<string, PyException>)
    ensures key !in config ==> r == Err(KeyError(key))
    ensures key in config ==> r == PathOf(config[key])
  {
    if key !in config then Err(KeyError(key)) else PathOf(config[key])
  }

  /** `config.get(key, default)` used as a path or a name. */
  function StringOr(config: Config, key: string, default: string): (r: Result<string, PyException>)
    ensures key !in config ==> r == Ok(default)
    ensures key in config ==> r == PathOf(config[key])
  {
    PathOf(Get(config, key, Str(default)))
  }

  /** The number a value stands for in Python arithmetic (booleans are 0 and 1). */
  function NumberOf(v: Value): (n: Option<real>)
    ensures v.Num? ==> n == Some(v.n)
    ensures n.Some? <==> v.Num? || v.Bool?
  {
    match v
    case Num(x) => Some(x)
    case Bool(b) => Some(if b then 1.0 else 0.0)
    case _ => None
  }

  /** The whole number a value stands for in Python arithmetic, if it is
      one: an integral number or a boolean. */
  function WholeValue(v: Value): (r: Option<int>)
    ensures r.Some? <==> NumberOf(v).Some? && IsWhole(NumberOf(v).value)
    ensures r.Some? ==> NumberOf(v) == Some(r.value as real)
  {
    match NumberOf(v)
    case Some(x) => if x.Floor as real == x then Some(x.Floor) else None
    case None => None
  }

  /** The size an upscaler resizes to, and the crop report that goes with it. */
  datatype Dims = Dims(width: int, height: int, cropInfo: Option<CropInfo>)

  /** `target_width_inches and target_height_inches`: both print dimensions
      present and truthy. */
  predicate PrintTargetGiven(config: Config) {
    Truthy(Get(config, "target_width_inches", Null)) && Truthy(Get(config, "target_height_inches", Null))
  }

  /** `config.get("target_dpi", 150)`. */
  function Dpi(config: Config): Value {
    Get(config, "target_dpi", Num(DefaultDpi))
  }

  /** `int(inches * dpi)` for numeric inches: a numeric DPI multiplies and
      truncates; a string DPI is repeated by whole inches and then read by
      `int()`, and cannot be multiplied by fractional ones; a list repeats
      but `int()` refuses it; None and dictionaries do not multiply. */
  function PrintPixels(inches: Value, dpi: Value): (r: Result<int, PyException>)
    requires NumberOf(inches).Some?
    ensures NumberOf(dpi).Some? ==> r == Ok(Trunc(NumberOf(inches).value * NumberOf(dpi).value))
    ensures dpi.Str? && WholeValue(inches).Some? ==> r == PyInt(Str(Repeat(dpi.s, WholeValue(inches).value)))
    ensures r.Ok? ==> NumberOf(dpi).Some? || (dpi.Str? && WholeValue(inches).Some?)
  {
    match dpi
    case Num(_) => Ok(Trunc(NumberOf(inches).value * NumberOf(dpi).value))
    case Bool(_) => Ok(Trunc(NumberOf(inches).value * NumberOf(dpi).value))
    case Str(s) =>
      (match WholeValue(inches)
       case Some(k) => PyInt(Str(Repeat(s, k)))
       case None => Err(TypeError("can't multiply sequence by non-int of type 'float'")))
    case Arr(_) =>
      if WholeValue(inches).Some? then Err(IntArgError(dpi))
      else Err(TypeError("can't multiply sequence by non-int of type 'float'"))
    case _ => Err(TypeError("unsupported operand type(s) for *: '" + TypeName(inches) + "' and '" + TypeName(dpi) + "'"))
  }

  /** The rest of `calculate_scale_for_crop` once the print size in pixels
      was read with a DPI that is not a number: the aspect test runs as usual,
      the matched branch returns the print size, and the other branches
      divide the crop by the DPI, which raises TypeError. */
  function NonNumericDpiDims(w: int, h: int, wIn: real, hIn: real, fw: int, fh: int, dpi: Value)
    : (r: Result<Dims, PyException>)
    ensures r.Ok? <==> h != 0 && hIn != 0.0 && w != 0 && AspectsMatch(w, h, wIn, hIn)
    ensures r.Ok? ==> r.value == Dims(fw, fh, None)
    ensures (h == 0 || hIn == 0.0) ==> r == Err(ZeroDivisionError)
  {
    if h == 0 || hIn == 0.0 then Err(ZeroDivisionError)
    else if AspectsMatch(w, h, wIn, hIn) then
      if w == 0 then Err(ZeroDivisionError) else Ok(Dims(fw, fh, None))
    else if InputTaller(w, h, wIn, hIn) && w == 0 then Err(ZeroDivisionError)
    else Err(TypeError("unsupported operand type(s) for /: 'int' and '" + TypeName(dpi) + "'"))
  }

  /** The print-target branch shared by the three upscalers: the calculator's
      output size, with a crop report exactly when a crop is needed. */
  function TargetDims(w: int, h: int, config: Config): (r: Result<Dims, PyException>)
    requires PrintTargetGiven(config)
    ensures forall wIn, hIn, dpi ::
      NumberOf(config["target_width_inches"]) == Some(wIn)
      && NumberOf(config["target_height_inches"]) == Some(hIn)
      && NumberOf(Dpi(config)) == Some(dpi) ==>
        match CalculateScaleForCrop(w, h, wIn, hIn, dpi)
        case Err(e) => r == Err(e)
        case Ok(info) =>
          && r.Ok?
          && r.value.width == info.outputWidth
          && r.value.height == info.outputHeight
          && (r.value.cropInfo.None? <==> info.direction == NoCrop)
          && (r.value.cropInfo.Some? ==>
                r.value.cropInfo.value == CropInfo(info.direction, info.cropPx, info.cropInches))
    ensures NumberOf(config["target_width_inches"]).Some? && NumberOf(config["target_height_inches"]).Some?
            && NumberOf(Dpi(config)).None? ==>
      var wv := config["target_width_inches"];
      var hv := config["target_height_inches"];
      match (PrintPixels(wv, Dpi(config)), PrintPixels(hv, Dpi(config)))
      case (Err(e), _) => r == Err(e)
      case (Ok(_), Err(e)) => r == Err(e)
      case (Ok(fw), Ok(fh)) =>
        r == NonNumericDpiDims(w, h, NumberOf(wv).value, NumberOf(hv).value, fw, fh, Dpi(config))
    ensures NumberOf(config["target_width_inches"]).None? || NumberOf(config["target_height_inches"]).None? ==>
      r.Err? && r.error.TypeError?
  {
    var wv := config["target_width_inches"];
    var hv := config["target_height_inches"];
    var dv := Dpi(config);
    match (NumberOf(wv), NumberOf(hv))
    case (Some(wIn), Some(hIn)) =>
      (match NumberOf(dv)
       case Some(dpi) =>
         (match CalculateScaleForCrop(w, h, wIn, hIn, dpi)
          case Err(e) => Err(e)
          case Ok(info) => Ok(Dims(info.outputWidth, info.outputHeight, CropInfoOf(info))))
       case None =>
         (match PrintPixels(wv, dv)
          case Err(e) => Err(e)
          case Ok(fw) =>
            match PrintPixels(hv, dv)
            case Err(e) => Err(e)
            case Ok(fh) => NonNumericDpiDims(w, h, wIn, hIn, fw, fh, dv)))
    case (None, _) => Err(TypeError("unsupported operand type(s) for *: '" + TypeName(wv) + "'"))
    case (_, None) => Err(TypeError("unsupported operand type(s) for *: '" + TypeName(hv) + "'"))
  }

  /** A DPI that is not a number never yields a crop: the print target is
      met only when the aspect ratios already match, and then the size is
      `int()` of the DPI text repeated by the whole inches. */
  lemma NonNumericDpiNeverCrops(w: int, h: int, config: Config)
    requires PrintTargetGiven(config)
    requires NumberOf(Dpi(config)).None?
    ensures var r := TargetDims(w, h, config);
      r.Ok? ==>
        && r.value.cropInfo.None?
        && Dpi(config).Str?
        && var wv := config["target_width_inches"];
           var hv := config["target_height_inches"];
           && WholeValue(wv).Some? && WholeValue(hv).Some?
           && PyInt(Str(Repeat(Dpi(config).s, WholeValue(wv).value))) == Ok(r.value.width)
           && PyInt(Str(Repeat(Dpi(config).s, WholeValue(hv).value))) == Ok(r.value.height)
  {
  }

  /** Whole inches and a DPI written as digits, on an input of the same
      aspect: the size is the number the DPI text spells when written once
      per inch (8 x 10 inches at "150" on 800 x 1000 pixels gives 24 and 30
      digits), with no crop. */
  lemma StringDpiRepeats(w: int, h: int, a: int, b: int, s: string, config: Config)
    requires a >= 1 && b >= 1 && s != [] && forall i :: 0 <= i < |s| ==> IsDigit(s[i])
    requires "target_width_inches" in config && config["target_width_inches"] == Num(a as real)
    requires "target_height_inches" in config && config["target_height_inches"] == Num(b as real)
    requires "target_dpi" in config && config["target_dpi"] == Str(s)
    requires w != 0 && h != 0 && AspectsMatch(w, h, a as real, b as real)
    ensures PrintTargetGiven(config)
    ensures TargetDims(w, h, config) == Ok(Dims(DigitsValue(Repeat(s, a)), DigitsValue(Repeat(s, b)), None))
  {
    assert PrintTargetGiven(config) by {
      assert Get(config, "target_width_inches", Null) == Num(a as real);
      assert Get(config, "target_height_inches", Null) == Num(b as real);
    }
    assert Dpi(config) == Str(s);
    DigitDpiPixels(a, s);
    DigitDpiPixels(b, s);
  }

  /** `int(k * dpi)` for whole inches `k` and a DPI written as digits. */
  lemma DigitDpiPixels(k: int, s: string)
    requires k >= 1 && s != [] && forall i :: 0 <= i < |s| ==> IsDigit(s[i])
    ensures PrintPixels(Num(k as real), Str(s)) == Ok(DigitsValue(Repeat(s, k)))
  {
    assert WholeValue(Num(k as real)) == Some(k);
    RepeatedDigitsRead(s, k);
  }

  /** The print-target branch agrees with `calculate_output_dimensions` when
      the print size is given: same size and the same crop report. */
  lemma TargetDimsAgreeWithCalculator(w: int, h: int, wIn: real, hIn: real, dpi: real, config: Config)
    requires wIn != 0.0 && hIn != 0.0
    requires "target_width_inches" in config && config["target_width_inches"] == Num(wIn)
    requires "target_height_inches" in config && config["target_height_inches"] == Num(hIn)
    requires "target_dpi" in config && config["target_dpi"] == Num(dpi)
    ensures PrintTargetGiven(config)
    ensures var r := TargetDims(w, h, config);
      var c := CalculateOutputDimensions(w, h, None, dpi, Some(wIn), Some(hIn));
      && (r.Ok? <==> c.Ok?)
      && (r.Ok? ==> r.value.width == c.value.width && r.value.height == c.value.height
                    && r.value.cropInfo == c.value.cropInfo)
  {
    assert NumberOf(Dpi(config)) == Some(dpi);
  }

  /** The image library's failure on a file it cannot decode. */
  function DecodeError(path: string): PyException {
    Exception("cannot identify image file '" + path + "'")
  }

  /** `save_image_formats(..., [config.get("output_format", "png")])`: one
      path for an accepted format, none for any other string; a format that is
      not a string has no `lower`. The name is `str()` of `output_name`, so
      any value makes a file name. */
  function SaveOne(config: Config, defaultName: string, outputDir: string): (r: Result<seq<string>, PyException>)
    ensures var fmt := Get(config, "output_format", Str("png"));
      !fmt.Str? ==> r == Err(AttributeError(TypeName(fmt), "lower"))
    ensures var fmt := Get(config, "output_format", Str("png"));
      var name := PyStr(Get(config, "output_name", Str(defaultName)));
      fmt.Str? ==>
        && r.Ok?
        && (Accepted(fmt.s) ==> r.value == [PathFor(name, outputDir, fmt.s)])
        && (!Accepted(fmt.s) ==> r.value == [])
  {
    var fmt := Get(config, "output_format", Str("png"));
    if !fmt.Str? then Err(AttributeError(TypeName(fmt), "lower"))
    else
      var name := PyStr(Get(config, "output_name", Str(defaultName)));
      SingleFormat(name, outputDir, fmt.s);
      Ok(SavedPaths(name, outputDir, [fmt.s]))
  }

  /** A null `output_name` is formatted as "None": the image is saved as
      `None.png`, not refused. */
  lemma NullOutputNameSavesNone(config: Config, defaultName: string, outputDir: string)
    requires "output_name" in config && config["output_name"] == Null
    requires "output_format" !in config
    ensures SaveOne(config, defaultName, outputDir) == Ok([Join(outputDir, "None.png")])
  {
    assert Lower("png") == "png";
    assert SuffixFor("png") == Some(".png");
    assert "None" + ".png" == "None.png";
  }
}

=== FILE: local_mode.dfy ===
/** Local mode of the compiled dispatcher (dist/upscaler/upscaler.service.js,
    `runLocal` and `getLocalJobStatus`): every submission gets an in-memory
    record and calls the worker supervisor at once, without a queue; the
    record follows the call's outcome. The system pairs the records with
    the supervisor (compiled variant) and remembers which call each
    processing record waits for. */
module LocalMode {
  import opened Wrappers
  import opened Values
  import Dispatcher
  import Executor

  datatype LocalStatus = Queued | Processing | Completed | Failed
  {
    function Name(): string {
      match this
      case Queued => "queued"
      case Processing => "processing"
      case Completed => "completed"
      case Failed => "failed"
    }
  }

  /** A record of the local jobs map. */
  datatype LocalJob = LocalJob(
    jobId: string,
    kind: string,
    status: LocalStatus,
    progress: nat,
    result: Option<Value>,
    error: Option<string>)

  /** The record as created: queued, progress 0. */
  function Created(jobId: string, kind: string): (j: LocalJob)
    ensures j.status == Queued && j.progress == 0 && j.result.None? && j.error.None?
    ensures j.jobId == jobId && j.kind == kind
  {
    LocalJob(jobId, kind, Queued, 0, None, None)
  }

  /** The first statements of the background task, which run before
      `runLocal` returns: processing, progress 10. */
  function Started(j: LocalJob): (k: LocalJob)
    ensures k == j.(status := Processing, progress := 10)
  {
    j.(status := Processing, progress := 10)
  }

  /** The record once the call settled: completed at 100 with the worker's
      whole message, or failed with the error's message and the progress
      left where it was. */
  function Settled(j: LocalJob, outcome: Executor.Outcome): (k: LocalJob)
    ensures k.jobId == j.jobId && k.kind == j.kind
    ensures outcome.Resolved? ==> k.status == Completed && k.progress == 100 && k.result == Some(outcome.msg) && k.error == j.error
    ensures outcome.Rejected? ==> k.status == Failed && k.progress == j.progress && k.error == Some(outcome.message) && k.result == j.result
  {
    match outcome
    case Resolved(msg) => j.(status := Completed, progress := 100, result := Some(msg))
    case Rejected(message) => j.(status := Failed, error := Some(message))
  }

  /** The records, the call each processing record waits for, and the
      supervisor. */
  datatype System = System(records: map<string, LocalJob>, calls: map<string, string>, exec: Executor.Executor)

  /** `queueUpscale` in local mode under the fresh dispatcher id `jobId`,
      the supervisor using the fresh id `callId`: the record is created and
      set processing, the call is made with the built config, and the caller
      is told "queued". */
  function RunLocal(s: System, outputDir: string, kind: string, filePath: string, options: Config,
                    jobId: string, callId: string): (r: (System, Dispatcher.Ack))
    ensures r.1 == Dispatcher.Ack(jobId, "queued", kind)
    ensures r.0.records.Keys == s.records.Keys + {jobId}
    ensures forall id :: id in s.records && id != jobId ==> r.0.records[id] == s.records[id]
    ensures r.0.records[jobId].status != Queued && r.0.records[jobId].progress == 10
    ensures r.0.records[jobId].jobId == jobId && r.0.records[jobId].kind == kind
    ensures r.0.records[jobId].result.None?
    ensures s.exec.ready ==>
      && r.0.records[jobId].status == Processing
      && r.0.records[jobId].error.None?
      && r.0.calls == s.calls[jobId := callId]
      && r.0.exec == s.exec.(pending := s.exec.pending + {callId})
    ensures !s.exec.ready ==>
      && r.0.records[jobId].status == Failed
      && r.0.records[jobId].error == Some(Executor.NotReadyMessage)
      && r.0.calls == s.calls && r.0.exec == s.exec
  {
    (Call(s, jobId, kind, callId, Obj(Dispatcher.BuildConfig(filePath, outputDir, jobId, options))),
     Dispatcher.Ack(jobId, "queued", kind))
  }

  /** The background task up to its first wait: the record is set
      processing and the supervisor called. A supervisor that is not ready
      refuses the call and the record fails with its message. */
  function Call(s: System, jobId: string, kind: string, callId: string, config: Value): (t: System)
    ensures t.records.Keys == s.records.Keys + {jobId}
    ensures forall id :: id in s.records && id != jobId ==> t.records[id] == s.records[id]
    ensures s.exec.ready ==>
      && t.records[jobId] == Started(Created(jobId, kind))
      && t.calls == s.calls[jobId := callId]
      && t.exec == s.exec.(pending := s.exec.pending + {callId})
    ensures !s.exec.ready ==>
      && t.records[jobId] == Settled(Started(Created(jobId, kind)), Executor.Rejected(Executor.NotReadyMessage))
      && t.calls == s.calls && t.exec == s.exec
  {
    var j := Started(Created(jobId, kind));
    match Executor.Submit(s.exec, callId, kind, config)
    case NotReady(err) => s.(records := s.records[jobId := Settled(j, Executor.Rejected(err))])
    case Written(y, _) => System(s.records[jobId := j], s.calls[jobId := callId], y)
  }

  /** A supervisor event, applied to the records by `Apply`. */
  function OnSupervisor(s: System, x: Executor.Event): (t: System)
    ensures t == Apply(s, Executor.Step(Executor.Dist, s.exec, x))
  {
    Apply(s, Executor.Step(Executor.Dist, s.exec, x))
  }

  /** A supervisor reaction: each record whose call it settled takes that
      outcome and stops waiting; the others are untouched. */
  function Apply(s: System, r: Executor.Reaction): (t: System)
    ensures t.exec == r.state
    ensures t.records.Keys == s.records.Keys
    ensures forall id :: id in t.calls <==> id in s.calls && s.calls[id] !in r.settled
    ensures forall id :: id in t.calls ==> t.calls[id] == s.calls[id]
    ensures forall id :: id in s.records && !(id in s.calls && s.calls[id] in r.settled) ==>
      t.records[id] == s.records[id]
    ensures forall id :: id in s.records && id in s.calls && s.calls[id] in r.settled ==>
      t.records[id] == Settled(s.records[id], r.settled[s.calls[id]])
  {
    System(
      map id | id in s.records ::
        if id in s.calls && s.calls[id] in r.settled then Settled(s.records[id], r.settled[s.calls[id]])
        else s.records[id],
      map id | id in s.calls && s.calls[id] !in r.settled :: s.calls[id],
      r.state)
  }

  datatype Event =
    | Submit(kind: string, filePath: string, options: Config, jobId: string, callId: string)
    | Supervisor(e: Executor.Event)

  /** Fresh ids for submissions; the supervisor's own events otherwise
      (calls come only from submissions). */
  predicate Possible(s: System, e: Event) {
    match e
    case Submit(_, _, _, jobId, callId) => jobId !in s.records && callId !in s.exec.pending
    case Supervisor(x) => !x.Call? && Executor.Possible(s.exec, x, {})
  }

  function Step(outputDir: string, s: System, e: Event): System {
    match e
    case Submit(kind, filePath, options, jobId, callId) => RunLocal(s, outputDir, kind, filePath, options, jobId, callId).0
    case Supervisor(x) => OnSupervisor(s, x)
  }

  /** A record's progress and results agree with its status. A record is
      never seen queued: it is set processing before `runLocal` returns. */
  predicate Shaped(j: LocalJob) {
    match j.status
    case Queued => false
    case Processing => j.progress == 10 && j.result.None? && j.error.None?
    case Completed => j.progress == 100 && j.result.Some? && j.error.None?
    case Failed => j.progress == 10 && j.result.None? && j.error.Some?
  }

  /** The system invariant: every record is shaped and filed under its own
      id; exactly the processing records wait for a call; different records
      wait for different calls; and the supervisor's pending calls are
      exactly the awaited ones. */
  predicate Inv(s: System) {
    && RecordsShaped(s)
    && Awaiting(s)
    && Distinct(s.calls)
    && s.exec.pending == s.calls.Values
  }

  predicate RecordsShaped(s: System) {
    forall id :: id in s.records ==> s.records[id].jobId == id && Shaped(s.records[id])
  }

  predicate Awaiting(s: System) {
    && s.calls.Keys <= s.records.Keys
    && (forall id :: id in s.records ==> (s.records[id].status == Processing <==> id in s.calls))
  }

  predicate Distinct(calls: map<string, string>) {
    forall a, b :: a in calls && b in calls && a != b ==> calls[a] != calls[b]
  }

  const Empty: System := System(map[], map[], Executor.Initial)

  lemma EmptyInv()
    ensures Inv(Empty)
  {
  }

  lemma CallPreserves(s: System, jobId: string, kind: string, callId: string, config: Value)
    requires Inv(s) && jobId !in s.records && callId !in s.exec.pending
    ensures Inv(Call(s, jobId, kind, callId, config))
  {
    var t := Call(s, jobId, kind, callId, config);
    assert RecordsShaped(t) by {
      forall id | id in t.records ensures t.records[id].jobId == id && Shaped(t.records[id]) {
        if id != jobId {
          assert t.records[id] == s.records[id];
        }
      }
    }
    if s.exec.ready {
      CallReady(s, t, jobId, callId);
    } else {
      assert Awaiting(t) by {
        forall id | id in t.records ensures (t.records[id].status == Processing <==> id in t.calls) {
          if id != jobId {
            assert t.records[id] == s.records[id];
          }
        }
      }
    }
  }

  /** The accepted call: the new record waits for the new call. */
  lemma CallReady(s: System, t: System, jobId: string, callId: string)
    requires Inv(s) && jobId !in s.records && callId !in s.exec.pending
    requires t.records.Keys == s.records.Keys + {jobId}
    requires forall id :: id in s.records && id != jobId ==> t.records[id] == s.records[id]
    requires t.records[jobId].status == Processing
    requires t.calls == s.calls[jobId := callId]
    requires t.exec.pending == s.exec.pending + {callId}
    ensures Awaiting(t) && Distinct(t.calls) && t.exec.pending == t.calls.Values
  {
    assert jobId !in s.calls;
    assert Awaiting(t) by {
      forall id | id in t.records ensures (t.records[id].status == Processing <==> id in t.calls) {
        if id != jobId {
          assert t.records[id] == s.records[id];
        }
      }
    }
    assert Distinct(t.calls) by {
      forall a, b | a in t.calls && b in t.calls && a != b ensures t.calls[a] != t.calls[b] {
        if a != jobId && b != jobId {
          assert t.calls[a] == s.calls[a] && t.calls[b] == s.calls[b];
        } else if a == jobId {
          assert s.calls[b] in s.calls.Values;
        } else {
          assert s.calls[a] in s.calls.Values;
        }
      }
    }
    ValuesAdd(s.calls, jobId, callId);
  }

  /** Adding a key adds its value. */
  lemma ValuesAdd(calls: map<string, string>, k: string, c: string)
    requires k !in calls
    ensures calls[k := c].Values == calls.Values + {c}
  {
    var t := calls[k := c];
    forall v | v in t.Values ensures v in calls.Values + {c} {
      var id :| id in t && t[id] == v;
      if id != k {
        assert calls[id] == v;
      }
    }
    forall v | v in calls.Values + {c} ensures v in t.Values {
      if v != c {
        var id :| id in calls && calls[id] == v;
        assert t[id] == v;
      } else {
        assert t[k] == v;
      }
    }
  }

  /** A reaction that settles only pending calls and leaves pending the
      others keeps the invariant. */
  lemma ApplyPreserves(s: System, r: Executor.Reaction)
    requires Inv(s)
    requires r.settled.Keys <= s.exec.pending && r.state.pending == s.exec.pending - r.settled.Keys
    ensures Inv(Apply(s, r))
  {
    var t := Apply(s, r);
    ValuesRemove(s.calls, t.calls, r.settled.Keys);
    assert RecordsShaped(t) by {
      forall id | id in t.records ensures t.records[id].jobId == id && Shaped(t.records[id]) {
        if id in s.calls && s.calls[id] in r.settled {
          assert s.records[id].status == Processing;
        }
      }
    }
  }

  /** Dropping the keys whose values are in `gone` drops exactly those
      values. */
  lemma ValuesRemove(calls: map<string, string>, kept: map<string, string>, gone: set<string>)
    requires forall id :: id in kept <==> id in calls && calls[id] !in gone
    requires forall id :: id in kept ==> kept[id] == calls[id]
    ensures kept.Values == calls.Values - gone
  {
    forall v | v in kept.Values ensures v in calls.Values - gone {
      var id :| id in kept && kept[id] == v;
      assert calls[id] == v;
    }
    forall v | v in calls.Values - gone ensures v in kept.Values {
      var id :| id in calls && calls[id] == v;
      assert kept[id] == v;
    }
  }

  /** A supervisor event other than a call settles only pending ids and
      leaves pending exactly the ones it did not settle. */
  lemma SupervisorSettlesPending(x: Executor.Executor, e: Executor.Event)
    requires !e.Call?
    ensures var r := Executor.Step(Executor.Dist, x, e);
      r.settled.Keys <= x.pending && r.state.pending == x.pending - r.settled.Keys
  {
  }

  lemma StepPreserves(outputDir: string, s: System, e: Event)
    requires Inv(s) && Possible(s, e)
    ensures Inv(Step(outputDir, s, e))
  {
    match e
    case Submit(kind, filePath, options, jobId, callId) =>
      CallPreserves(s, jobId, kind, callId, Obj(Dispatcher.BuildConfig(filePath, outputDir, jobId, options)));
    case Supervisor(x) =>
      SupervisorSettlesPending(s.exec, x);
      ApplyPreserves(s, Executor.Step(Executor.Dist, s.exec, x));
  }

  /** A finished record never changes again. */
  lemma FinishedIsFinal(outputDir: string, s: System, e: Event, id: string)
    requires Inv(s) && Possible(s, e)
    requires id in s.records && s.records[id].status in {Completed, Failed}
    ensures id in Step(outputDir, s, e).records && Step(outputDir, s, e).records[id] == s.records[id]
  {
    assert id !in s.calls;
  }

  predicate Valid(outputDir: string, s: System, events: seq<Event>)
    decreases |events|
  {
    events == [] || (Possible(s, events[0]) && Valid(outputDir, Step(outputDir, s, events[0]), events[1..]))
  }

  function Run(outputDir: string, s: System, events: seq<Event>): System
    decreases |events|
  {
    if events == [] then s else Run(outputDir, Step(outputDir, s, events[0]), events[1..])
  }

  /** Over any run: no status reads "queued", progress is 10 while
      processing and 100 only once completed, a failed record keeps 10 and
      its error, and the supervisor waits for exactly one call per
      processing record. */
  lemma {:induction false} RecordsStayShaped(outputDir: string, s: System, events: seq<Event>)
    requires Inv(s) && Valid(outputDir, s, events)
    ensures var t := Run(outputDir, s, events);
      && Inv(t)
      && (forall id :: id in t.records ==> t.records[id].status != Queued)
      && |t.exec.pending| == |t.calls|
    decreases |events|
  {
    if events != [] {
      StepPreserves(outputDir, s, events[0]);
      RecordsStayShaped(outputDir, Step(outputDir, s, events[0]), events[1..]);
    } else {
      CallsCount(s.calls);
    }
  }

  /** An injective map has as many values as keys. */
  lemma {:induction false} CallsCount(calls: map<string, string>)
    requires forall a, b :: a in calls && b in calls && a != b ==> calls[a] != calls[b]
    ensures |calls.Values| == |calls.Keys|
    decreases |calls.Keys|
  {
    if calls != map[] {
      var k :| k in calls;
      var rest := map id | id in calls && id != k :: calls[id];
      assert rest.Keys == calls.Keys - {k};
      CallsCount(rest);
      assert calls.Keys == rest.Keys + {k};
      assert calls.Values == rest.Values + {calls[k]} by {
        forall c | c in calls.Values ensures c in rest.Values + {calls[k]} {
          var id :| id in calls && calls[id] == c;
          if id != k {
            assert rest[id] == c;
          }
        }
      }
      assert calls[k] !in rest.Values;
    }
  }

  /** Local mode does not serialise jobs: two submissions to a ready
      supervisor are both processing, and the supervisor has both calls
      pending at once. */
  lemma TwoJobsProcessAtOnce(s: System, kind: string, id1: string, call1: string, config1: Value,
                             id2: string, call2: string, config2: Value)
    requires Inv(s) && s.exec.ready
    requires id1 != id2 && call1 != call2
    requires id1 !in s.records && id2 !in s.records
    requires call1 !in s.exec.pending && call2 !in s.exec.pending
    ensures var t := Call(Call(s, id1, kind, call1, config1), id2, kind, call2, config2);
      && Inv(t)
      && t.records[id1].status == Processing && t.records[id2].status == Processing
      && {call1, call2} <= t.exec.pending
  {
    var s1 := Call(s, id1, kind, call1, config1);
    CallPreserves(s, id1, kind, call1, config1);
    CallPreserves(s1, id2, kind, call2, config2);
  }

  /** `getLocalJobStatus`: "not_found" for an unknown id; otherwise the
      record's status and progress, the output fields of a completed
      record's result (its file named after the last '/' or '\'), and a
      failed record's error. */
  function LocalStatusReport(records: map<string, LocalJob>, jobId: string): (r: Result<Dispatcher.Report, string>)
    ensures jobId !in records ==> r == Ok(Dispatcher.NotFound(jobId))
    ensures jobId in records ==>
      var j := records[jobId];
      r == Dispatcher.Snapshot(jobId, j.status.Name(), j.progress as real, j.result,
                               if j.status == Failed then j.error else None, Dispatcher.LocalSeparators)
  {
    if jobId !in records then Ok(Dispatcher.NotFound(jobId))
    else
      var j := records[jobId];
      Dispatcher.Snapshot(jobId, j.status.Name(), j.progress as real, j.result,
                          if j.status == Failed then j.error else None, Dispatcher.LocalSeparators)
  }

  /** A failed record reports its error and progress 10; a processing one
      reports progress 10 and no output. */
  lemma ReportFollowsRecord(s: System, jobId: string)
    requires Inv(s) && jobId in s.records
    ensures var j := s.records[jobId];
      var r := LocalStatusReport(s.records, jobId);
      && (j.status == Processing ==> r == Ok(Dispatcher.Found(jobId, "processing", 10.0, None, None)))
      && (j.status == Failed ==> r == Ok(Dispatcher.Found(jobId, "failed", 10.0, None, j.error)))
      && (r.Ok? ==> r.value.status != "queued")
  {
  }
}

=== FILE: options.dfy ===
/** The request options of the three upscale endpoints
    (src/upscaler/dto/flux-upscale.dto.ts, esrgan-upscale.dto.ts and
    imagen-upscale.dto.ts): per field its type, its range and its default,
    as a table. Every field is optional, so a null value passes; a field
    the body leaves out takes its default when there is one; fields the
    table does not know pass through unchanged. The validator's messages
    are not modelled: a refusal names the fields that failed. */
module Options {
  import opened Wrappers
  import opened Values
  import Flux
  import JobConfig
  import Imagen

  datatype Kind = Number | Text | Flag

  /** One decorated field: its type check, its bounds, its initial value. */
  datatype Rule = Rule(kind: Kind, default: Option<Value>, min: Option<real>, max: Option<real>)

  type Table = map<string, Rule>

  /** A value the field's decorators accept: null or undefined skips the
      checks; otherwise the type, then the bounds, inclusive. */
  predicate Fits(r: Rule, v: Value) {
    v == Null ||
      match r.kind
      case Number => v.Num? && (r.min.None? || r.min.value <= v.n) && (r.max.None? || v.n <= r.max.value)
      case Text => v.Str?
      case Flag => v.Bool?
  }

  function Defaults(t: Table): (d: Config)
    ensures forall k :: k in d <==> k in t && t[k].default.Some?
    ensures forall k :: k in d ==> d[k] == t[k].default.value
  {
    map k | k in t && t[k].default.Some? :: t[k].default.value
  }

  /** The fields of a body that its table's rules refuse. */
  function Failures(t: Table, body: Config): (f: set<string>)
    ensures forall k :: k in f <==> k in t && k in body && !Fits(t[k], body[k])
  {
    set k | k in t && k in body && !Fits(t[k], body[k])
  }

  /** A body checked against a table: the names of the fields that fail,
      or the options with the defaults filled in. */
  function Validate(t: Table, body: Config): (r: Result<Config, set<string>>)
    ensures r.Ok? <==> forall k :: k in t && k in body ==> Fits(t[k], body[k])
    ensures r.Err? ==> forall k :: k in r.error <==> k in t && k in body && !Fits(t[k], body[k])
    ensures r.Ok? ==>
      && (forall k :: k in r.value <==> k in body || (k in t && t[k].default.Some?))
      && (forall k :: k in body ==> r.value[k] == body[k])
      && (forall k :: k in t && k !in body && t[k].default.Some? ==> r.value[k] == t[k].default.value)
  {
    var failed := Failures(t, body);
    if failed == {} then Ok(Defaults(t) + body)
    else
      assert exists k :: k in failed;
      Err(failed)
  }

  const UltraSharp: string := "4x-UltraSharp.pth"

  function Plain(kind: Kind, default: Option<Value>): Rule {
    Rule(kind, default, None, None)
  }

  const FluxTable: Table := map[
    "upscale_factor" := BoundedFactor,
    "target_dpi" := Plain(Number, Some(Num(150.0))),
    "target_width_inches" := Plain(Number, None),
    "target_height_inches" := Plain(Number, None),
    "denoise" := Rule(Number, Some(Num(0.2)), Some(0.0), Some(1.0)),
    "steps" := Rule(Number, Some(Num(20.0)), Some(1.0), Some(100.0)),
    "tile_size" := Plain(Number, Some(Num(512.0))),
    "upscale_model" := Plain(Text, Some(Str(UltraSharp))),
    "output_format" := Plain(Text, Some(Str("png"))),
    "positive_prompt" := Plain(Text, None),
    "guidance" := Plain(Number, Some(Num(3.5))),
    "seed" := Plain(Number, Some(Num(0.0))),
    "cfg" := Plain(Number, Some(Num(7.0))),
    "sampler_name" := Plain(Text, Some(Str("euler"))),
    "scheduler" := Plain(Text, Some(Str("normal")))]

  const EsrganTable: Table := map[
    "upscale_factor" := BoundedFactor,
    "target_dpi" := Plain(Number, Some(Num(150.0))),
    "target_width_inches" := Plain(Number, None),
    "target_height_inches" := Plain(Number, None),
    "model" := Plain(Text, Some(Str(UltraSharp))),
    "tile_size" := Plain(Number, Some(Num(512.0))),
    "use_fp16" := Plain(Flag, Some(Bool(true))),
    "use_two_pass" := Plain(Flag, Some(Bool(false))),
    "output_format" := Plain(Text, Some(Str("png")))]

  const ImagenTable: Table := map[
    "upscale_factor" := Plain(Text, Some(Str("x4"))),
    "target_dpi" := Plain(Number, Some(Num(150.0))),
    "target_width_inches" := Plain(Number, None),
    "target_height_inches" := Plain(Number, None),
    "gcp_project_id" := Plain(Text, None),
    "gcp_region" := Plain(Text, None),
    "output_format" := Plain(Text, Some(Str("png"))),
    "prompt" := Plain(Text, None)]

  /** A body with one field passes exactly when that field fits its rule
      (or the table does not know it). */
  lemma OneField(t: Table, k: string, v: Value)
    ensures Validate(t, map[k := v]).Ok? <==> (k in t ==> Fits(t[k], v))
  {
    assert k in map[k := v];
  }

  /** The rule of a factor bounded to [1, 8]. */
  const BoundedFactor: Rule := Rule(Number, Some(Num(4.0)), Some(1.0), Some(8.0))

  /** A value fits a rule with bounds [lo, hi] exactly when it lies in them. */
  lemma BoundedFits(r: Rule, x: real, lo: real, hi: real)
    requires r.kind == Number && r.min == Some(lo) && r.max == Some(hi)
    ensures Fits(r, Num(x)) <==> lo <= x <= hi
  {
  }

  /** The FLUX and ESRGAN factor is bounded to [1, 8]. */
  lemma FactorRange(x: real)
    ensures Validate(FluxTable, map["upscale_factor" := Num(x)]).Ok? <==> 1.0 <= x <= 8.0
    ensures Validate(EsrganTable, map["upscale_factor" := Num(x)]).Ok? <==> 1.0 <= x <= 8.0
  {
    assert FluxTable["upscale_factor"] == BoundedFactor;
    assert EsrganTable["upscale_factor"] == BoundedFactor;
    BoundedFits(BoundedFactor, x, 1.0, 8.0);
    OneField(FluxTable, "upscale_factor", Num(x));
    OneField(EsrganTable, "upscale_factor", Num(x));
  }

  /** The FLUX denoise strength is bounded to [0, 1]. */
  lemma DenoiseRange(x: real)
    ensures Validate(FluxTable, map["denoise" := Num(x)]).Ok? <==> 0.0 <= x <= 1.0
  {
    OneField(FluxTable, "denoise", Num(x));
  }

  /** The FLUX step count is bounded to [1, 100], and null passes. */
  lemma StepsRange(x: real)
    ensures Validate(FluxTable, map["steps" := Num(x)]).Ok? <==> 1.0 <= x <= 100.0
    ensures Validate(FluxTable, map["steps" := Null]).Ok?
  {
    OneField(FluxTable, "steps", Num(x));
    OneField(FluxTable, "steps", Null);
  }

  /** `tile_size` and the DPI are numbers without bounds. */
  lemma Unbounded(x: real)
    ensures Validate(FluxTable, map["tile_size" := Num(x)]).Ok?
    ensures Validate(EsrganTable, map["tile_size" := Num(x)]).Ok?
    ensures Validate(ImagenTable, map["target_dpi" := Num(x)]).Ok?
  {
    OneField(FluxTable, "tile_size", Num(x));
    OneField(EsrganTable, "tile_size", Num(x));
    OneField(ImagenTable, "target_dpi", Num(x));
  }

  /** An empty body is accepted and carries exactly the table's defaults. */
  lemma EmptyBody(t: Table, k: string)
    ensures Validate(t, map[]).Ok?
    ensures k in Validate(t, map[]).value <==> k in t && t[k].default.Some?
    ensures k in t && t[k].default.Some? ==> Validate(t, map[]).value[k] == t[k].default.value
  {
  }

  /** The FLUX fields whose defaults the worker also reads. */
  lemma FluxTableDefaults()
    ensures FluxTable["upscale_factor"].default == Some(Num(4.0))
    ensures FluxTable["denoise"].default == Some(Num(0.2))
    ensures FluxTable["steps"].default == Some(Num(20.0))
    ensures FluxTable["seed"].default == Some(Num(0.0))
    ensures FluxTable["cfg"].default == Some(Num(7.0))
    ensures FluxTable["sampler_name"].default == Some(Str("euler"))
    ensures FluxTable["scheduler"].default == Some(Str("normal"))
    ensures "upscale_by" !in FluxTable && "tile_width" !in FluxTable && "tile_height" !in FluxTable
    ensures "mask_blur" !in FluxTable && "tile_padding" !in FluxTable
  {
  }

  /** The FLUX defaults the options fill in are the sampler's own: it gets
      the same settings as when the fields are left out altogether. */
  lemma FluxSamplerDefaultsAgree(draw: JobConfig.SeedDraw)
    ensures Validate(FluxTable, map[]).Ok?
    ensures Flux.Settings(Validate(FluxTable, map[]).value, draw) == Flux.Settings(map[], draw)
  {
    var c := Validate(FluxTable, map[]).value;
    FluxTableDefaults();
    EmptyBody(FluxTable, "denoise");
    EmptyBody(FluxTable, "steps");
    EmptyBody(FluxTable, "seed");
    EmptyBody(FluxTable, "cfg");
    EmptyBody(FluxTable, "sampler_name");
    EmptyBody(FluxTable, "scheduler");
    EmptyBody(FluxTable, "upscale_by");
    EmptyBody(FluxTable, "tile_width");
    EmptyBody(FluxTable, "tile_height");
    EmptyBody(FluxTable, "mask_blur");
    EmptyBody(FluxTable, "tile_padding");
  }

  /** The FLUX default factor is the worker's own: without a print target
      the output has the same size as when the factor is left out. */
  lemma FluxFactorDefaultAgrees(w: int, h: int)
    ensures Validate(FluxTable, map[]).Ok?
    ensures Flux.SimpleDims(w, h, Validate(FluxTable, map[]).value) == Flux.SimpleDims(w, h, map[])
  {
    FluxTableDefaults();
    EmptyBody(FluxTable, "upscale_factor");
  }

  /** The Imagen factor is any string: "x10" passes the options check, and
      the worker then reads only its second character, scaling by 1. */
  lemma ImagenFactorUnchecked(s: string)
    ensures Validate(ImagenTable, map["upscale_factor" := Str(s)]).Ok?
    ensures Validate(ImagenTable, map["upscale_factor" := Str("x10")]).Ok?
      && Imagen.ParseFactor(Str("x10")) == Ok(1)
  {
    Imagen.TwoDigitFactorReadsOneDigit();
  }

  /** The FLUX `tile_size` option is always present once the options are
      checked, yet it is neither a job key nor a sampler key of the worker
      (the sampler reads `tile_width` and `tile_height`, which the options
      do not offer), so by Flux.TileSizeIgnored its value changes nothing. */
  lemma FluxTileSizeUnused(body: Config)
    requires Validate(FluxTable, body).Ok?
    ensures "tile_size" in Validate(FluxTable, body).value
    ensures "tile_size" !in Flux.JobKeys && "tile_size" !in Flux.SamplerKeys
    ensures "tile_width" !in FluxTable && "tile_height" !in FluxTable
    ensures "tile_width" in Flux.SamplerKeys && "tile_height" in Flux.SamplerKeys
  {
    assert FluxTable["tile_size"].default.Some?;
  }
}

=== FILE: pipeline.dfy ===
/** One job across the process boundary: the host registers it and writes
    its line (python-executor.service `executeUpscaler`), the worker
    handles the line (python-scripts/worker.py), and the host's line
    handler reads every message the worker wrote back. The JSON codec is a
    parameter: the worker's decoder is assumed to give back the value the
    host encoded. */
module Pipeline {
  import opened Wrappers
  import opened Values
  import opened ImageUtils
  import opened JobConfig
  import opened Protocol
  import opened Executor
  import opened Worker

  /** The host reading the worker's messages one by one, all from the
      current process: the state afterwards and every promise settled. */
  function Feed(x: Executor, spawn: nat, ms: seq<WorkerMessage>): Reaction
    decreases |ms|
  {
    if ms == [] then Reaction(x, map[])
    else
      var r := OnLine(x, spawn, Some(ToValue(ms[0])));
      var rest := Feed(r.state, spawn, ms[1..]);
      Reaction(rest.state, r.settled + rest.settled)
  }

  /** The FLUX loading notices a job may write before its reply change
      nothing on the host side. */
  lemma {:induction false} NoticesThenReply(x: Executor, spawn: nat, ns: seq<WorkerMessage>, m: WorkerMessage)
    requires forall i :: 0 <= i < |ns| ==> FluxNotice(ns[i])
    ensures Feed(x, spawn, ns + [m]) == Feed(x, spawn, [m])
    decreases |ns|
  {
    if ns != [] {
      HostReadsWorkerMessages(ns[0]);
      assert OnLine(x, spawn, Some(ToValue(ns[0]))) == Reaction(x, map[]);
      assert (ns + [m])[1..] == ns[1..] + [m];
      NoticesThenReply(x, spawn, ns[1..], m);
      var rest := Feed(x, spawn, ns[1..] + [m]);
      assert map[] + rest.settled == rest.settled;
    }
  }

  /** How the host settles a job, given the upscaler's result in the
      worker. */
  function Expected(id: string, result: Result<UpscaleOutput, PyException>): Outcome {
    match result
    case Ok(out) => Resolved(ToValue(Completed(Str(id), out)))
    case Err(e) => Rejected(e.Message())
  }

  /** The worker's side: a job line yields the method's notices and one
      reply under the job's id, carrying the upscaler's output or the text
      of its exception. */
  lemma WorkerAnswers(w: WorkerState, id: string, kind: string, config: Value,
                      text: string, parse: string -> Parse, env: Env)
    requires Consistent(w)
    requires Strip(text) != [] && parse(Strip(text)) == Parsed(RequestValue(Request(id, kind, config)))
    ensures var s := HandleLine(w, text, parse, env);
      var d := Dispatch(w, Str(kind), config, env);
      && s.state == d.state
      && s.messages == d.notices + [Reply(id, d.result)]
  {
    var req := RequestValue(Request(id, kind, config));
    var s := HandleLine(w, text, parse, env);
    assert s == HandleJob(w, req.fields, env);
    assert ReadJob(req.fields) == Ok((Str(kind), config, Str(id)));
    var n := |s.messages| - 1;
    assert s.messages == s.messages[..n] + [s.messages[n]];
  }

  /** The reply the worker writes for a job with this result. */
  function Reply(id: string, result: Result<UpscaleOutput, PyException>): (m: WorkerMessage)
    ensures m.IsReply() && m.jobId == Str(id)
    ensures m.Completed? <==> result.Ok?
  {
    match result
    case Ok(out) => Completed(Str(id), out)
    case Err(e) => Failed(Str(id), e.Message())
  }

  /** The host's side: after the notices, the reply settles its own pending
      job and nothing else. */
  lemma HostSettles(y: Executor, spawn: nat, id: string, ns: seq<WorkerMessage>, result: Result<UpscaleOutput, PyException>)
    requires id in y.pending
    requires forall i :: 0 <= i < |ns| ==> FluxNotice(ns[i])
    ensures Feed(y, spawn, ns + [Reply(id, result)]) ==
      Reaction(y.(pending := y.pending - {id}), map[id := Expected(id, result)])
  {
    NoticesThenReply(y, spawn, ns, Reply(id, result));
    HostReadsWorkerMessages(Reply(id, result));
  }

  /** A job submitted to a ready host: the line is written, the worker
      runs the upscaler the line names, and the host settles exactly that
      job, once, with the worker's whole result message or with the text
      of the exception the upscaler raised. Afterwards the host is as it
      was before the call: still ready, with the same other pending jobs. */
  lemma RoundTrip(x: Executor, id: string, kind: string, config: Value,
                  w: WorkerState, text: string, parse: string -> Parse, env: Env)
    requires x.ready && id !in x.pending
    requires Consistent(w)
    requires Strip(text) != [] && parse(Strip(text)) == Parsed(RequestValue(Request(id, kind, config)))
    ensures Submit(x, id, kind, config).Written?
    ensures var y := Submit(x, id, kind, config).state;
      var s := HandleLine(w, text, parse, env);
      var d := Dispatch(w, Str(kind), config, env);
      var r := Feed(y, x.spawns, s.messages);
      && s.state == d.state
      && r.state == x
      && r.settled == map[id := Expected(id, d.result)]
  {
    var y := Submit(x, id, kind, config).state;
    var d := Dispatch(w, Str(kind), config, env);
    WorkerAnswers(w, id, kind, config, text, parse, env);
    assert forall i :: 0 <= i < |d.notices| ==> d.notices[i] in d.notices;
    HostSettles(y, x.spawns, id, d.notices, d.result);
    assert y.pending - {id} == x.pending;
  }
}

=== FILE: processor.dfy ===
/** The queue consumer (`UpscalerProcessor` in
    src/upscaler/processors/upscaler.processor.ts): it takes one job at a
    time, sets its progress to 10, hands the job's method and config to the
    worker supervisor, and on success sets progress 100 and returns the
    worker's output fields; a failure is rethrown and fails the job. */
module Processor {
  import opened Wrappers
  import opened Values
  import opened ImageUtils
  import opened Bull
  import Protocol
  import Executor

  /** The worker options: one job at a time. */
  const Concurrency: nat := 1

  /** The fields of the worker's result message the return value keeps. */
  const OutputKeys: set<string> := {
    "output_path", "output_paths", "output_width", "output_height", "crop_info", "processing_time"}

  /** The object `process` returns: the output fields of the worker's
      message that are defined, and "completed". Undefined properties are
      dropped when the queue stores the value. */
  function ReturnValue(msg: Value): (rv: Value)
    ensures rv.Obj? && "status" in rv.fields && rv.fields["status"] == Str("completed")
    ensures forall k :: k in rv.fields <==> k == "status" || (k in OutputKeys && Protocol.Field(msg, k).Some?)
    ensures forall k :: k in OutputKeys && Protocol.Field(msg, k).Some? ==> rv.fields[k] == Protocol.Field(msg, k).value
  {
    Obj((map k | k in OutputKeys && Protocol.Field(msg, k).Some? :: Protocol.Field(msg, k).value)["status" := Str("completed")])
  }

  /** The return value of a worker result keeps every output field the
      worker sent, unchanged, and drops only the message type and job id. */
  lemma ReturnValueKeepsWorkerOutput(id: Value, out: UpscaleOutput)
    ensures var m := Protocol.ToValue(Protocol.Completed(id, out));
      var rv := ReturnValue(m);
      && rv.fields.Keys == OutputKeys + {"status"}
      && (forall k :: k in OutputKeys ==> rv.fields[k] == m.fields[k])
      && rv.fields["output_path"] == Protocol.OptionalString(out.outputPath)
      && rv.fields["output_width"] == Num(out.outputWidth as real)
      && rv.fields["output_height"] == Num(out.outputHeight as real)
  {
    var m := Protocol.ToValue(Protocol.Completed(id, out));
    var rv := ReturnValue(m);
    assert forall k :: k in OutputKeys ==> Protocol.Field(m, k).Some?;
    assert rv.fields.Keys == OutputKeys + {"status"};
  }

  /** The job once taken: active, with progress 10 before the worker is
      called. */
  function Begin(job: QueueJob): (j: QueueJob)
    ensures j.state == Active && j.progress == Num(10.0)
    ensures j.data == job.data && j.opts == job.opts && j.name == job.name
    ensures j.returnvalue == job.returnvalue && j.failedReason == job.failedReason
  {
    job.(state := Active, progress := Num(10.0))
  }

  /** The job once the worker call settled: a result completes it with
      progress 100 and the return value; an error fails it with the error's
      message, its progress left where it was. */
  function Settle(job: QueueJob, outcome: Executor.Outcome): (j: QueueJob)
    ensures j.data == job.data && j.opts == job.opts && j.name == job.name
    ensures outcome.Resolved? ==>
      j.state == Completed && j.progress == Num(100.0) && j.returnvalue == Some(ReturnValue(outcome.msg))
      && j.failedReason == job.failedReason
    ensures outcome.Rejected? ==>
      j.state == Failed && j.progress == job.progress && j.failedReason == Some(outcome.message)
      && j.returnvalue == job.returnvalue
  {
    match outcome
    case Resolved(msg) => job.(state := Completed, progress := Num(100.0), returnvalue := Some(ReturnValue(msg)))
    case Rejected(message) => job.(state := Failed, failedReason := Some(message))
  }

  /** What the consumer hands to the worker supervisor: the job data's
      method and config, unchanged. */
  function WorkerCall(job: QueueJob): (call: (string, Value))
    ensures call.0 == job.data.kind
    ensures call.1.Obj? && call.1.fields == job.data.config
  {
    (job.data.kind, Obj(job.data.config))
  }
}

=== FILE: protocol.dfy ===
/** The JSON-line protocol between the NestJS host and the Python worker:
    the job line the host writes (python-executor.service, `executeUpscaler`),
    the messages the worker writes (python-scripts/worker.py, `send_message`),
    and how the host's line handler classifies a parsed line. Lines are
    decoded JSON values here; the JSON text itself is not modelled. */
module Protocol {
  import opened Wrappers
  import opened Values
  import opened Dimensions
  import opened ImageUtils

  /** The job line `{job_id, method, config}` the host writes for one call. */
  datatype Request = Request(jobId: string, kind: string, config: Value)

  function RequestValue(r: Request): (v: Value)
    ensures v.Obj? && v.fields.Keys == {"job_id", "method", "config"}
    ensures v.fields["job_id"] == Str(r.jobId) && v.fields["method"] == Str(r.kind)
    ensures v.fields["config"] == r.config
  {
    Obj(map["job_id" := Str(r.jobId), "method" := Str(r.kind), "config" := r.config])
  }

  /** A message the worker writes. A result carries the upscaler's return
      record; an error carries `str(e)`. The traceback text is not modelled. */
  datatype WorkerMessage =
    | Status(message: string)
    | Warning(message: string)
    | Completed(jobId: Value, output: UpscaleOutput)
    | Failed(jobId: Value, error: string)
  {
    predicate IsReply() {
      Completed? || Failed?
    }
  }

  /** Python's `None` for an absent string. */
  function OptionalString(s: Option<string>): (v: Value)
    ensures s.None? <==> v == Null
    ensures s.Some? ==> v == Str(s.value)
  {
    match s
    case None => Null
    case Some(x) => Str(x)
  }

  /** The `crop_info` dictionary, or `None`. */
  function CropValue(c: Option<CropInfo>): (v: Value)
    ensures c.None? <==> v == Null
    ensures c.Some? ==>
      && v.Obj? && v.fields.Keys == {"direction", "amount_px", "amount_inches"}
      && v.fields["direction"] == Str(c.value.direction.Name())
      && v.fields["amount_px"] == Num(c.value.amountPx as real)
      && v.fields["amount_inches"] == Num(c.value.amountInches)
  {
    match c
    case None => Null
    case Some(info) =>
      Obj(map["direction" := Str(info.direction.Name()),
              "amount_px" := Num(info.amountPx as real),
              "amount_inches" := Num(info.amountInches)])
  }

  function Strings(xs: seq<string>): (vs: seq<Value>)
    ensures |vs| == |xs|
    ensures forall i :: 0 <= i < |xs| ==> vs[i] == Str(xs[i])
  {
    seq(|xs|, i requires 0 <= i < |xs| => Str(xs[i]))
  }

  /** The dictionary `send_message` serialises for each message. */
  function ToValue(m: WorkerMessage): (v: Value)
    ensures v.Obj? && "type" in v.fields
  {
    match m
    case Status(msg) => Obj(map["type" := Str("status"), "message" := Str(msg)])
    case Warning(msg) => Obj(map["type" := Str("warning"), "message" := Str(msg)])
    case Completed(id, out) =>
      Obj(map["type" := Str("result"),
              "job_id" := id,
              "output_path" := OptionalString(out.outputPath),
              "output_paths" := Arr(Strings(out.outputPaths)),
              "output_width" := Num(out.outputWidth as real),
              "output_height" := Num(out.outputHeight as real),
              "crop_info" := CropValue(out.cropInfo),
              "processing_time" := Num(out.processingTime),
              "status" := Str("completed")])
    case Failed(id, err) => Obj(map["type" := Str("error"), "job_id" := id, "error" := Str(err)])
  }

  /** JavaScript `String(x)` for a property that may be undefined (None).
      Non-integral numbers are shown by their integer part, which JavaScript
      does not do; the worker never sends one here. */
  function JsString(x: Option<Value>): string
  {
    match x
    case None => "undefined"
    case Some(Null) => "null"
    case Some(Bool(b)) => if b then "true" else "false"
    case Some(Num(n)) => IntToString(n.Floor)
    case Some(Str(s)) => s
    case Some(Arr(_)) => "[array]"
    case Some(Obj(_)) => "[object Object]"
  }

  /** `new Error(x).message`: `String(x)`, or the empty string when `x` is
      undefined. */
  function ErrorText(x: Option<Value>): (s: string)
    ensures x.None? ==> s == ""
    ensures forall t :: x == Some(Str(t)) ==> s == t
  {
    if x.None? then "" else JsString(x)
  }

  /** A property read `msg[key]` on a parsed value: None stands for
      `undefined`. */
  function Field(v: Value, key: string): (r: Option<Value>)
    ensures r.Some? <==> v.Obj? && key in v.fields
    ensures r.Some? ==> r.value == v.fields[key]
  {
    if v.Obj? && key in v.fields then Some(v.fields[key]) else None
  }

  /** What the host's line handler makes of a parsed line. */
  datatype HostEvent =
    | Ignored
    | Ready
    | Notice
    | JobResult(id: string, msg: Value)
    | JobError(id: string, text: string)

  /** The branches of the handler: a status "ready" marks the worker ready,
      other statuses and warnings are only logged, and a result or error
      concerns the pending job whose id equals `job_id` (only a string can
      equal a pending id). Anything else, including a line that is not an
      object, is ignored. */
  function Classify(v: Value): (e: HostEvent)
    ensures e == Ready <==> Field(v, "type") == Some(Str("status")) && Field(v, "message") == Some(Str("ready"))
    ensures e.JobResult? ==> Field(v, "type") == Some(Str("result")) && Field(v, "job_id") == Some(Str(e.id)) && e.msg == v
    ensures e.JobError? ==>
      Field(v, "type") == Some(Str("error")) && Field(v, "job_id") == Some(Str(e.id))
      && e.text == ErrorText(Field(v, "error"))
    ensures !v.Obj? ==> e == Ignored
  {
    var t := Field(v, "type");
    if t == Some(Str("status")) then
      (if Field(v, "message") == Some(Str("ready")) then Ready else Notice)
    else if t == Some(Str("warning")) then Notice
    else if t == Some(Str("result")) || t == Some(Str("error")) then
      match Field(v, "job_id")
      case Some(Str(id)) =>
        if t == Some(Str("result")) then JobResult(id, v) else JobError(id, ErrorText(Field(v, "error")))
      case _ => Ignored
    else Ignored
  }

  /** The host reads every worker message as the worker meant it: "ready"
      marks readiness and no other message does, replies carrying a string
      id reach that id with the whole message or the error text, and replies
      with any other id are ignored. */
  lemma HostReadsWorkerMessages(m: WorkerMessage)
    ensures var e := Classify(ToValue(m));
      && (m == Status("ready") <==> e == Ready)
      && (m.Status? && m.message != "ready" ==> e == Notice)
      && (m.Warning? ==> e == Notice)
      && (m.Completed? && m.jobId.Str? ==> e == JobResult(m.jobId.s, ToValue(m)))
      && (m.Failed? && m.jobId.Str? ==> e == JobError(m.jobId.s, m.error))
      && (m.IsReply() && !m.jobId.Str? ==> e == Ignored)
  {
  }
}

=== FILE: queue.dfy ===
/** The part of a BullMQ queue the host relies on, as an abstract map from
    job id to job record: the job's name and data, the options it was added
    with, its state, its progress, and its return value or failure reason.
    Redis, retention timers and the order in which waiting jobs are taken
    are not modelled. */
module Bull {
  import opened Wrappers
  import opened Values

  /** The states a job of this host passes through, with the names
      `getState()` reports. */
  datatype JobState = Waiting | Active | Completed | Failed
  {
    function Name(): string {
      match this
      case Waiting => "waiting"
      case Active => "active"
      case Completed => "completed"
      case Failed => "failed"
    }
  }

  /** The data a job carries: the method, the config and the dispatcher's
      job id. */
  datatype JobData = JobData(kind: string, config: Config, jobId: string)

  /** The options a job is added with; the retention ages are in seconds. */
  datatype JobOptions = JobOptions(jobId: string, attempts: nat, removeOnCompleteAge: nat, removeOnFailAge: nat)

  datatype QueueJob = QueueJob(
    name: string,
    data: JobData,
    opts: JobOptions,
    state: JobState,
    progress: Value,
    returnvalue: Option<Value>,
    failedReason: Option<string>)

  type Queue = map<string, QueueJob>

  /** `queue.add(name, data, opts)`: the job is stored under `opts.jobId`,
      waiting, with progress 0. An id already in the queue keeps its job. */
  function Add(q: Queue, name: string, data: JobData, opts: JobOptions): (r: Queue)
    ensures opts.jobId in r && r.Keys == q.Keys + {opts.jobId}
    ensures opts.jobId !in q ==>
      r[opts.jobId] == QueueJob(name, data, opts, Waiting, Num(0.0), None, None)
    ensures forall id :: id in q ==> r[id] == q[id]
  {
    if opts.jobId in q then q
    else q[opts.jobId := QueueJob(name, data, opts, Waiting, Num(0.0), None, None)]
  }
}

=== FILE: queue_mode.dfy ===
/** Queue mode as one system: the dispatcher adds jobs to the queue, the
    consumer takes them one at a time and calls the worker supervisor, and
    the supervisor's events settle the call. The queue's retention is an
    event that removes a finished job; which waiting job is taken next is
    left open. */
module QueueMode {
  import opened Wrappers
  import opened Values
  import opened ImageUtils
  import opened Bull
  import Dispatcher
  import Processor
  import Executor
  import Protocol

  /** The job the consumer is working on and the supervisor's id for its
      call. */
  datatype Running = Running(jobId: string, callId: string)

  datatype System = System(queue: Queue, running: Option<Running>, exec: Executor.Executor)

  datatype Event =
    | Submit(kind: string, filePath: string, options: Config, jobId: string)
    | Take(jobId: string, callId: string)
    | Supervisor(e: Executor.Event)
    | Expire(jobId: string)

  /** Events that can occur: a fresh dispatcher id, a waiting job taken
      only while the consumer is idle, the supervisor's own events (calls
      come only from the consumer), and the removal of a finished job. */
  predicate Possible(s: System, e: Event) {
    match e
    case Submit(_, _, _, jobId) => jobId !in s.queue
    case Take(jobId, callId) =>
      s.running.None? && jobId in s.queue && s.queue[jobId].state == Waiting && callId !in s.exec.pending
    case Supervisor(x) => !x.Call? && Executor.Possible(s.exec, x, {})
    case Expire(jobId) => jobId in s.queue && s.queue[jobId].state in {Completed, Failed}
  }

  /** The consumer takes a job: progress 10, then the call. A supervisor
      that is not ready refuses it at once and the job fails. */
  function TakeJob(s: System, jobId: string, callId: string): (t: System)
    requires jobId in s.queue
    ensures jobId in t.queue && t.queue.Keys == s.queue.Keys
    ensures forall id :: id in s.queue && id != jobId ==> t.queue[id] == s.queue[id]
    ensures s.exec.ready ==>
      && t.running == Some(Running(jobId, callId))
      && t.queue[jobId] == Processor.Begin(s.queue[jobId])
      && t.exec.pending == s.exec.pending + {callId}
    ensures !s.exec.ready ==>
      && t.running == s.running && t.exec == s.exec
      && t.queue[jobId] == Processor.Settle(Processor.Begin(s.queue[jobId]), Executor.Rejected(Executor.NotReadyMessage))
  {
    var job := Processor.Begin(s.queue[jobId]);
    var call := Processor.WorkerCall(job);
    match Executor.Submit(s.exec, callId, call.0, call.1)
    case NotReady(err) =>
      s.(queue := s.queue[jobId := Processor.Settle(job, Executor.Rejected(err))])
    case Written(y, _) =>
      System(s.queue[jobId := job], Some(Running(jobId, callId)), y)
  }

  /** A supervisor event: when it settles the running call, the running job
      completes or fails with that outcome and the consumer is idle again. */
  function OnSupervisor(v: Executor.Variant, s: System, x: Executor.Event): (t: System)
    ensures t.exec == Executor.Step(v, s.exec, x).state
    ensures t.queue.Keys == s.queue.Keys
    ensures var settled := Executor.Step(v, s.exec, x).settled;
      s.running.Some? && s.running.value.callId in settled && s.running.value.jobId in s.queue ==>
        var id := s.running.value.jobId;
        var outcome := settled[s.running.value.callId];
        && t.running.None?
        && t.queue[id].data == s.queue[id].data
        && (outcome.Resolved? ==> t.queue[id].state == Completed && t.queue[id].progress == Num(100.0)
                                   && t.queue[id].returnvalue == Some(Processor.ReturnValue(outcome.msg)))
        && (outcome.Rejected? ==> t.queue[id].state == Failed
                                   && t.queue[id].failedReason == Some(outcome.message))
        && (forall other :: other in s.queue && other != id ==> t.queue[other] == s.queue[other])
    ensures var settled := Executor.Step(v, s.exec, x).settled;
      !(s.running.Some? && s.running.value.callId in settled && s.running.value.jobId in s.queue) ==>
        t.queue == s.queue && t.running == s.running
  {
    var r := Executor.Step(v, s.exec, x);
    match s.running
    case Some(run) =>
      if run.callId in r.settled && run.jobId in s.queue then
        System(s.queue[run.jobId := Processor.Settle(s.queue[run.jobId], r.settled[run.callId])], None, r.state)
      else s.(exec := r.state)
    case None => s.(exec := r.state)
  }

  /** A submitted job reaches the worker unchanged: once taken by a ready
      consumer, the request line written for it carries the consumer's call
      id, the submitted method and the config the dispatcher built. */
  lemma SubmittedJobReachesWorker(s: System, kind: string, filePath: string, outputDir: string,
                                  options: Config, jobId: string, callId: string)
    requires jobId !in s.queue && s.exec.ready
    ensures var q := Dispatcher.QueueUpscale(s.queue, kind, filePath, outputDir, jobId, options).0;
      var call := Processor.WorkerCall(Processor.Begin(q[jobId]));
      Executor.Submit(s.exec, callId, call.0, call.1)
        == Executor.Written(s.exec.(pending := s.exec.pending + {callId}),
                            Protocol.RequestValue(Protocol.Request(callId, kind,
                              Obj(Dispatcher.BuildConfig(filePath, outputDir, jobId, options)))))
  {
  }

  function Step(v: Executor.Variant, outputDir: string, s: System, e: Event): System {
    match e
    case Submit(kind, filePath, options, jobId) =>
      if jobId in s.queue then s
      else s.(queue := Dispatcher.QueueUpscale(s.queue, kind, filePath, outputDir, jobId, options).0)
    case Take(jobId, callId) => if jobId in s.queue then TakeJob(s, jobId, callId) else s
    case Supervisor(x) => OnSupervisor(v, s, x)
    case Expire(jobId) => s.(queue := s.queue - {jobId})
  }

  /** A job's progress and results agree with its state: waiting at 0,
      active at 10, completed at 100 with a return value, failed at 10 with
      a reason. */
  predicate Shaped(job: QueueJob) {
    match job.state
    case Waiting => job.progress == Num(0.0) && job.returnvalue.None? && job.failedReason.None?
    case Active => job.progress == Num(10.0) && job.returnvalue.None? && job.failedReason.None?
    case Completed => job.progress == Num(100.0) && job.returnvalue.Some? && job.failedReason.None?
    case Failed => job.progress == Num(10.0) && job.returnvalue.None? && job.failedReason.Some?
  }

  /** The system invariant: the running job is the only active one, the
      supervisor has exactly its call pending (and nothing while the
      consumer is idle), and every job is shaped. */
  predicate Inv(s: System) {
    && (forall id :: id in s.queue ==> Shaped(s.queue[id]))
    && (forall id :: id in s.queue && s.queue[id].state == Active ==>
          s.running.Some? && s.running.value.jobId == id)
    && (s.running.None? ==> s.exec.pending == {})
    && (s.running.Some? ==>
          && s.running.value.jobId in s.queue
          && s.queue[s.running.value.jobId].state == Active
          && s.exec.pending == {s.running.value.callId})
  }

  const Empty: System := System(map[], None, Executor.Initial)

  lemma EmptyInv()
    ensures Inv(Empty)
  {
  }

  /** A supervisor event other than a call settles only pending ids and
      leaves pending exactly the ones it did not settle. */
  lemma SupervisorSettlesPending(v: Executor.Variant, x: Executor.Executor, e: Executor.Event)
    requires !e.Call?
    ensures var r := Executor.Step(v, x, e);
      r.settled.Keys <= x.pending && r.state.pending == x.pending - r.settled.Keys
  {
  }

  lemma TakePreserves(s: System, jobId: string, callId: string)
    requires Inv(s) && Possible(s, Take(jobId, callId))
    ensures Inv(TakeJob(s, jobId, callId))
  {
    var t := TakeJob(s, jobId, callId);
    if !s.exec.ready {
      assert Shaped(t.queue[jobId]);
    }
  }

  lemma SupervisorPreserves(v: Executor.Variant, s: System, x: Executor.Event)
    requires Inv(s) && Possible(s, Supervisor(x))
    ensures Inv(OnSupervisor(v, s, x))
  {
    var r := Executor.Step(v, s.exec, x);
    SupervisorSettlesPending(v, s.exec, x);
    if s.running.Some? {
      var run := s.running.value;
      if run.callId in r.settled {
        assert r.state.pending == {};
        var t := OnSupervisor(v, s, x);
        assert Shaped(t.queue[run.jobId]);
      } else {
        assert r.settled.Keys == {};
      }
    }
  }

  lemma StepPreserves(v: Executor.Variant, outputDir: string, s: System, e: Event)
    requires Inv(s) && Possible(s, e)
    ensures Inv(Step(v, outputDir, s, e))
  {
    match e
    case Submit(kind, filePath, options, jobId) =>
    case Take(jobId, callId) => TakePreserves(s, jobId, callId);
    case Supervisor(x) => SupervisorPreserves(v, s, x);
    case Expire(jobId) =>
  }

  /** A run of events, each possible when it happens. */
  predicate Valid(v: Executor.Variant, outputDir: string, s: System, events: seq<Event>)
    decreases |events|
  {
    events == [] || (Possible(s, events[0]) && Valid(v, outputDir, Step(v, outputDir, s, events[0]), events[1..]))
  }

  function Run(v: Executor.Variant, outputDir: string, s: System, events: seq<Event>): System
    decreases |events|
  {
    if events == [] then s else Run(v, outputDir, Step(v, outputDir, s, events[0]), events[1..])
  }

  /** One GPU job at a time: after any run from a state satisfying the
      invariant, at most one job is active, the supervisor has at most that
      job's call pending, progress 100 means completed and a failed job
      stayed at 10. */
  lemma {:induction false} OneJobAtATime(v: Executor.Variant, outputDir: string, s: System, events: seq<Event>)
    requires Inv(s) && Valid(v, outputDir, s, events)
    ensures var t := Run(v, outputDir, s, events);
      && Inv(t)
      && (forall a, b :: a in t.queue && b in t.queue && t.queue[a].state == Active && t.queue[b].state == Active ==> a == b)
      && |t.exec.pending| <= 1
    decreases |events|
  {
    if events != [] {
      StepPreserves(v, outputDir, s, events[0]);
      OneJobAtATime(v, outputDir, Step(v, outputDir, s, events[0]), events[1..]);
    }
  }

  /** The status of a job the worker completed reports the worker's output
      fields and a download URL naming the saved file. */
  lemma CompletedStatusReportsOutput(q: Queue, jobId: string, id: Value, out: UpscaleOutput, dir: string, file: string)
    requires jobId in q && q[jobId].state == Completed
    requires q[jobId].returnvalue == Some(Processor.ReturnValue(Protocol.ToValue(Protocol.Completed(id, out))))
    requires out.outputPath == Some(Join(dir, file))
    requires file != [] && forall c :: c in file ==> c !in Dispatcher.QueueSeparators
    ensures var r := Dispatcher.QueueStatus(q, jobId);
      && r.Ok? && r.value.Found? && r.value.status == "completed"
      && r.value.output.Some?
      && r.value.output.value.outputPath == Some(Str(Join(dir, file)))
      && r.value.output.value.outputWidth == Some(Num(out.outputWidth as real))
      && r.value.output.value.outputHeight == Some(Num(out.outputHeight as real))
      && r.value.output.value.outputUrl == Some(Dispatcher.ResultsRoute + file)
  {
    var rv := q[jobId].returnvalue.value;
    Processor.ReturnValueKeepsWorkerOutput(id, out);
    Dispatcher.DownloadUrlFindsOutput(rv, dir, file, Dispatcher.QueueSeparators, "/", "/", p => true);
  }
}

=== FILE: tiles.dfy ===
/** Integer tile layout of the ESRGAN upscaler's tiled pass
    (`_upscale_with_tiles` in python-scripts/services/esrgan_upscaler.py):
    how many tiles per axis, where each tile starts and ends, the size of the
    output canvas and the feather width. The tensors, the model calls and the
    float blending masks are not modelled. */
module Tiles {
  import opened Wrappers
  import opened Values

  /** Python `a // b`: floor division, for divisors of either sign. */
  function FloorDiv(a: int, b: int): (q: int)
    requires b != 0
    ensures b > 0 ==> q * b <= a < (q + 1) * b
    ensures b < 0 ==> (q + 1) * b < a <= q * b
  {
    if b > 0 then a / b else (-a) / (-b)
  }

  /** Python `a % b`: the remainder that goes with floor division. */
  function FloorMod(a: int, b: int): (m: int)
    requires b != 0
    ensures b > 0 ==> 0 <= m < b
    ensures b < 0 ==> b < m <= 0
    ensures a == FloorDiv(a, b) * b + m
  {
    a - b * FloorDiv(a, b)
  }

  /** The half-open range `[lo, hi)` of rows (or columns) one tile reads. */
  datatype Span = Span(lo: int, hi: int)

  /** Tiles per axis: `max(1, (len - overlap) // stride + (1 if remainder else 0))`,
      i.e. the ceiling of `(len - overlap) / stride`, at least one; a zero stride
      divides by zero. */
  function TileCount(len: int, tile: int, overlap: int): (r: Result<int, PyException>)
    ensures r.Err? <==> tile == overlap
    ensures r.Err? ==> r.error == ZeroDivisionError
    ensures r.Ok? ==> r.value >= 1
    ensures r.Ok? && tile > overlap ==>
      && r.value * (tile - overlap) >= len - overlap
      && (r.value == 1 || (r.value - 1) * (tile - overlap) < len - overlap)
  {
    var stride := tile - overlap;
    if stride == 0 then Err(ZeroDivisionError)
    else
      var n := FloorDiv(len - overlap, stride) + (if FloorMod(len - overlap, stride) != 0 then 1 else 0);
      Ok(if n < 1 then 1 else n)
  }

  /** The `i`-th tile along an axis of length `len`: it starts at `i * stride`,
      pulled back so that it never runs past the end, and is `tile` long unless
      the axis is shorter than a tile. */
  function SpanAt(i: int, len: int, tile: int, overlap: int): (s: Span)
    ensures 0 <= overlap < tile && len >= 1 && i >= 0 ==> 0 <= s.lo < s.hi <= len
    ensures i == 0 && len >= 1 && tile >= 1 ==> s.lo == 0
  {
    var stride := tile - overlap;
    var lo := if len > tile then Min(i * stride, len - tile) else 0;
    assert 0 <= overlap < tile && i >= 0 ==> i * stride >= 0 by {
      if 0 <= overlap < tile && i >= 0 {
        NonNegProduct(i, stride);
      }
    }
    Span(lo, Min(lo + tile, len))
  }

  function Min(a: int, b: int): int {
    if a <= b then a else b
  }

  lemma NonNegProduct(a: int, b: int)
    requires a >= 0 && b >= 0
    ensures a * b >= 0
  {
  }

  /** All tiles along one axis, in the order the loop visits them. */
  function Spans(count: nat, len: int, tile: int, overlap: int): (ss: seq<Span>)
    ensures |ss| == count
    ensures forall i :: 0 <= i < count ==> ss[i] == SpanAt(i, len, tile, overlap)
  {
    seq(count, i requires 0 <= i < count => SpanAt(i, len, tile, overlap))
  }

  /** A chain of spans that starts at row 0, ends at row `len`, stays inside
      `[0, len)` with non-empty spans, and leaves no gap between neighbours. */
  predicate Chain(ss: seq<Span>, len: int) {
    && |ss| >= 1
    && ss[0].lo == 0
    && ss[|ss| - 1].hi == len
    && (forall i :: 0 <= i < |ss| ==> 0 <= ss[i].lo < ss[i].hi <= len)
    && (forall i :: 0 <= i < |ss| - 1 ==> ss[i + 1].lo <= ss[i].hi)
  }

  /** Every row of `[0, len)` is read by at least one span. */
  predicate Covers(ss: seq<Span>, len: int) {
    forall r :: 0 <= r < len ==> ReadBy(ss, r)
  }

  /** Row `r` lies inside one of the spans. */
  predicate ReadBy(ss: seq<Span>, r: int) {
    exists i :: 0 <= i < |ss| && ss[i].lo <= r < ss[i].hi
  }

  /** The spans of one axis form a chain when the overlap is smaller than the
      tile and not negative. */
  lemma SpansChain(len: int, tile: int, overlap: int)
    requires 0 <= overlap < tile && len >= 1
    ensures TileCount(len, tile, overlap).Ok?
    ensures Chain(Spans(TileCount(len, tile, overlap).value, len, tile, overlap), len)
  {
    var count := TileCount(len, tile, overlap).value;
    var ss := Spans(count, len, tile, overlap);
    var stride := tile - overlap;
    forall i | 0 <= i < count - 1
      ensures ss[i + 1].lo <= ss[i].hi
    {
      NeighboursMeet(i, len, tile, overlap);
    }
    LastSpanEnds(count, len, tile, overlap);
  }

  /** Consecutive tiles meet or overlap: the next one starts no later than
      this one ends. */
  lemma NeighboursMeet(i: int, len: int, tile: int, overlap: int)
    requires 0 <= overlap < tile && len >= 1 && i >= 0
    ensures SpanAt(i + 1, len, tile, overlap).lo <= SpanAt(i, len, tile, overlap).hi
  {
    var stride := tile - overlap;
    assert (i + 1) * stride == i * stride + stride;
  }

  /** The last tile ends at the far edge, because the count is the ceiling of
      `(len - overlap) / stride`. */
  lemma LastSpanEnds(count: int, len: int, tile: int, overlap: int)
    requires 0 <= overlap < tile && len >= 1
    requires count >= 1 && count * (tile - overlap) >= len - overlap
    ensures SpanAt(count - 1, len, tile, overlap).hi == len
  {
    var stride := tile - overlap;
    assert (count - 1) * stride == count * stride - stride;
  }

  /** A chain covers its whole axis; this is what keeps the accumulated blend
      weight positive everywhere, so the final division never uses the clamp. */
  lemma {:induction false} ChainCovers(ss: seq<Span>, len: int)
    requires Chain(ss, len)
    ensures Covers(ss, len)
  {
    forall r | 0 <= r < len
      ensures ReadBy(ss, r)
    {
      var k := PrefixCovers(ss, len, |ss| - 1, r);
    }
  }

  /** Rows below the end of span `k` are read by one of the spans `0..k`. */
  lemma {:induction false} PrefixCovers(ss: seq<Span>, len: int, k: int, r: int) returns (i: int)
    requires Chain(ss, len)
    requires 0 <= k < |ss| && 0 <= r < ss[k].hi
    ensures 0 <= i <= k && ss[i].lo <= r < ss[i].hi
    decreases k
  {
    if r >= ss[k].lo {
      i := k;
    } else {
      assert ss[k].lo <= ss[k - 1].hi;
      i := PrefixCovers(ss, len, k - 1, r);
    }
  }

  /** What `_upscale_with_tiles` does for one image: a single model call when
      the image fits one tile in both dimensions, otherwise a tiled pass over
      a canvas `scale` times the input with the given row and column tiles. */
  datatype TilePlan =
    | Whole
    | Tiled(outHeight: int, outWidth: int, rows: seq<Span>, cols: seq<Span>, feather: int)

  function PlanTiles(h: int, w: int, tile: int, overlap: int, scale: int): (r: Result<TilePlan, PyException>)
    ensures r == Ok(Whole) <==> h <= tile && w <= tile
    ensures r.Err? <==> !(h <= tile && w <= tile) && tile == overlap
    ensures r.Err? ==> r.error == ZeroDivisionError
    ensures r.Ok? && r.value.Tiled? ==>
      && r.value.outHeight == h * scale && r.value.outWidth == w * scale
      && 2 * r.value.feather <= overlap * scale < 2 * r.value.feather + 2
  {
    if h <= tile && w <= tile then Ok(Whole)
    else
      match (TileCount(h, tile, overlap), TileCount(w, tile, overlap))
      case (Ok(hTiles), Ok(wTiles)) =>
        Ok(Tiled(h * scale, w * scale,
                 Spans(hTiles, h, tile, overlap), Spans(wTiles, w, tile, overlap),
                 FloorDiv(overlap * scale, 2)))
      case _ => Err(ZeroDivisionError)
  }

  /** With a non-negative overlap smaller than the tile, a tiled plan reads
      every row and every column of the input, each tile inside the image. */
  lemma TiledPlanCovers(h: int, w: int, tile: int, overlap: int, scale: int)
    requires h >= 1 && w >= 1 && 0 <= overlap < tile
    ensures PlanTiles(h, w, tile, overlap, scale).Ok?
    ensures var p := PlanTiles(h, w, tile, overlap, scale).value;
      p.Tiled? ==> Chain(p.rows, h) && Chain(p.cols, w) && Covers(p.rows, h) && Covers(p.cols, w)
  {
    var p := PlanTiles(h, w, tile, overlap, scale).value;
    if p.Tiled? {
      SpansChain(h, tile, overlap);
      SpansChain(w, tile, overlap);
      ChainCovers(p.rows, h);
      ChainCovers(p.cols, w);
    }
  }

  /** A negative overlap (nothing validates `tile_overlap`) leaves rows that no
      tile reads: with tile 4 and overlap -2 on 10 rows, rows 4 and 5 are
      skipped. */
  lemma NegativeOverlapLeavesGap()
    ensures TileCount(10, 4, -2) == Ok(2)
    ensures Spans(2, 10, 4, -2) == [Span(0, 4), Span(6, 10)]
    ensures !Covers(Spans(2, 10, 4, -2), 10)
  {
    var ss := Spans(2, 10, 4, -2);
    assert ss[0] == Span(0, 4) && ss[1] == Span(6, 10);
    assert !ReadBy(ss, 4);
  }
}

=== FILE: values.dfy ===
/** Python/JSON values as the worker sees them, Python truthiness, dictionary
    lookup with a default, and the Python exceptions the worker reports. */
module Values {
  import opened Wrappers

  /** A decoded JSON value. Numbers are reals; the int/float distinction of
      Python is not modelled. */
  datatype Value =
    | Null
    | Bool(b: bool)
    | Num(n: real)
    | Str(s: string)
    | Arr(items: seq<Value>)
    | Obj(fields: map<string, Value>)

  /** JavaScript truthiness of a value (`if (x)`): unlike Python, empty
      arrays and objects are truthy. */
  predicate JsTruthy(v: Value) {
    match v
    case Null => false
    case Bool(b) => b
    case Num(n) => n != 0.0
    case Str(s) => s != ""
    case Arr(_) => true
    case Obj(_) => true
  }

  /** Python's name for the type of a decoded JSON value (integral numbers
      decode as `int`). */
  function TypeName(v: Value): string {
    match v
    case Null => "NoneType"
    case Bool(_) => "bool"
    case Num(n) => if n.Floor as real == n then "int" else "float"
    case Str(_) => "str"
    case Arr(_) => "list"
    case Obj(_) => "dict"
  }

  /** Decimal digits of an integer. */
  function IntToString(n: int): (s: string)
    ensures |s| >= 1
    ensures n >= 0 ==> forall i :: 0 <= i < |s| ==> '0' <= s[i] <= '9'
    decreases if n < 0 then 1 - n else n
  {
    if n < 0 then "-" + IntToString(-n)
    else if n < 10 then [Digit(n)]
    else IntToString(n / 10) + [Digit(n % 10)]
  }

  function Digit(d: int): (c: char)
    requires 0 <= d < 10
    ensures '0' <= c <= '9' && c as int - '0' as int == d
  {
    ('0' as int + d) as char
  }

  /** A configuration object: the `config` mapping sent with every job. */
  type Config = map<string, Value>

  /** Python truthiness of a value (`if x:`). */
  predicate Truthy(v: Value) {
    match v
    case Null => false
    case Bool(b) => b
    case Num(n) => n != 0.0
    case Str(s) => s != ""
    case Arr(xs) => xs != []
    case Obj(m) => m != map[]
  }

  /** Python `int()` of a float: truncation toward zero. */
  function Trunc(x: real): (n: int)
    ensures x >= 0.0 ==> n as real <= x < n as real + 1.0
    ensures x < 0.0 ==> n as real - 1.0 < x <= n as real
  {
    if x >= 0.0 then x.Floor else -((-x).Floor)
  }

  /** The characters Python's `str.isspace()` accepts: what `str.strip()`
      and `int()` remove around their argument. */
  predicate IsSpace(c: char) {
    var n := c as int;
    || n == 0x20 || 0x09 <= n <= 0x0D || 0x1C <= n <= 0x1F || n == 0x85 || n == 0xA0
    || n == 0x1680 || 0x2000 <= n <= 0x200A || n == 0x2028 || n == 0x2029
    || n == 0x202F || n == 0x205F || n == 0x3000
  }

  /** Drop leading whitespace. */
  function TrimStart(s: string): (t: string)
    ensures |t| <= |s| && t == s[|s| - |t|..]
    ensures forall i :: 0 <= i < |s| - |t| ==> IsSpace(s[i])
    ensures t == [] || !IsSpace(t[0])
  {
    if s == [] || !IsSpace(s[0]) then s else TrimStart(s[1..])
  }

  /** Drop trailing whitespace. */
  function TrimEnd(s: string): (t: string)
    ensures |t| <= |s| && t == s[..|t|]
    ensures forall i :: |t| <= i < |s| ==> IsSpace(s[i])
    ensures t == [] || !IsSpace(t[|t| - 1])
  {
    if s == [] || !IsSpace(s[|s| - 1]) then s else TrimEnd(s[..|s| - 1])
  }

  /** `line.strip()`. */
  function Strip(s: string): (t: string)
    ensures |t| <= |s|
    ensures t == [] || (!IsSpace(t[0]) && !IsSpace(t[|t| - 1]))
  {
    TrimEnd(TrimStart(s))
  }

  /** A line strips to nothing exactly when every character is whitespace. */
  lemma BlankIffAllSpace(s: string)
    ensures Strip(s) == [] <==> forall i :: 0 <= i < |s| ==> IsSpace(s[i])
  {
    var t := TrimStart(s);
    if !forall i :: 0 <= i < |s| ==> IsSpace(s[i]) {
      var i :| 0 <= i < |s| && !IsSpace(s[i]);
      assert t[i - (|s| - |t|)] == s[i];
    }
  }

  /** A string with no whitespace at either end strips to itself. */
  lemma StripKeeps(s: string)
    requires s == [] || (!IsSpace(s[0]) && !IsSpace(s[|s| - 1]))
    ensures Strip(s) == s
  {
  }

  /** Python's `str(v)`, as an f-string or a message formats it. Whole
      numbers print as Python ints; a fractional number, a list or a
      dictionary is shown by its type name only. */
  function PyStr(v: Value): (s: string)
    ensures v.Str? ==> s == v.s
    ensures v.Null? ==> s == "None"
    ensures v.Bool? ==> s == (if v.b then "True" else "False")
    ensures v.Num? && v.n.Floor as real == v.n ==> s == IntToString(v.n.Floor)
  {
    match v
    case Str(s) => s
    case Null => "None"
    case Bool(b) => if b then "True" else "False"
    case Num(n) => if n.Floor as real == n then IntToString(n.Floor) else "<" + TypeName(v) + ">"
    case _ => "<" + TypeName(v) + ">"
  }

  /** `s * n` for a string and an int: `s` written `n` times, nothing when
      `n` is not positive. */
  function Repeat(s: string, n: int): (r: string)
    ensures n <= 0 ==> r == []
    ensures n >= 1 ==> |r| >= |s| && r[..|s|] == s
    decreases n
  {
    if n <= 0 then [] else s + Repeat(s, n - 1)
  }

  /** An ASCII decimal digit. */
  predicate IsDigit(c: char) {
    '0' <= c <= '9'
  }

  /** The body of a base-10 integer literal: digits, with single
      underscores allowed between two digits. */
  predicate DigitGroups(t: string) {
    t != [] && IsDigit(t[0]) && GroupsTail(t[1..])
  }

  /** What may follow a digit in a literal: nothing, another digit, or an
      underscore and a digit. */
  predicate GroupsTail(t: string)
    decreases |t|
  {
    || t == []
    || (IsDigit(t[0]) && GroupsTail(t[1..]))
    || (|t| >= 2 && t[0] == '_' && IsDigit(t[1]) && GroupsTail(t[2..]))
  }

  /** A literal body ends in a digit. */
  lemma {:induction false} GroupsEndInDigit(t: string)
    requires GroupsTail(t) && t != []
    ensures IsDigit(t[|t| - 1])
    decreases |t|
  {
    if IsDigit(t[0]) && GroupsTail(t[1..]) {
      if |t| > 1 {
        GroupsEndInDigit(t[1..]);
      }
    } else if |t| > 2 {
      GroupsEndInDigit(t[2..]);
    }
  }

  /** A run of digits is a literal body. */
  lemma {:induction false} DigitsAreGroups(t: string)
    requires forall i :: 0 <= i < |t| ==> IsDigit(t[i])
    ensures GroupsTail(t)
    decreases |t|
  {
    if t != [] {
      DigitsAreGroups(t[1..]);
    }
  }

  /** The number the digits of `t` spell, underscores skipped. */
  function DigitsValue(t: string): nat
    decreases |t|
  {
    if t == [] then 0
    else if IsDigit(t[|t| - 1]) then DigitsValue(t[..|t| - 1]) * 10 + (t[|t| - 1] as int - '0' as int)
    else DigitsValue(t[..|t| - 1])
  }

  /** Python's `int(s)` on a string, base 10: whitespace around, then a
      signed literal. None stands for the ValueError. */
  function ParseInt(s: string): (r: Option<int>)
    ensures r.Some? ==> Strip(s) != []
  {
    SignedLiteral(Strip(s))
  }

  /** An optional sign, then digit groups (leading zeros allowed). */
  function SignedLiteral(t: string): (r: Option<int>)
    ensures DigitGroups(t) ==> r == Some(DigitsValue(t))
    ensures r.Some? && r.value < 0 ==> t != [] && t[0] == '-'
  {
    if t != [] && (t[0] == '+' || t[0] == '-') then
      var n: int := DigitsValue(t[1..]);
      if DigitGroups(t[1..]) then Some(if t[0] == '-' then -n else n) else None
    else if DigitGroups(t) then Some(DigitsValue(t))
    else None
  }

  /** The decimal digits of a natural number spell it. */
  lemma {:induction false} DigitsOfIntToString(n: nat)
    ensures DigitGroups(IntToString(n))
    ensures DigitsValue(IntToString(n)) == n
    decreases n
  {
    DigitsAreGroups(IntToString(n)[1..]);
    if n >= 10 {
      DigitsOfIntToString(n / 10);
      var p := IntToString(n / 10);
      assert IntToString(n) == p + [Digit(n % 10)];
      assert (p + [Digit(n % 10)])[..|p|] == p;
    }
  }

  /** A non-empty run of digits reads as the number it spells. */
  lemma {:induction false} DigitsRead(t: string)
    requires t != [] && forall i :: 0 <= i < |t| ==> IsDigit(t[i])
    ensures ParseInt(t) == Some(DigitsValue(t))
  {
    assert forall i :: 0 <= i < |t[1..]| ==> IsDigit(t[1..][i]) by {
      forall i | 0 <= i < |t[1..]| ensures IsDigit(t[1..][i]) {
        assert t[1..][i] == t[i + 1];
      }
    }
    DigitsAreGroups(t[1..]);
    assert IsDigit(t[0]) && IsDigit(t[|t| - 1]);
    StripKeeps(t);
    ParseIntOfStripped(t);
  }

  /** `int()` of a string of digits `s` written `n` times is the number
      that text spells. */
  lemma RepeatedDigitsRead(s: string, n: int)
    requires s != [] && n >= 1
    requires forall i :: 0 <= i < |s| ==> IsDigit(s[i])
    ensures PyInt(Str(Repeat(s, n))) == Ok(DigitsValue(Repeat(s, n)))
  {
    var t := Repeat(s, n);
    RepeatDigits(s, n);
    DigitsRead(t);
  }

  /** A string of digits repeated is still a string of digits. */
  lemma {:induction false} RepeatDigits(s: string, n: int)
    requires forall i :: 0 <= i < |s| ==> IsDigit(s[i])
    ensures forall i :: 0 <= i < |Repeat(s, n)| ==> IsDigit(Repeat(s, n)[i])
    decreases n
  {
    if n >= 1 {
      RepeatDigits(s, n - 1);
      var r := Repeat(s, n - 1);
      assert Repeat(s, n) == s + r;
      forall i | 0 <= i < |s + r| ensures IsDigit((s + r)[i]) {
        if i < |s| {
          assert (s + r)[i] == s[i];
        } else {
          assert (s + r)[i] == r[i - |s|];
        }
      }
    }
  }

  /** `int(str(n)) == n`: the decimal text of any integer reads back as it. */
  lemma {:induction false} ParseIntRoundTrip(n: int)
    ensures ParseInt(IntToString(n)) == Some(n)
  {
    if n < 0 {
      NegativeRoundTrip(n);
    } else {
      var s := IntToString(n);
      DigitsOfIntToString(n);
      StripKeeps(s);
      assert DigitGroups(Strip(s));
    }
  }

  /** The negative half of ParseIntRoundTrip: "-" and the digits of `-n`. */
  lemma {:induction false} NegativeRoundTrip(n: int)
    requires n < 0
    ensures ParseInt(IntToString(n)) == Some(n)
  {
    var d := IntToString(-n);
    DigitsOfIntToString(-n);
    NegativeLiteral(d, -n);
    NegativeText(n);
  }

  /** A negative int prints as a minus sign and the digits of its absolute
      value. */
  lemma NegativeText(n: int)
    requires n < 0
    ensures IntToString(n) == "-" + IntToString(-n)
  {
  }

  /** A minus sign before digit groups negates their value. */
  lemma {:induction false} NegativeLiteral(d: string, m: int)
    requires DigitGroups(d) && DigitsValue(d) == m
    ensures ParseInt("-" + d) == Some(-m)
  {
    NegativeSigned(d, m);
    NegativeStripped(d);
    ParseIntOfStripped("-" + d);
  }

  /** The signed reading of "-" and digit groups. */
  lemma NegativeSigned(d: string, m: int)
    requires DigitGroups(d) && DigitsValue(d) == m
    ensures SignedLiteral("-" + d) == Some(-m)
  {
    var s := "-" + d;
    assert s[1..] == d;
    assert s[0] == '-';
  }

  /** "-" and digit groups have no surrounding whitespace. */
  lemma NegativeStripped(d: string)
    requires DigitGroups(d)
    ensures Strip("-" + d) == "-" + d
  {
    var s := "-" + d;
    assert s[|s| - 1] == d[|d| - 1];
    if |d| > 1 {
      GroupsEndInDigit(d[1..]);
      assert d[1..][|d| - 2] == d[|d| - 1];
    }
    StripKeeps(s);
  }

  /** On a string without surrounding whitespace, `int()` is the signed
      literal reading. */
  lemma ParseIntOfStripped(s: string)
    requires Strip(s) == s
    ensures ParseInt(s) == SignedLiteral(s)
  {
  }

  /** A sign and a leading zero are allowed: "-0d" reads as -d. */
  lemma {:induction false} SignedZeroPaddedLiteral(c: char)
    requires IsDigit(c)
    ensures ParseInt("-" + ['0', c]) == Some(-(c as int - '0' as int))
  {
    var d := ['0', c];
    assert DigitGroups(d) by {
      assert [c][1..] == [];
      assert d[1..] == [c];
    }
    assert DigitsValue(d) == c as int - '0' as int by {
      assert d[..1] == ['0'] && ['0'][..0] == [];
    }
    NegativeLiteral(d, c as int - '0' as int);
  }

  /** Two underscores in a row are refused. */
  lemma {:induction false} DoubledUnderscoreRefused(a: char, b: char)
    requires IsDigit(a) && IsDigit(b)
    ensures ParseInt([a, '_', '_', b]) == None
  {
    var s := [a, '_', '_', b];
    assert SignedLiteral(s) == None by {
      assert s[1..] == ['_', '_', b];
    }
    assert Strip(s) == s by {
      StripKeeps(s);
    }
  }

  /** A literal cannot end in an underscore. */
  lemma {:induction false} TrailingUnderscoreRefused(t: string)
    requires t != [] && forall i :: 0 <= i < |t| ==> IsDigit(t[i])
    ensures ParseInt(t + "_") == None
  {
    var s := t + "_";
    assert SignedLiteral(s) == None by {
      assert s[0] == t[0];
      assert s[1..] != [] && s[1..][|s| - 2] == '_';
      if GroupsTail(s[1..]) {
        GroupsEndInDigit(s[1..]);
      }
    }
    assert Strip(s) == s by {
      assert s[0] == t[0];
      StripKeeps(s);
    }
  }

  /** A space inside the literal is refused. */
  lemma {:induction false} InnerSpaceRefused(a: char, b: char)
    requires IsDigit(a) && IsDigit(b)
    ensures ParseInt([a, ' ', b]) == None
  {
    var s := [a, ' ', b];
    assert SignedLiteral(s) == None by {
      assert s[1..] == [' ', b];
    }
    assert Strip(s) == s by {
      StripKeeps(s);
    }
  }

  /** A one-character string is an integer literal exactly when the
      character is a digit. */
  lemma {:induction false} SingleCharLiteral(c: char)
    ensures ParseInt([c]) == if IsDigit(c) then Some(c as int - '0' as int) else None
  {
    var s := [c];
    if IsSpace(c) {
      assert Strip(s) == [] by {
        assert TrimStart(s) == TrimStart(s[1..]);
        assert s[1..] == [];
      }
    } else {
      assert SignedLiteral(s) == if IsDigit(c) then Some(c as int - '0' as int) else None by {
        assert s[1..] == [] && s[..0] == [];
        if IsDigit(c) {
          assert DigitGroups(s);
          assert DigitsValue(s) == DigitsValue([]) * 10 + (c as int - '0' as int);
        } else {
          assert !DigitGroups(s) && !DigitGroups(s[1..]);
        }
      }
      assert Strip(s) == s by {
        StripKeeps(s);
      }
    }
  }

  /** Whitespace around the literal does not change what it reads as. */
  lemma {:induction false} ParseIntIgnoresSpace(s: string)
    ensures ParseInt(s) == ParseInt(Strip(s))
  {
    StripKeeps(Strip(s));
  }

  /** The TypeError text of `int(v)` for a value `int()` does not take. */
  function IntArgError(v: Value): PyException {
    TypeError("int() argument must be a string, a bytes-like object or a real number, not '" + TypeName(v) + "'")
  }

  /** Python's `int(v)` on a decoded value: a number truncates, a boolean is
      0 or 1, a string is parsed, anything else is a TypeError. */
  function PyInt(v: Value): (r: Result<int, PyException>)
    ensures v.Num? ==> r == Ok(Trunc(v.n))
    ensures v.Bool? ==> r == Ok(if v.b then 1 else 0)
    ensures v.Str? && ParseInt(v.s).Some? ==> r == Ok(ParseInt(v.s).value)
    ensures v.Str? && ParseInt(v.s).None? ==>
      r == Err(ValueError("invalid literal for int() with base 10: '" + v.s + "'"))
    ensures v.Null? || v.Arr? || v.Obj? ==> r == Err(IntArgError(v))
  {
    match v
    case Num(n) => Ok(Trunc(n))
    case Bool(b) => Ok(if b then 1 else 0)
    case Str(s) =>
      (match ParseInt(s)
       case Some(n) => Ok(n)
       case None => Err(ValueError("invalid literal for int() with base 10: '" + s + "'")))
    case _ => Err(IntArgError(v))
  }

  /** `int()` of a one-character string: the digit's value, or the
      ValueError naming the character. */
  lemma PyIntOfChar(c: char)
    ensures PyInt(Str([c])) == if IsDigit(c) then Ok(c as int - '0' as int)
      else Err(ValueError("invalid literal for int() with base 10: '" + [c] + "'"))
  {
    SingleCharLiteral(c);
  }

  /** `n * v` with an int `n` on the left: None when Python computes a
      product (numbers and booleans multiply, strings and lists repeat), the
      TypeError for None and dictionaries. */
  function TimesError(v: Value): (r: Option<PyException>)
    ensures r.None? <==> !(v.Null? || v.Obj?)
  {
    if v.Null? || v.Obj? then Some(TypeError("unsupported operand type(s) for *: 'int' and '" + TypeName(v) + "'"))
    else None
  }

  /** `config.get(key, default)`: the stored value when the key is present
      (even when that value is null), the default otherwise. */
  function Get(config: Config, key: string, default: Value): (v: Value)
    ensures key in config ==> v == config[key]
    ensures key !in config ==> v == default
  {
    if key in config then config[key] else default
  }

  /** The TypeError text of `v["key"]` on a decoded value that is not a
      dictionary. */
  function NotSubscriptable(v: Value): string {
    match v
    case Arr(_) => "list indices must be integers or slices, not str"
    case Str(_) => "string indices must be integers, not 'str'"
    case _ => "'" + TypeName(v) + "' object is not subscriptable"
  }

  /** The Python exceptions the model raises. */
  datatype PyException =
    | FileNotFoundError(detail: string)
    | ZeroDivisionError
    | AttributeError(owner: string, attribute: string)
    | KeyError(key: string)
    | IntKeyError(index: int)
    | ValueError(detail: string)
    | IndexError(detail: string)
    | TypeError(detail: string)
    | RuntimeError(detail: string)
    | Exception(detail: string)
  {
    /** `str(e)`: the text the worker puts into an error message. */
    function Message(): string {
      match this
      case FileNotFoundError(d) => d
      case ZeroDivisionError => "division by zero"
      case AttributeError(o, a) => "'" + o + "' object has no attribute '" + a + "'"
      case KeyError(k) => "'" + k + "'"
      case IntKeyError(i) => IntToString(i)
      case ValueError(d) => d
      case IndexError(d) => d
      case TypeError(d) => d
      case RuntimeError(d) => d
      case Exception(d) => d
    }
  }
}

=== FILE: worker.dfy ===
/** The persistent Python worker's protocol loop (python-scripts/worker.py):
    its startup messages, the handling of one input line, the lazy FLUX load,
    and the dispatch to the three upscalers. The input line's JSON decoding
    is a parameter; the worker's own state is the three upscaler instances
    and the `flux_loaded` flag. */
module Worker {
  import opened Wrappers
  import opened Values
  import opened ImageUtils
  import opened JobConfig
  import opened Protocol
  import Esrgan
  import Flux
  import Imagen

  /** The worker's upscalers: the ESRGAN model cache, the Imagen instance,
      the FLUX instance and whether FLUX has been loaded. */
  datatype WorkerState = WorkerState(
    esrgan: Esrgan.ModelCache,
    imagen: Imagen.ImagenState,
    flux: Flux.FluxState,
    fluxLoaded: bool)

  /** What holds of every state the worker reaches: the ESRGAN cache is
      coherent and `flux_loaded` is set exactly when the FLUX instance holds
      loaded models. */
  predicate Consistent(w: WorkerState) {
    Esrgan.Coherent(w.esrgan) && (w.fluxLoaded <==> w.flux.loaded.Some?)
  }

  /** `main` up to the input loop: the state and the messages written. */
  datatype Boot = Boot(state: WorkerState, messages: seq<WorkerMessage>)

  /** Announce loading, try to preload the default ESRGAN model (a failure
      is only a warning), then announce readiness. */
  function Startup(imagen: Imagen.ImagenState, env: Env): (b: Boot)
    ensures Consistent(b.state)
    ensures !b.state.fluxLoaded && b.state.imagen == imagen
    ensures 2 <= |b.messages| <= 3
    ensures b.messages[0] == Status("loading_models")
    ensures b.messages[|b.messages| - 1] == Status("ready")
    ensures forall i :: 0 <= i < |b.messages| - 1 ==> b.messages[i] != Status("ready")
    ensures |b.messages| == 3 <==> Esrgan.LoadModel(Esrgan.InitialCache, Str(Esrgan.DefaultModel), env).result.Err?
    ensures |b.messages| == 3 ==> b.messages[1].Warning?
  {
    var load := Esrgan.LoadModel(Esrgan.InitialCache, Str(Esrgan.DefaultModel), env);
    var warning := if load.result.Err? then [Warning("Could not pre-load ESRGAN model: " + load.result.error.Message())] else [];
    Boot(WorkerState(load.cache, imagen, Flux.Unloaded, false),
         [Status("loading_models")] + warning + [Status("ready")])
  }

  /** `json.loads` of a stripped line: a value, or the decoder's message. */
  datatype Parse = Parsed(value: Value) | Malformed(error: string)

  /** `job["method"]`, `job["config"]`, `job["job_id"]`, read in that order. */
  function ReadJob(job: map<string, Value>): (r: Result<(Value, Value, Value), PyException>)
    ensures r.Ok? <==> "method" in job && "config" in job && "job_id" in job
    ensures r.Ok? ==> r.value == (job["method"], job["config"], job["job_id"])
    ensures "method" !in job ==> r == Err(KeyError("method"))
    ensures "method" in job && "config" !in job ==> r == Err(KeyError("config"))
    ensures "method" in job && "config" in job && "job_id" !in job ==> r == Err(KeyError("job_id"))
  {
    if "method" !in job then Err(KeyError("method"))
    else if "config" !in job then Err(KeyError("config"))
    else if "job_id" !in job then Err(KeyError("job_id"))
    else Ok((job["method"], job["config"], job["job_id"]))
  }

  /** The upscalers index `config` first thing; a config that is not a
      dictionary fails there. */
  function ConfigOf(config: Value): (r: Result<Config, PyException>)
    ensures r.Ok? <==> config.Obj?
    ensures r.Ok? ==> r.value == config.fields
  {
    if config.Obj? then Ok(config.fields) else Err(TypeError(NotSubscriptable(config)))
  }

  /** `get_flux()`: the worker state afterwards, the status messages written
      and the exception raised, if any. */
  datatype FluxGet = FluxGet(state: WorkerState, notices: seq<WorkerMessage>, error: Option<PyException>)

  /** On first use, announce the load, load the models with their defaults
      (not the job's `upscale_model` or `guidance`) and announce success; a
      failed load leaves `flux_loaded` unset, so the next FLUX job tries
      again. */
  function GetFlux(w: WorkerState, env: Env): (g: FluxGet)
    requires Consistent(w)
    ensures Consistent(g.state)
    ensures g.state.esrgan == w.esrgan && g.state.imagen == w.imagen
    ensures w.fluxLoaded ==> g == FluxGet(w, [], None)
    ensures !w.fluxLoaded && g.error.None? ==>
      && g.notices == [Status("loading_flux_models"), Status("flux_models_loaded")]
      && g.state.flux.loaded == Some(Flux.LoadedWith(Str(Flux.DefaultUpscaleModel), Num(Flux.DefaultGuidance)))
    ensures !w.fluxLoaded && g.error.Some? ==>
      g.notices == [Status("loading_flux_models")] && !g.state.fluxLoaded
    ensures g.error.None? <==> g.state.fluxLoaded
  {
    if w.fluxLoaded then FluxGet(w, [], None)
    else
      var load := Flux.LoadModels(Flux.Unloaded, Str(Flux.DefaultUpscaleModel), Num(Flux.DefaultGuidance), env);
      if load.error.Some? then
        FluxGet(w.(flux := Flux.Unloaded, fluxLoaded := false), [Status("loading_flux_models")], load.error)
      else
        FluxGet(w.(flux := load.state, fluxLoaded := true),
                [Status("loading_flux_models"), Status("flux_models_loaded")], None)
  }

  /** One dispatched job: the state afterwards, the status messages written
      on the way, and the upscaler's result or exception. */
  datatype Dispatched = Dispatched(state: WorkerState, notices: seq<WorkerMessage>, result: Result<UpscaleOutput, PyException>)

  /** The status messages a job may write before its reply. */
  predicate FluxNotice(m: WorkerMessage) {
    m == Status("loading_flux_models") || m == Status("flux_models_loaded")
  }

  /** The method switch: "esrgan", "flux" and "imagen" go to their upscaler;
      anything else is an unknown method. */
  function Dispatch(w: WorkerState, kind: Value, config: Value, env: Env): (d: Dispatched)
    requires Consistent(w)
    ensures Consistent(d.state)
    ensures forall m :: m in d.notices ==> FluxNotice(m)
    ensures kind !in {Str("esrgan"), Str("flux"), Str("imagen")} ==>
      d == Dispatched(w, [], Err(ValueError("Unknown method: " + PyStr(kind))))
    ensures kind != Str("flux") ==> d.notices == []
  {
    if kind == Str("esrgan") then
      match ConfigOf(config)
      case Err(e) => Dispatched(w, [], Err(e))
      case Ok(c) =>
        var run := Esrgan.Upscale(w.esrgan, c, env);
        Dispatched(w.(esrgan := run.cache), [], run.result)
    else if kind == Str("flux") then
      var g := GetFlux(w, env);
      if g.error.Some? then Dispatched(g.state, g.notices, Err(g.error.value))
      else match ConfigOf(config)
      case Err(e) => Dispatched(g.state, g.notices, Err(e))
      case Ok(c) =>
        var run := Flux.Upscale(g.state.flux, c, env);
        Dispatched(g.state.(flux := run.state), g.notices, run.result)
    else if kind == Str("imagen") then
      match ConfigOf(config)
      case Err(e) => Dispatched(w, [], Err(e))
      case Ok(c) =>
        var run := Imagen.Upscale(w.imagen, c, env);
        Dispatched(w.(imagen := run.state), [], run.result)
    else Dispatched(w, [], Err(ValueError("Unknown method: " + PyStr(kind))))
  }

  /** The worker state after a line and the messages it wrote. */
  datatype Step = Step(state: WorkerState, messages: seq<WorkerMessage>)

  /** The id an error reply carries: `job.get("job_id", "unknown")`, where
      `job` is still `{}` when the line did not decode to a dictionary. */
  function ReplyId(parsed: Parse): Value {
    if parsed.Parsed? && parsed.value.Obj? then Get(parsed.value.fields, "job_id", Str("unknown"))
    else Str("unknown")
  }

  /** One input line. A blank line writes nothing; any other line writes
      exactly one reply, last, preceded only by FLUX loading notices. A line
      that decodes to something other than a dictionary is answered with an
      error under the id "unknown". */
  function HandleLine(w: WorkerState, line: string, parse: string -> Parse, env: Env): (s: Step)
    requires Consistent(w)
    ensures Consistent(s.state)
    ensures Strip(line) == [] ==> s == Step(w, [])
    ensures Strip(line) != [] ==> s == HandleParsed(w, parse(Strip(line)), env)
  {
    var stripped := Strip(line);
    if stripped == [] then Step(w, []) else HandleParsed(w, parse(stripped), env)
  }

  /** A reply and nothing but FLUX notices before it. */
  predicate OneReply(ms: seq<WorkerMessage>) {
    && |ms| >= 1
    && ms[|ms| - 1].IsReply()
    && (forall i :: 0 <= i < |ms| - 1 ==> FluxNotice(ms[i]))
  }

  /** The body of the loop for a line that is not blank. */
  function HandleParsed(w: WorkerState, parsed: Parse, env: Env): (s: Step)
    requires Consistent(w)
    ensures Consistent(s.state)
    ensures OneReply(s.messages)
    ensures s.messages[|s.messages| - 1].Failed? ==> s.messages[|s.messages| - 1].jobId == ReplyId(parsed)
    ensures s.messages[|s.messages| - 1].Completed? ==>
      parsed.Parsed? && parsed.value.Obj? && "job_id" in parsed.value.fields
      && s.messages[|s.messages| - 1].jobId == parsed.value.fields["job_id"]
    ensures !(parsed.Parsed? && parsed.value.Obj?) ==> s.state == w && |s.messages| == 1
  {
    match parsed
    case Malformed(err) => Step(w, [Failed(Str("unknown"), err)])
    case Parsed(v) =>
      if !v.Obj? then Step(w, [Failed(Str("unknown"), NotSubscriptable(v))])
      else HandleJob(w, v.fields, env)
  }

  /** The `try` block for a line that decoded to a dictionary. */
  function HandleJob(w: WorkerState, job: map<string, Value>, env: Env): (s: Step)
    requires Consistent(w)
    ensures Consistent(s.state)
    ensures OneReply(s.messages)
    ensures s.messages[|s.messages| - 1].Failed? ==>
      s.messages[|s.messages| - 1].jobId == Get(job, "job_id", Str("unknown"))
    ensures s.messages[|s.messages| - 1].Completed? ==>
      "job_id" in job && s.messages[|s.messages| - 1].jobId == job["job_id"]
    ensures ReadJob(job).Err? ==> s == Step(w, [Failed(Get(job, "job_id", Str("unknown")), ReadJob(job).error.Message())])
    ensures ReadJob(job).Ok? ==>
      var d := Dispatch(w, ReadJob(job).value.0, ReadJob(job).value.1, env);
      s.state == d.state && s.messages[..|s.messages| - 1] == d.notices
      && (d.result.Ok? <==> s.messages[|s.messages| - 1].Completed?)
      && (d.result.Ok? ==> s.messages[|s.messages| - 1].output == d.result.value)
      && (d.result.Err? ==> s.messages[|s.messages| - 1].error == d.result.error.Message())
  {
    var id := Get(job, "job_id", Str("unknown"));
    match ReadJob(job)
    case Err(e) => Step(w, [Failed(id, e.Message())])
    case Ok((kind, config, jobId)) =>
      var d := Dispatch(w, kind, config, env);
      var reply := match d.result
        case Ok(out) => Completed(jobId, out)
        case Err(e) => Failed(id, e.Message());
      assert (d.notices + [reply])[..|d.notices|] == d.notices;
      Step(d.state, d.notices + [reply])
  }

  /** What the loop does with a line as the code is written: a line that
      decodes to a list, string, number or null makes `job["method"]` fail,
      and the handler's own `job.get` then fails too, ending the worker. */
  datatype LineOutcome = Continue(step: Step) | Crash(exception: PyException)

  function HandleLineAsWritten(w: WorkerState, line: string, parse: string -> Parse, env: Env): (o: LineOutcome)
    requires Consistent(w)
    ensures o.Crash? <==> Strip(line) != [] && parse(Strip(line)).Parsed? && !parse(Strip(line)).value.Obj?
    ensures o.Continue? ==> o.step == HandleLine(w, line, parse, env)
  {
    var stripped := Strip(line);
    if stripped != [] && parse(stripped).Parsed? && !parse(stripped).value.Obj? then
      Crash(AttributeError(TypeName(parse(stripped).value), "get"))
    else Continue(HandleLine(w, line, parse, env))
  }

  /** The line "[1]" ends the worker as written; the corrected loop answers
      it with an error reply and keeps going. */
  lemma ListLineEndsWorker(w: WorkerState, parse: string -> Parse, env: Env)
    requires Consistent(w)
    requires parse("[1]") == Parsed(Arr([Num(1.0)]))
    ensures HandleLineAsWritten(w, "[1]", parse, env) == Crash(AttributeError("list", "get"))
    ensures HandleLine(w, "[1]", parse, env)
      == Step(w, [Failed(Str("unknown"), "list indices must be integers or slices, not str")])
  {
    var v := Arr([Num(1.0)]);
    assert HandleParsed(w, Parsed(v), env) == Step(w, [Failed(Str("unknown"), NotSubscriptable(v))]);
    assert NotSubscriptable(v) == "list indices must be integers or slices, not str";
    ListLineIsStripped();
  }

  /** "[1]" has no surrounding whitespace. */
  lemma ListLineIsStripped()
    ensures Strip("[1]") == "[1]"
  {
    var line := "[1]";
    assert line[0] == '[' && line[|line| - 1] == ']';
    StripKeeps(line);
  }

  /** A method other than the three is answered with "Unknown method: ..."
      under the job's id, and nothing else changes. */
  lemma UnknownMethodAnswered(w: WorkerState, id: Value, kind: string, config: Value, env: Env)
    requires Consistent(w)
    requires kind !in {"esrgan", "flux", "imagen"}
    ensures var job := map["job_id" := id, "method" := Str(kind), "config" := config];
      HandleJob(w, job, env) == Step(w, [Failed(id, "Unknown method: " + kind)])
  {
    var job := map["job_id" := id, "method" := Str(kind), "config" := config];
    assert ReadJob(job) == Ok((Str(kind), config, id));
    var d := Dispatch(w, Str(kind), config, env);
    assert d == Dispatched(w, [], Err(ValueError("Unknown method: " + kind)));
    var s := HandleJob(w, job, env);
    assert s.messages[..|s.messages| - 1] == [];
  }

  /** The inputs the loop reads, each with the world its job sees. */
  datatype Input = Input(line: string, env: Env)

  /** The loop over a sequence of lines: the final state and every message. */
  function RunLines(w: WorkerState, inputs: seq<Input>, parse: string -> Parse): (s: Step)
    requires Consistent(w)
    ensures Consistent(s.state)
    decreases |inputs|
  {
    if inputs == [] then Step(w, [])
    else
      var first := HandleLine(w, inputs[0].line, parse, inputs[0].env);
      var rest := RunLines(first.state, inputs[1..], parse);
      Step(rest.state, first.messages + rest.messages)
  }

  /** How many messages of a sequence satisfy "FLUX models loaded". */
  function LoadedNotices(ms: seq<WorkerMessage>): nat {
    if ms == [] then 0
    else (if ms[0] == Status("flux_models_loaded") then 1 else 0) + LoadedNotices(ms[1..])
  }

  lemma {:induction false} LoadedNoticesAppend(a: seq<WorkerMessage>, b: seq<WorkerMessage>)
    ensures LoadedNotices(a + b) == LoadedNotices(a) + LoadedNotices(b)
  {
    if a == [] {
      assert a + b == b;
    } else {
      assert (a + b)[1..] == a[1..] + b;
      LoadedNoticesAppend(a[1..], b);
    }
  }

  /** One line announces a FLUX load only when FLUX was not loaded before,
      and the load then sticks. */
  lemma LineLoadsFluxOnlyFirst(w: WorkerState, line: string, parse: string -> Parse, env: Env)
    requires Consistent(w)
    ensures var s := HandleLine(w, line, parse, env);
      && LoadedNotices(s.messages) <= 1
      && (w.fluxLoaded ==> LoadedNotices(s.messages) == 0 && s.state.fluxLoaded)
      && (LoadedNotices(s.messages) == 1 ==> s.state.fluxLoaded)
  {
    var s := HandleLine(w, line, parse, env);
    if s.messages != [] {
      var reply := s.messages[|s.messages| - 1];
      var front := s.messages[..|s.messages| - 1];
      assert s.messages == front + [reply];
      LoadedNoticesAppend(front, [reply]);
      assert LoadedNotices([reply]) == 0;
      var p := parse(Strip(line));
      if p.Parsed? && p.value.Obj? && ReadJob(p.value.fields).Ok? {
        var job := p.value.fields;
        FluxNoticesCount(w, ReadJob(job).value.0, ReadJob(job).value.1, env);
      } else {
        assert front == [];
      }
    }
  }

  lemma FluxNoticesCount(w: WorkerState, kind: Value, config: Value, env: Env)
    requires Consistent(w)
    ensures var d := Dispatch(w, kind, config, env);
      && LoadedNotices(d.notices) <= 1
      && (w.fluxLoaded ==> LoadedNotices(d.notices) == 0 && d.state.fluxLoaded)
      && (LoadedNotices(d.notices) == 1 ==> d.state.fluxLoaded)
  {
    var d := Dispatch(w, kind, config, env);
    if kind == Str("flux") && !w.fluxLoaded {
      var g := GetFlux(w, env);
      if g.error.None? {
        assert LoadedNotices(g.notices) == 1 by {
          assert g.notices[1..] == [Status("flux_models_loaded")];
          assert g.notices[1..][1..] == [];
        }
      } else {
        assert g.notices[1..] == [];
      }
    }
  }

  /** Over any run of lines the FLUX models are announced loaded at most
      once, and never when they were loaded before the run. */
  lemma {:induction false} FluxLoadedAtMostOnce(w: WorkerState, inputs: seq<Input>, parse: string -> Parse)
    requires Consistent(w)
    ensures var s := RunLines(w, inputs, parse);
      && LoadedNotices(s.messages) <= 1
      && (w.fluxLoaded ==> LoadedNotices(s.messages) == 0)
      && (LoadedNotices(s.messages) == 1 || w.fluxLoaded ==> s.state.fluxLoaded)
    decreases |inputs|
  {
    if inputs != [] {
      var first := HandleLine(w, inputs[0].line, parse, inputs[0].env);
      var rest := RunLines(first.state, inputs[1..], parse);
      LineLoadsFluxOnlyFirst(w, inputs[0].line, parse, inputs[0].env);
      FluxLoadedAtMostOnce(first.state, inputs[1..], parse);
      LoadedNoticesAppend(first.messages, rest.messages);
    }
  }
}

=== FILE: wrappers.dfy ===
/** Option and Result types shared by every module of the model. */
module Wrappers {

  /** A value that may be absent: Python's None / a missing dictionary key,
      or JavaScript's undefined. */
  datatype Option<+T> = None | Some(value: T) {

    /** The value, or `default` when absent. */
    function GetOr(default: T): T {
      match this
      case Some(v) => v
      case None => default
    }
  }

  /** The outcome of an operation that can raise or throw. */
  datatype Result<+T, +E> = Ok(value: T) | Err(error: E)
}
